=== FILE: README.md ===
# QPR: a Dafny model of the quarterly progress report app

QPR is a Django application in which employees fill in a quarterly progress
report (QPR) on the use of Hindi in their office. The report has a header and
eleven numbered sections. Each employee is assigned to a head of department
(HOD). Administrators approve edit requests and review the reports. This
project models the application's core as pure functions over an abstract
store, and proves what the views, the models, the profile signal and the
browser script promise.

The store (`Models.Store`) holds users, profiles, manager requests and QPR
records as maps keyed by id, together with the next free key of each table.
`Models.Valid` is the invariant the views maintain:

- every user has exactly one profile;
- employee codes are unique, and every username equals its employee code;
- every foreign key points at an existing row;
- every record is frozen exactly when its status is `Submitted`.

Each view is a function from the store and the request's inputs to an
`Outcome`: the new store plus the reply. Replies are one of:

- `Saved`, `Deleted`, `RequestsSent` or `HodUpdated`;
- a redirect to a named page;
- `Rendered(error)`: the form page rendered again with a message (HTTP 200);
- `Failed(code, error)`: an error with its HTTP status.

`Workflow.Message` gives each error's text.

Modules, in dependency order:

- `Wrappers`: `Option` and `Result`.
- `Text`: the Python string behaviour the views rely on:
  - ASCII case folding and stripping, and substring search;
  - `int()` on signed decimals and `str()` on integers;
  - `sorted(set(...))` on strings, using code-point order.
- `IsoDate`: `date.isoformat()` and `datetime.fromisoformat()` on the
  `YYYY-MM-DD` form.
- `FieldTable`: one declarative table with one row per short key. A row gives
  the key, its section, its column and its kind (integer, date or text). The
  section rows of a record are maps over these fields.
- `Codec`: `serialize_qpr_record`, `_save_section_data` and the two coercions,
  and the round trip between them.
- `Models`: the entities, the store and its invariant, the `sync_user_profile`
  signal, and the cascade when a user is deleted.
- `Queries`: the profile queries the views run, and `get_active_hods`, the HOD
  dropdown that the registration and profile forms render.
- `Workflow`: the records API and the edit-permission workflow:
  - the freeze flag, `can_edit` and `edit_approved`;
  - consuming approvals when a record is updated;
  - edit requests, and approving or rejecting them;
  - the profile form.
- `Accounts`: registration, login, HOD creation, password change, and HOD
  rename with its cascade.
- `Reports`: the HOD dashboard and the admin dashboard.
- `Directory`: the admin employee list with its filters.
- `Client`: the browser script's helpers:
  - `maskSensitiveData`;
  - the fiscal year and the year dropdown;
  - the Hindi keyboard's edits of the text at the caret.

### Behaviour of the code worth knowing

- The completion percentage is truncated by `int((q / t) * 100)`; it is not
  rounded.
- Approve and reject overwrite a request's status whatever it was. A rejected
  request can later be approved, and an approved one rejected.
- When a record is updated, a detail key missing from the payload sets its
  field to null, or to `''` for text.
- Saving a record and serialising it again does not reproduce every number.
  A stored `0` comes back as null.
- The admin dashboard does not put every user in exactly one group:
  - a user whose HOD name differs from a HOD's only in case is counted twice
    (`Reports.DoubleCountExample`);
  - a user who is their own HOD is listed in a row that counts nobody.
- The form views (registration, login, profile, HOD creation and password
  change) answer a refusal by rendering their page again with a message and
  HTTP status 200; the model's reply for that is `Rendered`. When two
  profiles share a code and role, login shows "Login error: " followed by
  Django's `MultipleObjectsReturned` text on the same page.
- A refused registration or profile form is rendered again with the HOD
  dropdown. When a HOD profile has no HOD name and some name is on offer,
  sorting the dropdown raises a `TypeError`, so every such refusal becomes a
  server error.
- A caller who is not an admin is redirected to `/` by the approval and HOD
  creation views, and an unknown request sends the admin back to the admin
  dashboard; neither answers with an HTTP error.

## Model

| member | source | states |
|---|---|---|
| FieldTable.SectionFacts | qpr_app/views.py:54-160 | Each section's table carries its own section number, its keys' prefixes name that section (`s12_` names section 11), and no key or column is repeated |
| FieldTable.KeyNamesSection | qpr_app/views.py:54-160 | A field's short key names the field's own section |
| FieldTable.KeyInjective | qpr_app/views.py:353-437 | The short key identifies the field across all eleven sections, so encoding and decoding address the same column |
| FieldTable.ColumnInjective | qpr_app/models.py:82-230 | Within a section, distinct fields are stored in distinct columns |
| IsoDate.ParseIsoFormat | qpr_app/views.py:456-458 | Parsing the `isoformat` text of any calendar date gives back that date |
| IsoDate.IsoFormatOfParsed | qpr_app/views.py:456-458 | Any text the date parser accepts is exactly the `isoformat` of the date it yields |
| Text.SortedDistinct | qpr_app/views.py:32 | `sorted(set(xs))`: strictly increasing in code-point order, holding exactly the elements of `xs` |
| Text.StrictlySortedUnique | qpr_app/views.py:32 | Two strictly sorted lists with the same elements are equal, so `sorted(set(xs))` depends only on the set of names |
| Text.LessTotal | qpr_app/views.py:32 | Python's string order relates any two distinct strings one way or the other |
| Text.LessTransitive | qpr_app/views.py:32 | Python's string order is transitive |
| Text.ParseInt | qpr_app/views.py:445 | `int()` on a string succeeds exactly on signed decimal text, and text starting with a digit gives a non-negative number |
| Text.ParseDecimalString | qpr_app/views.py:445 | `int(str(i))` gives back `i` for every integer |
| Text.NatDigits | static/js/script.js:140 | A number's decimal text is non-empty, all digits, without a leading zero, and denotes the number |
| Codec.ConvertToIntFacts | qpr_app/views.py:440-447 | `''` and `None` give `None`, `"0"` gives `0`, the decimal text of any integer gives that integer, and text that is not a signed decimal gives `None` instead of an error |
| Codec.ConvertToDateFacts | qpr_app/views.py:450-461 | `''` and `None` give no date, the ISO text of any date gives that date, and invalid text gives `None` instead of an error |
| Codec.SaveSectionData | qpr_app/views.py:348-437 | Succeeds exactly when every field decodes, so among the payload's values only a date key holding something that is neither text nor null makes it fail; then all eleven section rows exist and are well formed, whatever rows the record had |
| Codec.SavedField | qpr_app/views.py:348-437 | After a save, every column holds what its key's value decodes to |
| Codec.MissingKeyResets | qpr_app/views.py:355-436 | A key absent from `details` sets integer and date columns to `None` and text columns to `''`, whatever they held before |
| Codec.UnknownKeyIgnored | qpr_app/views.py:348-437 | A key that names no field makes no difference to the save |
| Codec.SameDecodingSameSave | qpr_app/views.py:348-437 | Two `details` objects that decode alike on every field save to the same rows |
| Codec.SerializedField | qpr_app/views.py:54-160 | A field's key appears in `details` exactly when the record has that section's row, and then carries the column's encoded value |
| Codec.SerializedKeys | qpr_app/views.py:51-160 | `details` holds nothing but the fields' short keys |
| Codec.DecodeEncoded | qpr_app/views.py:440-461 | Decoding an encoded value gives the value back, except that a zero integer becomes `None` and a null text becomes `''` |
| Codec.ReloadField | qpr_app/views.py:58-159 | A field decodes from its record's serialised `details` to the normalised value, or to the absent value when the section row is missing |
| Codec.ResaveOk | qpr_app/views.py:348-437 | A record's own serialised `details` always save without error |
| Codec.ResaveRoundTrip | qpr_app/views.py:58-159 | After serialising and saving back, nonzero integers, dates and non-null texts are unchanged, `0` and `None` integers become `None`, null texts become `''`, and the columns of a missing section become null |
| Codec.ResaveFieldStable | qpr_app/views.py:58-159 | A field's value survives a second serialise-and-save unchanged |
| Codec.ResaveIdempotent | qpr_app/views.py:58-159 | A second serialise-and-save changes nothing beyond what the first one did |
| Models.ParseRole | qpr_app/models.py:6-14 | Only the strings `user`, `hod` and `admin` name roles, each naming exactly one |
| Models.ParseRoleName | qpr_app/models.py:6-10 | Every role's stored string parses back to that role |
| Models.ProfilesWhereExact | qpr_app/views.py:904-909 | In a valid store a profile query returns each matching profile exactly once, and nothing else |
| Models.ProfilesWhereUnique | qpr_app/views.py:504 | When exactly one profile matches, the query returns exactly that profile, so `get()` finds it |
| Models.SyncProfile | qpr_app/signals.py:8-22 | An existing profile is left unchanged; otherwise a profile with the username as its code, role `user` and `profile_updated = False` is created, which fails only when that code is taken; no other profile changes |
| Models.SyncProfileIdempotent | qpr_app/signals.py:15-22 | Running the signal twice gives the same store as running it once |
| Models.SyncProfileNoOp | qpr_app/signals.py:10-15 | In a valid store every user already has a profile, so the signal changes nothing |
| Models.CreateUser | qpr_app/views.py:567-570 | A taken username fails; otherwise the account gets the next id, and the signal gives it a profile |
| Models.CreateUserSignalSucceeds | qpr_app/signals.py:15-21 | From a valid store, creating a user with a fresh username succeeds, gives it the signal's default profile, and keeps the store valid |
| Models.UsernameIsCode | qpr_app/views.py:567-570 | In a valid store a username is taken exactly when the same employee code is taken |
| Models.DeleteUser | qpr_app/models.py:12-62 | Deleting a user removes its profile, every request it sent or received, and every record it owns; nothing else changes |
| Models.DeleteUserValid | qpr_app/models.py:45-62 | The cascade keeps the store valid, and no remaining record belongs to the deleted user |
| Workflow.EditPermission | qpr_app/views.py:179-188 | `can_edit` holds exactly when the record is not submitted or the user has an approved `qpr` request; `edit_approved` is false for an unsubmitted record and implies `can_edit` |
| Workflow.ApprovalNotPerRecord | qpr_app/views.py:181-185 | Two submitted records of the same user get the same permission: an approval belongs to the requester, not to a record |
| Workflow.SerializeRecord | qpr_app/views.py:41-52 | The view has the record's id and status, a non-empty year (the record's year when set), and the permission fields of `EditPermission` |
| Workflow.ListRecords | qpr_app/views.py:166-191 | An unauthenticated caller gets an error, and an authenticated one a listing |
| Workflow.ListRecordsExact | qpr_app/views.py:173 | The listing holds every record the caller owns and nothing else, with ids strictly decreasing |
| Workflow.RecordDetail | qpr_app/views.py:464-492 | Succeeds exactly when the caller owns the record, and then shows its id and serialised details |
| Workflow.ReadHeader | qpr_app/views.py:205-211 | The header is read exactly when none of the five non-nullable columns receives `null`; office name, office code, region and quarter carry the payload's values or `''` when absent, status its value or `Draft`, and phone and email their values or `null` |
| Workflow.ConsumeApprovals | qpr_app/views.py:219-223 | Removes exactly the user's approved requests of the given kind, and keeps every other request as it was |
| Workflow.SaveRecord | qpr_app/views.py:193-252 | An unauthenticated caller gets 401; a failed save leaves the store unchanged |
| Workflow.UpdateRecord | qpr_app/views.py:202-226 | A failed update leaves the store unchanged; a successful one rewrites only the caller's record and possibly the requests |
| Workflow.CreateRecord | qpr_app/views.py:227-243 | A failed create leaves the store unchanged; a successful one adds a record under the next id |
| Workflow.SaveRecordSaved | qpr_app/views.py:202-245 | A successful save leaves the caller owning a record whose office name, office code, region, quarter, phone, email and status are the payload's header and whose sections are decoded from `details`; it is frozen exactly when its status is `Submitted`, an update keeps the record's id and year, and every other record is unchanged |
| Workflow.UpdateNotOwned | qpr_app/views.py:247-248 | An update of a record the caller does not own answers 404 and changes nothing |
| Workflow.SubmittedUpdateConsumes | qpr_app/views.py:216-223 | An update that leaves the record `Submitted` deletes exactly the caller's approved `qpr` requests; pending, rejected, `profile` and other users' requests are untouched |
| Workflow.OtherSavesKeepRequests | qpr_app/views.py:218-243 | A draft update and every create delete no request |
| Workflow.UpdateIgnoresFreeze | qpr_app/views.py:202-214 | Whether an update succeeds depends neither on the requests in the store nor on the record having been submitted |
| Workflow.CreateDefaults | qpr_app/models.py:67-71 | A new record gets the next id, belongs to the caller, and takes the default year `2025-2026` |
| Workflow.SubmitRefreezes | qpr_app/views.py:216-223 | After a submitting update the saved record is frozen and no longer editable |
| Workflow.SaveRecordValid | qpr_app/views.py:193-252 | Saving a record keeps the store valid |
| Workflow.DeleteRecord | qpr_app/views.py:254-260 | Answers `Deleted` exactly when there is a caller and a non-empty numeric id, and then removes the caller's record with that id if there is one; other records, requests, users and profiles are untouched |
| Workflow.DeleteRecordValid | qpr_app/views.py:257 | Deleting a record keeps the store valid |
| Workflow.AdminsAreAdmins | qpr_app/views.py:281 | Every user the admin query returns has the admin role |
| Workflow.SendToAdmins | qpr_app/views.py:290-296 | One new pending request from the sender to each admin, under fresh consecutive keys; nothing else changes |
| Workflow.RequestEdit | qpr_app/views.py:264-345 | Answers 401 without a user, 400 for an unknown request type, 404 for a `qpr` request about a record the caller does not own, and 400 without admins; requests are sent exactly when all checks pass |
| Workflow.SendToAdminsValid | qpr_app/views.py:290-296 | Sending the requests keeps a valid store valid |
| Workflow.ApproveRequest | qpr_app/views.py:1005-1033 | Anyone but an admin is redirected to `/` and changes nothing; an admin changes at most the status of the named request, nothing for an unknown one, and is always sent back to the admin dashboard |
| Workflow.ApproveOverwrites | qpr_app/views.py:1018-1028 | `approve` sets the status to approved and `reject` to rejected, whatever it was; any other action changes nothing |
| Workflow.ApprovalUnfreezes | qpr_app/views.py:1021-1023 | Approving a `qpr` request makes every record of its sender editable at once |
| Workflow.ApproveRequestValid | qpr_app/views.py:1015-1030 | Approving or rejecting keeps the store valid |
| Workflow.ProfileStateOf | qpr_app/views.py:613-636 | The approval and pending flags are set only for a submitted profile, and `can_edit` holds exactly when the profile is not submitted or an approved `profile` request exists |
| Workflow.UpdateProfile | qpr_app/views.py:638-680 | A refused update, whether the form shown again or an error, leaves the store unchanged; a caller without a profile gets an error |
| Workflow.UpdateProfileRefusals | qpr_app/views.py:643-680 | The form is refused exactly when a field is missing or the profile is submitted without an approved request; with a sortable dropdown the form is shown again with, in order, the name-or-email, HOD-name or frozen-profile message, and with an unsortable one every refusal is a server error |
| Workflow.UpdateProfileSaved | qpr_app/views.py:650-666 | A save finalises the profile with the new name, email and HOD name, keeps its code and role, writes the email to the account, and deletes the caller's approved `profile` requests exactly when the profile was already submitted; other profiles, other accounts and the records are unchanged |
| Workflow.UpdateProfileValid | qpr_app/views.py:651-658 | The profile form keeps the store valid |
| Accounts.Register | qpr_app/views.py:532-595 | A refused registration, whether the form shown again or an error, leaves the store unchanged |
| Accounts.RegisterRefusals | qpr_app/views.py:540-595 | The form is shown again with the first failing message in order: passwords differ, code already registered, password shorter than 6, missing code, missing HOD name; no password at all is a server error before the length check; with an unsortable dropdown every refusal is a server error; a registration missing any check is refused |
| Accounts.RegisterCreates | qpr_app/views.py:565-591 | From a valid store, a registration that passes the checks creates a user named by the code with the given password and a non-finalised `user` profile with the chosen HOD name, and keeps the store valid |
| Accounts.Login | qpr_app/views.py:495-529 | Login either redirects or shows the login page again with a message, including the lookup's error when two profiles match; it never changes the store |
| Accounts.LoginExact | qpr_app/views.py:503-519 | In a valid store login succeeds exactly when some profile has both the given code and the given role and its account has the given password; the target is that role's dashboard |
| Accounts.LoginAs | qpr_app/views.py:503-524 | In a valid store, a login with a profile's own code and role reaches that role's dashboard with the account's password and shows the invalid-login message with any other |
| Accounts.CreateHod | qpr_app/views.py:1246-1309 | Only a creation that lands on the admin dashboard changes the store |
| Accounts.CreateHodRefusals | qpr_app/views.py:1248-1271 | A caller whose role is not admin is redirected to `/`; for an admin, an empty stripped code, name or email shows the form again with the fields-required message, and with all three present a taken employee code shows it with the code-exists message; a HOD is only ever created by an admin under a free code |
| Accounts.CreateHodCreates | qpr_app/views.py:1273-1305 | From a valid store, an admin's creation with a fresh code creates an account with the default password `123456` whose profile is a finalised HOD profile carrying the stripped code and first name, and keeps the store valid |
| Accounts.ChangePassword | qpr_app/views.py:1313-1335 | A refused change, whether the form shown again or an error, leaves the store unchanged |
| Accounts.ChangePasswordRefusals | qpr_app/views.py:1320-1326 | The form is shown again with the first failing message in order: wrong current password, new passwords differ, new password shorter than 6 |
| Accounts.ChangePasswordThenLogin | qpr_app/views.py:1327-1333 | A change touches only that account's password, redirects to the role's dashboard, and afterwards the new password logs in and a different old one shows the invalid-login message |
| Accounts.FindHod | qpr_app/views.py:1361-1368 | A found profile is a HOD with that code; with no such HOD the answer is 404 |
| Accounts.FindHodExact | qpr_app/views.py:1363 | In a valid store the lookup finds the HOD with that code |
| Accounts.Reassign | qpr_app/views.py:1388-1391 | The cascade changes only the HOD name, only of a `user` profile whose HOD name matches the old name ignoring case, and every such profile takes the new name |
| Accounts.RenameHod | qpr_app/views.py:1342-1406 | A refused rename leaves the store unchanged |
| Accounts.RenameHodRefusals | qpr_app/views.py:1344-1376 | For an admin: any missing field gives 400, an unknown HOD code 404, and, once the HOD is found, a changed code already in use gives 400 naming that code |
| Accounts.RenameHodResult | qpr_app/views.py:1361-1376 | A successful rename found a HOD under the old code, and the new code was free or unchanged |
| Accounts.RenameHodEffect | qpr_app/views.py:1378-1391 | The HOD gets the new name, HOD name, code and username; every other profile goes through the cascade of `Reassign`; other accounts, requests and records are untouched |
| Accounts.ApplyRenameEffect | qpr_app/views.py:1379-1391 | The rename's writes change exactly the HOD's account and profile and the HOD names of the matching `user` profiles |
| Accounts.RenameHodValid | qpr_app/views.py:1370-1384 | A successful rename keeps the store valid |
| Accounts.ApplyRenameValid | qpr_app/views.py:1379-1384 | The writes keep a valid store valid when the new code is free or is the HOD's own |
| Accounts.ApplyRenameCodes | qpr_app/views.py:1370-1382 | Codes stay unique and usernames keep following codes |
| Queries.WhereExact | qpr_app/views.py:724-727 | In a valid store a profile query returns exactly the matching profiles |
| Reports.SubmittedIsFrozen | qpr_app/views.py:911-914 | The users with a record of status `Submitted` are exactly the users with a record flagged `is_submitted` |
| Reports.Count | qpr_app/views.py:909-914 | A count never exceeds the number of profiles counted, and equals it when all qualify |
| Reports.CountIsCard | qpr_app/views.py:909-914 | Counting over a duplicate-free list counts the set of qualifying elements |
| Reports.CountWhere | qpr_app/views.py:729 | In a valid store counting over a query counts the matching profiles that qualify |
| Reports.SizeWhere | qpr_app/views.py:909 | In a valid store a query returns as many profiles as match |
| Queries.HodNamesExact | qpr_app/views.py:23 | The HOD names a query yields are exactly those of the matching profiles |
| Queries.FirstNamesExact | qpr_app/views.py:26-29 | The first names collected are exactly those of `user` profiles without a HOD name |
| Queries.ActiveHods | qpr_app/views.py:20-33 | A HOD profile with no HOD name makes the sort fail unless nothing else is on offer; otherwise the names are strictly sorted and are exactly the collected texts |
| Queries.DropdownTextsExact | qpr_app/views.py:23-29 | The texts collected are exactly the names on offer |
| Queries.ActiveHodsExact | qpr_app/views.py:20-33 | In a valid store the dropdown offers exactly the HOD names of the HOD profiles and the first names of unassigned users, sorted, unless a HOD without a HOD name breaks the sort |
| Reports.HodDashboard | qpr_app/views.py:714-750 | Only HODs get the dashboard, and a caller without a profile gets a server error; it shows the HOD's own HOD name; the submitted and finalised counts never exceed the total, and pending is total minus submitted |
| Reports.HodDashboardCounts | qpr_app/views.py:724-741 | In a valid store the counts are the users whose HOD name equals the HOD's exactly, those with a submitted QPR, and those with a finalised profile |
| Reports.Percent | qpr_app/views.py:916 | The completion percentage lies in 0..100, is 0 for an empty group, and is the floor of 100q/t |
| Reports.PercentFull | qpr_app/views.py:954 | A group with every user done scores 100 |
| Reports.StatsRow | qpr_app/views.py:942-963 | A statistics row is consistent: no count above its total, and a percentage in 0..100 that is 0 for an empty group |
| Reports.HodRowOf | qpr_app/views.py:896-925 | A HOD's row is consistent |
| Reports.DropCovered | qpr_app/views.py:937-938 | Keeps exactly the names no HOD profile carries exactly, and keeps a sorted list sorted |
| Reports.UncoveredNames | qpr_app/views.py:927-941 | The uncovered names are strictly sorted |
| Reports.UncoveredExact | qpr_app/views.py:930-938 | A name is uncovered exactly when some `user` profile carries it as a non-empty HOD name and no HOD profile carries it exactly |
| Reports.StatsRowCounts | qpr_app/views.py:902-916 | A statistics row counts the `user` profiles matching its key ignoring case, those finalised and those with a submitted QPR, and takes its percentage of those counts |
| Reports.HodRowAt | qpr_app/views.py:893-925 | Row `k` of the table belongs to the `k`-th HOD profile, carries its employee code and counts the users matching its key ignoring case |
| Reports.UncoveredRowAt | qpr_app/views.py:927-963 | The `k`-th row after the HOD rows belongs to the `k`-th uncovered name, a name some user carries and no HOD carries exactly, with an empty code and the counts of the users matching it ignoring case |
| Reports.OwnRowAt | qpr_app/views.py:965-977 | The last rows belong to the users without a HOD name, one each, titled by the user and counting nobody |
| Reports.PendingBelow | qpr_app/views.py:981-984 | Exactly the pending requests whose sender is a `user`, in id order |
| Reports.PendingRows | qpr_app/views.py:986-996 | The rows are built exactly when every recipient has a profile, one per request, with the request's id |
| Reports.AdminDashboard | qpr_app/views.py:887-1004 | Only admins get the dashboard, and others are sent to the login page; the rows are the three blocks, and the HOD total is the number of rows |
| Reports.AdminRowsConsistent | qpr_app/views.py:909-916 | Every row of the admin table is consistent |
| Reports.AdminRowsShape | qpr_app/views.py:968-977 | There is one row per HOD profile, then per uncovered name, then per unassigned user; the last block counts nothing |
| Reports.PendingRowsBuilt | qpr_app/views.py:986-996 | In a valid store the request rows can always be built |
| Reports.AdminDashboardRequests | qpr_app/views.py:979-996 | In a valid store an admin always gets the dashboard, and it lists exactly the pending requests raised by users |
| Reports.HodRowCounts | qpr_app/views.py:898-914 | A HOD's row counts the `user` profiles matching the HOD's key ignoring case, those finalised, and those with a submitted QPR |
| Reports.EveryAssignedUserCounted | qpr_app/views.py:927-945 | Every `user` profile with a HOD name is counted under a HOD carrying that name, or under that name as an uncovered group |
| Reports.DoubleCountExample | qpr_app/views.py:938-945 | A valid store in which one user is counted both in a HOD's row and in an uncovered name's row, because names are removed by exact comparison but matched ignoring case |
| Directory.Latest | qpr_app/views.py:1071-1072 | The newest record is owned by the user and has the highest id of their records; there is none only when they own none |
| Directory.LatestExact | qpr_app/views.py:1071-1072 | In a valid store no owned record has a higher id than the newest, and a user without a newest record owns none |
| Directory.NoFiltersPassEveryone | qpr_app/views.py:1043-1046 | Without any filter parameter every user passes |
| Directory.Keep | qpr_app/views.py:1060-1082 | Keeps exactly the users who pass the filters, preserving order |
| Directory.KeepExact | qpr_app/views.py:1053-1082 | In a valid store a group lists exactly the matching profiles that pass the filters |
| Directory.EmployeeOf | qpr_app/views.py:1084-1093 | The row shows the employee code and, when there is no record, `Not Set` for quarter and year and `Not Submitted` for status; otherwise the newest record's status |
| Directory.NonEmpty | qpr_app/views.py:1095 | Keeps exactly the groups that list someone |
| Directory.OwnGroups | qpr_app/views.py:1170-1193 | Every user who is their own HOD and passes the code and name filters gets a group listing nobody; a quarter filter drops them all |
| Directory.Choices | qpr_app/views.py:1195-1207 | The dropdown choices are strictly sorted, and are exactly the non-empty values the column takes in some record |
| Directory.ChoicesExact | qpr_app/views.py:1196-1200 | In a valid store the choices are exactly the column's non-empty values across all records |
| Directory.EmployeeList | qpr_app/views.py:1036-1218 | Only admins get the listing, and others are redirected home; the filters are read and stripped, the groups are the HOD, uncovered-name and own-HOD blocks, and the quarter and year choices are sorted |
| Directory.HodGroupShown | qpr_app/views.py:1052-1102 | A HOD's group is shown when one of its users passes, and lists exactly the `user` profiles whose HOD name equals the HOD's and that pass |
| Directory.NameGroupShown | qpr_app/views.py:1117-1168 | An uncovered name's group is shown when one of its users passes, and lists exactly the `user` profiles matching it ignoring case that pass |
| Directory.GroupsNonEmpty | qpr_app/views.py:1095-1193 | Every HOD and uncovered-name group shown lists someone; own-HOD groups list nobody |
| Directory.QuarterFilterNeedsRecord | qpr_app/views.py:1074-1090 | With a quarter filter no own-HOD group is listed, and every listed employee has a newest record whose quarter is shown |
| Client.Mask | static/js/script.js:5-10 | A falsy value or `-` gives `-`; one or two characters are shown as they are; a longer value keeps its length and its first and last characters, with `*` everywhere between |
| Client.MaskIdempotent | static/js/script.js:5-10 | Masking a masked value gives the same text |
| Client.MaskRevealsEnds | static/js/script.js:9 | Long values of the same length and the same first and last characters mask alike |
| Client.FiscalStart | static/js/script.js:128-131 | The start year is the one year whose April-to-March fiscal year holds the given month |
| Client.LabelInjective | static/js/script.js:140-141 | Different start years give different `Y-(Y+1)` labels |
| Client.YearOptionsDistinct | static/js/script.js:135-146 | No two options of the year dropdown share a label, so assigning the current fiscal label selects at most one |
| Client.OfferedYears | static/js/script.js:135-143 | A year's label is offered exactly when the year lies between 2000 and fifty years ahead |
| Client.SelectedYear | static/js/script.js:145-146 | The current fiscal year's label is selected exactly when its start year is 2000 or later, and always from 2001 on |
| Client.Insert | static/js/script.js:99-104 | Typing replaces the selection with the text and puts the caret just after it |
| Client.Press | static/js/script.js:86-105 | A letter or Space replaces the selection and moves the caret past it; Delete with the caret after the start removes exactly the character before it and steps back; at the start Delete changes nothing |
| Client.DeleteUndoesKey | static/js/script.js:86-104 | Typing one character at a collapsed caret and then pressing Delete restores the text and the caret |
| Client.InsertKeepsSurroundings | static/js/script.js:94-104 | A key press changes nothing before or after the selection, and the length changes by the text's length minus the selection's |
| Client.NoSelectionTypesAtStart | static/js/script.js:95-97 | A field without selection support takes every key at the start of its value |

## Left out

- The ORM, HTTP, templates, `messages`, sessions and CSRF. The store is a set of maps, and a view is a function from the store to an outcome.
- `authenticate`, `check_password`, `set_password` and hashing. Passwords are stored as plain values and compared for equality.
- Partial writes when an exception follows a write. Those writes are not transactional in the source. In the model a failing save returns an error and leaves the store unchanged. The same holds for account creation when the profile signal fails after `create_user` (views.py:567-570, 1276-1281): the model refuses without the new account, where the source keeps it. From a valid store that failure cannot happen (`Models.CreateUserSignalSucceeds`).
- Exception texts. The model names a database error without its exception text. The rendered messages that end in an exception's text (views.py:526-527, 592-593, 1306-1307), and the 500 paths' texts, keep only their fixed part in `Workflow.Message`; for two matching profiles at login, Django's "-- it returned N!" suffix is not modelled.
- Other views, which are presentation of the same queries: `user_dashboard`, `hod_detail_list`, `hod_manager_requests`, `user_office_form` and `logout_view`.
- `qpr_app/admin.py`, `qpr_project/urls.py`, `qpr_app/apps.py` and `create_users.py`. These are framework registration, routing and a seeding script.
- The timestamps `created_at` and `updated_at`, and `ManagerRequest`'s `-created_at` ordering. The model lists requests in id order.
- Ordering by `name` or `user__first_name`. Ties are unspecified in SQL. The model keeps HOD rows, groups and group members in key order.
- Python's `int()` beyond signed decimal digits: whitespace, underscores and floats. `fromisoformat` beyond `YYYY-MM-DD`.
- Case folding (`lower`, `upper`, `iexact`) and `strip()` beyond ASCII.
- `max_length` of character fields, such as section 9's `agenda_hindi`. Saving does not check it.
- The browser script's DOM and network code: `loadData`, `saveData`, `editRecord`, `setFormEditability`, `toggleDetailsRow`, `showTab` and `getLabelForInput`. Also the keyboard's button layout and focus handling.
- Reports.Percent: computes the exact floor of 100q/t, whereas the source's float `int((q / t) * 100)` can be one lower (29 of 100 gives 28); only the bounds hold for both.
- Directory.EmployeeList: `get_full_name()` uses the first name only, because accounts carry no last name.
- Client.Mask: takes a string or null/undefined; numbers and other JavaScript values passed to `maskSensitiveData` are not modelled. Strings are sequences of characters, whereas `.length` and `charAt` count UTF-16 code units, so a character outside the Basic Multilingual Plane is masked differently in the browser.
- Client.SelectedYear: requires a current year of at least 1, so that the fiscal label is a label of natural numbers.
- Codec.SaveSectionData: integers are unbounded. The database refuses an integer too wide for its column, and `api_records` (views.py:249-252) then answers 500; that range depends on the database engine, whose settings are not part of this model, so the model saves any integer.
- Codec.ConvertToIntFacts: follows `int()` on ASCII signed decimals of any length. CPython also accepts other Unicode decimal digits (`int("५") == 5`), and refuses texts of more than 4300 digits, which `_convert_to_int` turns into `None`.
- Text.ParseInt: accepts exactly ASCII signed decimals of any length; the other Unicode decimal digits CPython's `int()` accepts and its 4300-digit limit are not modelled.
- Text.ParseDecimalString: the round trip holds for every integer, whereas CPython's `str()` and `int()` refuse integers of more than 4300 digits.
- Workflow.SaveRecord: a payload `id` is an integer or absent. The source also takes a numeric string such as `"5"` as that record, and a non-numeric one such as `"abc"` fails with a 500 (views.py:204, 249-252). A `"details": null` payload, which fails with a 500 when `_save_section_data` calls `.get` on `None`, cannot be expressed either.
- Workflow.ReadHeader: header values are JSON strings or `null`. A number or boolean in the header is stored by the `CharField` as its `str()`: `"phone": 12345` saves `"12345"`, and `"status": true` saves `"True"` with `is_submitted` false (views.py:205-213, 229-238). The same holds for the rename fields of `Accounts.RenameHod` (views.py:1349-1352, 1378-1382) and for the `reason` of `Workflow.RequestEdit` (views.py:274).
- Workflow.RequestEdit: `record_id` is an integer or absent. The source's lookup also takes a numeric string such as `"5"` as that record, and any other non-integer value makes the lookup raise, which the view answers with a 500 (views.py:272-277, 337-341).
- Models.Valid: kept by the views only. The admin site, left out above, can edit `status` without `is_submitted` and can change `employee_code`, which breaks "frozen exactly when `Submitted`" and "username equals employee code"; `Reports.SubmittedIsFrozen` then no longer applies.
- Client.Press: strings are sequences of characters, not UTF-16 code units. The browser also rejects assigning the selection of an e-mail input; the model sets it anyway.

=== FILE: accounts.dfy ===
/**
 * Account operations over the store: registration (`register_view`), login
 * (`login_view`), HOD creation by an admin (`admin_create_hod`), password
 * change (`change_password`) and the HOD rename with its cascade to the HOD's
 * users (`api_update_hod`). Form fields are `None` when the request lacks them.
 */
module Accounts {
  import opened Wrappers
  import opened Text
  import opened Models
  import opened Queries
  import opened Workflow

  /** The shortest password the views accept. */
  const MinPasswordLength: nat := 6

  /** The password every new HOD account starts with. */
  const DefaultHodPassword: string := "123456"

  /** Where a login or password change sends each role. */
  function DashboardOf(r: Role): Page
  {
    match r
    case UserRole => UserDashboard
    case HodRole => HodDashboard
    case AdminRole => AdminDashboard
  }

  // ------------------------------------------------------------ registration

  /**
   * `register_view`: the checks run in the order password mismatch, taken
   * employee code, short password, missing code, missing HOD name; then the
   * account is created with the code as username, and the profile the signal
   * made gets the chosen HOD name. Every refusal but the missing password,
   * which fails earlier, renders the form again with the HOD dropdown.
   */
  function Register(st: Store, code: Option<string>, password1: Option<string>, password2: Option<string>, hodName: Option<string>)
    : (o: Outcome)
    ensures Refused(o.reply) ==> o.store == st
  {
    if password1 != password2 then Outcome(st, FormRefusal(st, PasswordsDiffer))
    else if code.Some? && CodeTaken(st, code.value) then Outcome(st, FormRefusal(st, CodeRegistered))
    else if password1.None? then Outcome(st, Failed(500, PasswordMissing))
    else if |password1.value| < MinPasswordLength then Outcome(st, FormRefusal(st, PasswordTooShort))
    else if !Truthy(code) then Outcome(st, FormRefusal(st, CodeRequired))
    else if !Truthy(hodName) then Outcome(st, FormRefusal(st, HodNameRequired))
    else
      match CreateUser(st, code.value, password1, "", "")
      case Err(e) => Outcome(st, FormRefusal(st, AccountNotCreated))
      case Ok((st2, u)) =>
        Outcome(st2.(profiles := st2.profiles[u := st2.profiles[u].(hodName := hodName)]), Redirect(UserProfilePage))
  }

  /**
   * The refusals of `register_view`, in order: passwords differ, code taken,
   * no password at all (`len(None)`, a server error), password too short,
   * missing code, missing HOD name; each but the missing password renders
   * the form again with its message. When the HOD dropdown cannot be sorted,
   * rendering the form turns every other refusal into a server error.
   */
  lemma RegisterRefusals(st: Store, code: Option<string>, pw1: Option<string>, pw2: Option<string>, hodName: Option<string>)
    ensures var r := Register(st, code, pw1, pw2, hodName).reply;
      var sorts := !ActiveHods(st).Unorderable?;
      var free := !(code.Some? && CodeTaken(st, code.value));
      var longEnough := pw1.Some? && |pw1.value| >= MinPasswordLength;
      && (sorts && pw1 != pw2 ==> r == Rendered(PasswordsDiffer))
      && (sorts && pw1 == pw2 && !free ==> r == Rendered(CodeRegistered))
      && (pw1 == pw2 && free && pw1.None? ==> r == Failed(500, PasswordMissing))
      && (sorts && pw1 == pw2 && free && pw1.Some? && !longEnough ==> r == Rendered(PasswordTooShort))
      && (sorts && pw1 == pw2 && free && longEnough && !Truthy(code) ==> r == Rendered(CodeRequired))
      && (sorts && pw1 == pw2 && free && longEnough && Truthy(code) && !Truthy(hodName) ==> r == Rendered(HodNameRequired))
      && (!sorts && Refused(r) ==> r == Failed(500, HodListUnorderable) || r == Failed(500, PasswordMissing))
      && (!(pw1 == pw2 && free && longEnough && Truthy(code) && Truthy(hodName)) ==> Refused(r))
  {
  }

  /**
   * From a valid store, a registration that passes the checks always succeeds:
   * the new user has the code as username and the first password, a `user`
   * profile with that code and HOD name, not yet finalised, and the store
   * stays valid.
   */
  lemma RegisterCreates(st: Store, code: string, password: string, hodName: string)
    requires Valid(st) && !CodeTaken(st, code) && |password| >= MinPasswordLength && code != "" && hodName != ""
    ensures var o := Register(st, Some(code), Some(password), Some(password), Some(hodName));
      && o.reply == Redirect(UserProfilePage)
      && st.nextUser in o.store.users && o.store.users[st.nextUser].username == code
      && o.store.users[st.nextUser].password == Some(password)
      && st.nextUser in o.store.profiles
      && o.store.profiles[st.nextUser] == NewProfile(code).(hodName := Some(hodName))
      && Valid(o.store)
  {
    UsernameIsCode(st, code);
    CreateUserSignalSucceeds(st, code, Some(password), "", "");
    var (st2, u) := CreateUser(st, code, Some(password), "", "").value;
    var pr := st2.profiles[u].(hodName := Some(hodName));
    ValidWithProfile(st2, u, pr, st2.users[u]);
    assert st2.users[u := st2.users[u]] == st2.users;
  }

  // ------------------------------------------------------------ login

  /** The profile `UserProfile.objects.get(employee_code=code, role=role)` looks for. */
  predicate LoginMatch(pr: Profile, code: Option<string>, role: Option<string>)
  {
    code.Some? && role.Some? && pr.employeeCode == code.value && RoleName(pr.role) == role.value
  }

  /** `authenticate`: the password matches the account's (hashing not modelled). */
  predicate Authenticates(st: Store, u: UserId, password: Option<string>)
  {
    u in st.users && password.Some? && st.users[u].password == password
  }

  /**
   * `login_view`: the profile is looked up by employee code and role
   * together, then the password is checked against its account; success
   * redirects to the role's dashboard. Every failure, including the lookup's
   * own error when two profiles match, renders the login page again.
   */
  function Login(st: Store, code: Option<string>, password: Option<string>, role: Option<string>): (r: Reply)
    ensures r.Redirect? || r.Rendered?
  {
    var matches := ProfilesWhere(st, (pr: Profile) => LoginMatch(pr, code, role));
    if |matches| == 0 then Rendered(InvalidLogin)
    else if |matches| > 1 then Rendered(LoginFailed(MultipleProfiles))
    else if Authenticates(st, matches[0], password) then Redirect(DashboardOf(st.profiles[matches[0]].role))
    else Rendered(InvalidLogin)
  }

  /**
   * In a valid store, login succeeds exactly when some profile has the given
   * code AND the given role and its account has the given password; a right
   * code with the wrong role fails whatever the password. The target is the
   * role's dashboard.
   */
  lemma LoginExact(st: Store, code: string, password: Option<string>, role: string)
    requires Valid(st)
    ensures Login(st, Some(code), password, Some(role)).Redirect? <==>
      exists u :: u in st.profiles && st.profiles[u].employeeCode == code && RoleName(st.profiles[u].role) == role
        && Authenticates(st, u, password)
    ensures Login(st, Some(code), password, Some(role)).Redirect? ==>
      ParseRole(role).Some? && Login(st, Some(code), password, Some(role)) == Redirect(DashboardOf(ParseRole(role).value))
  {
    forall u | u in st.profiles && st.profiles[u].employeeCode == code && RoleName(st.profiles[u].role) == role
      ensures Login(st, Some(code), password, Some(role)).Redirect? <==> Authenticates(st, u, password)
    {
      LoginAs(st, u, password);
    }
    var matches := ProfilesWhere(st, (pr: Profile) => LoginMatch(pr, Some(code), Some(role)));
    if |matches| == 1 {
      assert matches[0] in st.profiles && LoginMatch(st.profiles[matches[0]], Some(code), Some(role));
      ParseRoleName(st.profiles[matches[0]].role);
    }
  }

  /**
   * In a valid store, logging in with a profile's own code and role reaches
   * that role's dashboard with the account's password and renders the login
   * page again with the invalid-login message with any other.
   */
  lemma LoginAs(st: Store, u: UserId, password: Option<string>)
    requires Valid(st) && u in st.profiles
    ensures var pr := st.profiles[u];
      Login(st, Some(pr.employeeCode), password, Some(RoleName(pr.role)))
        == if Authenticates(st, u, password) then Redirect(DashboardOf(pr.role)) else Rendered(InvalidLogin)
  {
    var pr := st.profiles[u];
    var p := (q: Profile) => LoginMatch(q, Some(pr.employeeCode), Some(RoleName(pr.role)));
    assert forall w :: w in st.profiles && p(st.profiles[w]) ==> w == u;
    ProfilesWhereUnique(st, p, u);
  }

  // ------------------------------------------------------------ HOD creation

  /** The HOD profile `admin_create_hod` leaves: role `hod`, HOD name and name the first name, finalised. */
  function HodProfile(pr: Profile, code: string, firstName: string): Profile
  {
    pr.(role := HodRole, hodName := Some(firstName), name := Some(firstName), profileUpdated := true, employeeCode := code)
  }

  /**
   * `admin_create_hod`: anyone but an admin is sent to `/`; the stripped
   * code, first name and email are required, the code must be free as an
   * employee code and as a username; the account gets the default password.
   */
  function CreateHod(st: Store, caller: UserId, empCode: string, firstName: string, email: string): (o: Outcome)
    ensures o.reply != Redirect(AdminDashboard) ==> o.store == st
  {
    var code := Strip(empCode);
    var first := Strip(firstName);
    var mail := Strip(email);
    if RoleOf(st, caller).None? then Outcome(st, Failed(500, NoProfile))
    else if RoleOf(st, caller) != Some(AdminRole) then Outcome(st, Redirect(Home))
    else if code == "" || first == "" || mail == "" then Outcome(st, Rendered(HodFieldsRequired))
    else if CodeTaken(st, code) then Outcome(st, Rendered(CodeExists))
    else if UsernameTaken(st, code) then Outcome(st, Rendered(UsernameExists))
    else
      match CreateUser(st, code, Some(DefaultHodPassword), first, mail)
      case Err(e) => Outcome(st, Rendered(HodNotCreated))
      case Ok((st2, u)) =>
        Outcome(st2.(profiles := st2.profiles[u := HodProfile(st2.profiles[u], code, first)]), Redirect(AdminDashboard))
  }

  /**
   * Only an admin can create a HOD: anyone else is sent to `/`. A missing
   * field, then a code already used by a profile, renders the form again
   * with its message, and a taken code never yields a new HOD.
   */
  lemma CreateHodRefusals(st: Store, caller: UserId, empCode: string, firstName: string, email: string)
    ensures var r := CreateHod(st, caller, empCode, firstName, email).reply;
      && (RoleOf(st, caller).Some? && RoleOf(st, caller) != Some(AdminRole) ==> r == Redirect(Home))
      && (RoleOf(st, caller) == Some(AdminRole) && (Strip(empCode) == "" || Strip(firstName) == "" || Strip(email) == "") ==>
            r == Rendered(HodFieldsRequired))
      && ((RoleOf(st, caller) == Some(AdminRole) && Strip(empCode) != "" && Strip(firstName) != "" && Strip(email) != ""
           && CodeTaken(st, Strip(empCode))) ==> r == Rendered(CodeExists))
      && (RoleOf(st, caller) == Some(AdminRole) && CodeTaken(st, Strip(empCode)) ==> Refused(r))
      && (r == Redirect(AdminDashboard) ==> RoleOf(st, caller) == Some(AdminRole) && !CodeTaken(st, Strip(empCode)))
  {
  }

  /**
   * From a valid store, an admin's creation with a fresh code succeeds: the
   * new account has the stripped code as username and the default password,
   * its profile is a finalised HOD profile, and the store stays valid.
   */
  lemma CreateHodCreates(st: Store, admin: UserId, empCode: string, firstName: string, email: string)
    requires Valid(st) && RoleOf(st, admin) == Some(AdminRole)
    requires Strip(empCode) != "" && Strip(firstName) != "" && Strip(email) != "" && !CodeTaken(st, Strip(empCode))
    ensures var o := CreateHod(st, admin, empCode, firstName, email);
      && o.reply == Redirect(AdminDashboard)
      && st.nextUser in o.store.users && o.store.users[st.nextUser].password == Some(DefaultHodPassword)
      && st.nextUser in o.store.profiles
      && o.store.profiles[st.nextUser] == HodProfile(NewProfile(Strip(empCode)), Strip(empCode), Strip(firstName))
      && Valid(o.store)
  {
    var code := Strip(empCode);
    UsernameIsCode(st, code);
    CreateUserSignalSucceeds(st, code, Some(DefaultHodPassword), Strip(firstName), Strip(email));
    var (st2, u) := CreateUser(st, code, Some(DefaultHodPassword), Strip(firstName), Strip(email)).value;
    ValidWithProfile(st2, u, HodProfile(st2.profiles[u], code, Strip(firstName)), st2.users[u]);
    assert st2.users[u := st2.users[u]] == st2.users;
  }

  // ------------------------------------------------------------ password change

  /**
   * `change_password`: the current password must match, then the two new
   * ones must agree, then be at least six characters, each refusal rendering
   * the form again; saving the account runs the profile signal.
   */
  function ChangePassword(st: Store, u: UserId, current: string, new1: string, new2: string): (o: Outcome)
    ensures Refused(o.reply) ==> o.store == st
  {
    if u !in st.users then Outcome(st, Failed(500, NoProfile))
    else if st.users[u].password != Some(current) then Outcome(st, Rendered(WrongPassword))
    else if new1 != new2 then Outcome(st, Rendered(NewPasswordsDiffer))
    else if |new1| < MinPasswordLength then Outcome(st, Rendered(NewPasswordTooShort))
    else
      var st1 := st.(users := st.users[u := st.users[u].(password := Some(new1))]);
      match SyncProfile(st1, u)
      case Err(e) => Outcome(st, Failed(500, DatabaseError))
      case Ok(st2) => Outcome(st2, Redirect(DashboardOf(st2.profiles[u].role)))
  }

  /** The refusals of `change_password`, in order. */
  lemma ChangePasswordRefusals(st: Store, u: UserId, current: string, new1: string, new2: string)
    requires u in st.users
    ensures var r := ChangePassword(st, u, current, new1, new2).reply;
      && (st.users[u].password != Some(current) ==> r == Rendered(WrongPassword))
      && (st.users[u].password == Some(current) && new1 != new2 ==> r == Rendered(NewPasswordsDiffer))
      && (st.users[u].password == Some(current) && new1 == new2 && |new1| < MinPasswordLength ==>
            r == Rendered(NewPasswordTooShort))
  {
  }

  /**
   * In a valid store a password change touches only that account's password,
   * after which the new password logs the user in and the old one no longer
   * does (when they differ).
   */
  lemma ChangePasswordThenLogin(st: Store, u: UserId, current: string, new1: string)
    requires Valid(st) && u in st.users && st.users[u].password == Some(current) && |new1| >= MinPasswordLength
    ensures var o := ChangePassword(st, u, current, new1, new1);
      && o.reply == Redirect(DashboardOf(st.profiles[u].role))
      && o.store == st.(users := st.users[u := st.users[u].(password := Some(new1))])
      && Valid(o.store)
      && Login(o.store, Some(st.profiles[u].employeeCode), Some(new1), Some(RoleName(st.profiles[u].role)))
           == Redirect(DashboardOf(st.profiles[u].role))
      && (current != new1 ==> Login(o.store, Some(st.profiles[u].employeeCode), Some(current), Some(RoleName(st.profiles[u].role))) == Rendered(InvalidLogin))
  {
    var st' := st.(users := st.users[u := st.users[u].(password := Some(new1))]);
    ValidWithProfile(st, u, st.profiles[u], st'.users[u]);
    assert st.profiles[u := st.profiles[u]] == st.profiles;
    LoginAs(st', u, Some(new1));
    LoginAs(st', u, Some(current));
  }

  // ------------------------------------------------------------ HOD rename

  predicate IsHodWithCode(pr: Profile, code: string)
  {
    pr.employeeCode == code && pr.role == HodRole
  }

  /** `UserProfile.objects.get(employee_code=code, role='hod')`: 404 when there is none. */
  function FindHod(st: Store, code: string): (r: Result<UserId, Reply>)
    ensures r.Ok? ==> r.value in st.profiles && IsHodWithCode(st.profiles[r.value], code)
    ensures (forall v :: v in st.profiles ==> !IsHodWithCode(st.profiles[v], code)) ==> r == Err(Failed(404, HodNotFound(code)))
  {
    var hods := ProfilesWhere(st, (pr: Profile) => IsHodWithCode(pr, code));
    if |hods| == 0 then Err(Failed(404, HodNotFound(code)))
    else
      assert hods[0] in st.profiles && IsHodWithCode(st.profiles[hods[0]], code);
      if |hods| > 1 then Err(Failed(500, MultipleProfiles))
      else Ok(hods[0])
  }

  /** In a valid store the lookup finds the one HOD with that code. */
  lemma FindHodExact(st: Store, code: string, h: UserId)
    requires Valid(st) && h in st.profiles && IsHodWithCode(st.profiles[h], code)
    ensures FindHod(st, code) == Ok(h)
  {
    var p := (pr: Profile) => IsHodWithCode(pr, code);
    assert forall w :: w in st.profiles && p(st.profiles[w]) ==> w == h;
    ProfilesWhereUnique(st, p, h);
  }

  /** Some other account already uses `name` as its username. */
  predicate UsernameTakenByOther(st: Store, u: UserId, name: string)
  {
    exists v :: v in st.users && v != u && st.users[v].username == name
  }

  /** The cascade: a `user` profile whose HOD name matches `oldName` ignoring case moves to `newName`. */
  function Reassign(pr: Profile, oldName: string, newName: string): (r: Profile)
    ensures r.(hodName := pr.hodName) == pr
    ensures r.hodName != pr.hodName ==> r.hodName == Some(newName)
    ensures r != pr ==> pr.role == UserRole && pr.hodName.Some? && IEquals(pr.hodName.value, oldName)
    ensures pr.role == UserRole && pr.hodName.Some? && IEquals(pr.hodName.value, oldName) ==> r.hodName == Some(newName)
  {
    if pr.role == UserRole && pr.hodName.Some? && IEquals(pr.hodName.value, oldName) then pr.(hodName := Some(newName))
    else pr
  }

  /** The writes of a rename of HOD `h`: its account and profile, then the cascade over all profiles. */
  function ApplyRename(st: Store, h: UserId, oldName: string, newName: string, newCode: string): Store
    requires h in st.profiles && h in st.users
  {
    var users := st.users[h := st.users[h].(username := newCode)];
    var hodPr := st.profiles[h].(name := Some(newName), hodName := Some(newName), employeeCode := newCode);
    var profiles := st.profiles[h := hodPr];
    st.(users := users, profiles := map v | v in profiles :: Reassign(profiles[v], oldName, newName))
  }

  /**
   * `api_update_hod`: admins only (403); all four fields required (400); the
   * HOD is found by old code and role `hod` (404); a changed code must be
   * free (400). The HOD's name, HOD name, code and username change, then every
   * `user` profile whose HOD name equals the given old name ignoring case
   * takes the new one. The old name is not checked against the HOD's own.
   */
  function RenameHod(st: Store, caller: UserId, oldName: Option<string>, newName: Option<string>,
                     oldCode: Option<string>, newCode: Option<string>): (o: Outcome)
    ensures o.reply.Failed? ==> o.store == st
  {
    if RoleOf(st, caller).None? then Outcome(st, Failed(500, NoProfile))
    else if RoleOf(st, caller) != Some(AdminRole) then Outcome(st, Failed(403, AdminOnly))
    else if !Truthy(oldName) || !Truthy(newName) || !Truthy(oldCode) || !Truthy(newCode) then
      Outcome(st, Failed(400, RenameFieldsRequired))
    else
      match FindHod(st, oldCode.value)
      case Err(reply) => Outcome(st, reply)
      case Ok(h) =>
        if newCode.value != oldCode.value && CodeTaken(st, newCode.value) then
          Outcome(st, Failed(400, CodeInUse(newCode.value)))
        else if h !in st.users then Outcome(st, Failed(500, NoProfile))
        else if UsernameTakenByOther(st, h, newCode.value) then
          Outcome(st, Failed(500, DatabaseError))
        else Outcome(ApplyRename(st, h, oldName.value, newName.value, newCode.value), HodUpdated)
  }

  /** The refusals of `api_update_hod`, each leaving the store unchanged. */
  lemma RenameHodRefusals(st: Store, admin: UserId, oldName: Option<string>, newName: Option<string>,
                          oldCode: Option<string>, newCode: Option<string>)
    requires RoleOf(st, admin) == Some(AdminRole)
    ensures var r := RenameHod(st, admin, oldName, newName, oldCode, newCode).reply;
      && (!Truthy(oldName) || !Truthy(newName) || !Truthy(oldCode) || !Truthy(newCode) ==> r.Failed? && r.code == 400)
      && ((Truthy(oldName) && Truthy(newName) && Truthy(oldCode) && Truthy(newCode)
           && (forall v :: v in st.profiles ==> !IsHodWithCode(st.profiles[v], oldCode.value))) ==> r.Failed? && r.code == 404)
      && (Truthy(oldCode) && Truthy(newCode) && newCode.value != oldCode.value && CodeTaken(st, newCode.value) ==> r.Failed?)
      && ((Truthy(oldName) && Truthy(newName) && Truthy(oldCode) && Truthy(newCode) && FindHod(st, oldCode.value).Ok?
           && newCode.value != oldCode.value && CodeTaken(st, newCode.value)) ==> r == Failed(400, CodeInUse(newCode.value)))
  {
  }

  /** A successful rename found the HOD by its old code, and a changed code was free. */
  lemma RenameHodResult(st: Store, admin: UserId, oldName: string, newName: string, oldCode: string, newCode: string)
    requires RenameHod(st, admin, Some(oldName), Some(newName), Some(oldCode), Some(newCode)).reply.HodUpdated?
    ensures FindHod(st, oldCode).Ok?
    ensures var h := FindHod(st, oldCode).value;
      && h in st.profiles && h in st.users && st.profiles[h].role == HodRole
      && (newCode == st.profiles[h].employeeCode || !CodeTaken(st, newCode))
      && RenameHod(st, admin, Some(oldName), Some(newName), Some(oldCode), Some(newCode)).store
         == ApplyRename(st, h, oldName, newName, newCode)
  {
  }

  /**
   * A successful rename in a valid store: the HOD `h` with the old code gets
   * the new name, HOD name, code and username; every other profile changes at
   * most its HOD name, exactly when it is a `user` whose HOD name matches the
   * old name ignoring case; other accounts, requests and records are
   * untouched.
   */
  lemma RenameHodEffect(st: Store, admin: UserId, oldName: string, newName: string, oldCode: string, newCode: string,
                        h: UserId, v: UserId)
    requires Valid(st) && h in st.profiles && IsHodWithCode(st.profiles[h], oldCode)
    requires RenameHod(st, admin, Some(oldName), Some(newName), Some(oldCode), Some(newCode)).reply.HodUpdated?
    ensures var st' := RenameHod(st, admin, Some(oldName), Some(newName), Some(oldCode), Some(newCode)).store;
      && st'.profiles.Keys == st.profiles.Keys && st'.users.Keys == st.users.Keys
      && st'.profiles[h] == st.profiles[h].(name := Some(newName), hodName := Some(newName), employeeCode := newCode)
      && st'.users[h] == st.users[h].(username := newCode)
      && (v != h && v in st.profiles ==> st'.profiles[v] == Reassign(st.profiles[v], oldName, newName))
      && (v != h && v in st.users ==> st'.users[v] == st.users[v])
      && st'.requests == st.requests && st'.records == st.records
  {
    RenameHodResult(st, admin, oldName, newName, oldCode, newCode);
    FindHodExact(st, oldCode, h);
    ApplyRenameEffect(st, h, oldName, newName, newCode, v);
  }

  lemma ApplyRenameEffect(st: Store, h: UserId, oldName: string, newName: string, newCode: string, v: UserId)
    requires h in st.profiles && h in st.users && st.profiles[h].role == HodRole
    ensures var st' := ApplyRename(st, h, oldName, newName, newCode);
      && st'.profiles.Keys == st.profiles.Keys && st'.users.Keys == st.users.Keys
      && st'.profiles[h] == st.profiles[h].(name := Some(newName), hodName := Some(newName), employeeCode := newCode)
      && st'.users[h] == st.users[h].(username := newCode)
      && (v != h && v in st.profiles ==> st'.profiles[v] == Reassign(st.profiles[v], oldName, newName))
      && (v != h && v in st.users ==> st'.users[v] == st.users[v])
      && st'.requests == st.requests && st'.records == st.records
  {
  }

  /** A successful rename keeps codes unique and usernames equal to codes. */
  lemma RenameHodValid(st: Store, admin: UserId, oldName: string, newName: string, oldCode: string, newCode: string)
    requires Valid(st)
    requires RenameHod(st, admin, Some(oldName), Some(newName), Some(oldCode), Some(newCode)).reply.HodUpdated?
    ensures Valid(RenameHod(st, admin, Some(oldName), Some(newName), Some(oldCode), Some(newCode)).store)
  {
    RenameHodResult(st, admin, oldName, newName, oldCode, newCode);
    ApplyRenameValid(st, FindHod(st, oldCode).value, oldName, newName, newCode);
  }

  /** The rename's writes keep a valid store valid when the new code is free or is the HOD's own. */
  lemma ApplyRenameValid(st: Store, h: UserId, oldName: string, newName: string, newCode: string)
    requires Valid(st) && h in st.profiles && h in st.users && st.profiles[h].role == HodRole
    requires newCode == st.profiles[h].employeeCode || !CodeTaken(st, newCode)
    ensures Valid(ApplyRename(st, h, oldName, newName, newCode))
  {
    var st' := ApplyRename(st, h, oldName, newName, newCode);
    ApplyRenameEffect(st, h, oldName, newName, newCode, h);
    ApplyRenameCodes(st, h, oldName, newName, newCode);
    ValidWithAccounts(st, st'.users, st'.profiles);
  }

  /** The new code is the only code that changes, so codes stay unique and usernames follow them. */
  lemma ApplyRenameCodes(st: Store, h: UserId, oldName: string, newName: string, newCode: string)
    requires CodesUnique(st) && ProfilesMatchUsers(st) && h in st.profiles && h in st.users && st.profiles[h].role == HodRole
    requires newCode == st.profiles[h].employeeCode || !CodeTaken(st, newCode)
    ensures CodesUnique(ApplyRename(st, h, oldName, newName, newCode))
  {
    var st' := ApplyRename(st, h, oldName, newName, newCode);
    forall v | v in st'.profiles
      ensures st'.profiles[v].employeeCode == (if v == h then newCode else st.profiles[v].employeeCode)
      ensures v in st'.users && st'.users[v].username == st'.profiles[v].employeeCode
    {
      ApplyRenameEffect(st, h, oldName, newName, newCode, v);
    }
  }
}

=== FILE: client.dfy ===
/**
 * The pure helpers of the browser script: masking sensitive values in draft
 * mode, the fiscal year and year dropdown, and the caret edits of the
 * on-screen Hindi keyboard. JavaScript strings are sequences of characters;
 * the clock's month and year are parameters.
 */
module Client {
  import opened Wrappers
  import opened Text

  // ---------------------------------------------------------------------
  // maskSensitiveData
  // ---------------------------------------------------------------------

  /** `c.repeat(n)` */
  function Repeat(c: char, n: nat): (r: string)
    ensures |r| == n && forall i :: 0 <= i < n ==> r[i] == c
  {
    if n == 0 then "" else Repeat(c, n - 1) + [c]
  }

  /** `r` shows `s` with every character but the first and the last hidden. */
  predicate HidesMiddle(s: string, r: string)
  {
    |r| == |s| && |s| > 2 && r[0] == s[0] && r[|r| - 1] == s[|s| - 1]
    && forall i :: 0 < i < |r| - 1 ==> r[i] == '*'
  }

  /**
   * `maskSensitiveData(value)` for a string value or for null/undefined
   * (`None`). Falsy values and the placeholder `-` become `-`, values of one
   * or two characters are shown as they are, longer ones keep only their
   * first and last characters.
   */
  function Mask(v: Option<string>): (r: string)
    ensures v == None || v == Some("") || v == Some("-") ==> r == "-"
    ensures v.Some? && v.value != "-" && 0 < |v.value| <= 2 ==> r == v.value
    ensures v.Some? && |v.value| > 2 ==> HidesMiddle(v.value, r)
    ensures |r| > 0
  {
    match v
    case None => "-"
    case Some(s) =>
      if s == "" || s == "-" then "-"
      else if |s| <= 2 then s
      else [s[0]] + Repeat('*', |s| - 2) + [s[|s| - 1]]
  }

  /** A masked value masks to itself, so re-displaying a draft is stable. */
  lemma {:induction false} MaskIdempotent(v: Option<string>)
    ensures Mask(Some(Mask(v))) == Mask(v)
  {
    var m := Mask(v);
    if |m| > 2 {
      var s := v.value;
      var mm := Mask(Some(m));
      assert HidesMiddle(s, m);
      assert HidesMiddle(m, mm);
      assert forall i :: 0 <= i < |m| ==> mm[i] == m[i];
    }
  }

  /**
   * Two values of the same length with the same first and last characters
   * mask alike: the mask reveals nothing else about a long value.
   */
  lemma {:induction false} MaskRevealsEnds(s: string, t: string)
    requires |s| == |t| > 2 && s[0] == t[0] && s[|s| - 1] == t[|t| - 1]
    ensures Mask(Some(s)) == Mask(Some(t))
  {
    var a := Mask(Some(s));
    var b := Mask(Some(t));
    assert HidesMiddle(s, a) && HidesMiddle(t, b);
    assert forall i :: 0 <= i < |a| ==> a[i] == b[i];
  }

  // ---------------------------------------------------------------------
  // populateYearDropdown
  // ---------------------------------------------------------------------

  /** The fiscal year starting in April of `start` holds month `month` (0-based) of `year`. */
  predicate InFiscalYear(month: int, year: int, start: int)
  {
    (year == start && 3 <= month) || (year == start + 1 && month < 3)
  }

  /**
   * The start year of the fiscal year holding the given 0-based month of the
   * given year: fiscal years run from April to March.
   */
  function FiscalStart(month: int, year: int): (start: int)
    requires 0 <= month < 12
    ensures forall s {:trigger InFiscalYear(month, year, s)} :: InFiscalYear(month, year, s) <==> s == start
    ensures year - 1 <= start <= year
  {
    if month < 3 then year - 1 else year
  }

  const FirstOptionYear := 2000
  const YearsAhead := 50

  /** The option label `Y-(Y+1)`. */
  function Label(y: nat): string
  {
    NatDigits(y) + "-" + NatDigits(y + 1)
  }

  /** Different years have different labels. */
  lemma {:induction false} LabelInjective(a: nat, b: nat)
    requires Label(a) == Label(b)
    ensures a == b
  {
    var da, db := NatDigits(a), NatDigits(b);
    var s := Label(a);
    assert s[|da|] == '-' && Label(b)[|db|] == '-';
    if |da| < |db| {
      assert false;
    } else if |db| < |da| {
      assert false;
    }
    assert da == s[..|da|] == db;
  }

  /** The options of the year dropdown, one per start year from 2000 to fifty years ahead. */
  function YearOptions(currentYear: int): (opts: seq<string>)
    ensures |opts| == if currentYear + YearsAhead < FirstOptionYear then 0
                      else currentYear + YearsAhead - FirstOptionYear + 1
    ensures forall i :: 0 <= i < |opts| ==> opts[i] == Label(FirstOptionYear + i)
  {
    var n := if currentYear + YearsAhead < FirstOptionYear then 0
             else currentYear + YearsAhead - FirstOptionYear + 1;
    seq(n, i requires 0 <= i < n => Label(FirstOptionYear + i))
  }

  /**
   * No two options share a label, so assigning the select's value picks at
   * most one of them.
   */
  lemma YearOptionsDistinct(currentYear: int, i: int, j: int)
    requires 0 <= i < j < |YearOptions(currentYear)|
    ensures YearOptions(currentYear)[i] != YearOptions(currentYear)[j]
  {
    var opts := YearOptions(currentYear);
    var a: nat, b: nat := FirstOptionYear + i, FirstOptionYear + j;
    assert opts[i] == Label(a) && opts[j] == Label(b);
    if Label(a) == Label(b) {
      LabelInjective(a, b);
    }
  }

  /** A year's label is offered exactly when the year lies in the dropdown's range. */
  lemma {:induction false} OfferedYears(currentYear: int, y: nat)
    ensures Label(y) in YearOptions(currentYear) <==> FirstOptionYear <= y <= currentYear + YearsAhead
  {
    var opts := YearOptions(currentYear);
    if Label(y) in opts {
      var i :| 0 <= i < |opts| && opts[i] == Label(y);
      LabelInjective(y, FirstOptionYear + i);
    }
    if FirstOptionYear <= y <= currentYear + YearsAhead {
      assert opts[y - FirstOptionYear] == Label(y);
    }
  }

  /**
   * The option the dropdown shows after `select.value` is set to the current
   * fiscal year's label: that option when it exists, otherwise none.
   */
  function SelectedYear(month: int, currentYear: int): (r: Option<string>)
    requires 0 <= month < 12 && currentYear >= 1
    ensures r.Some? <==> FiscalStart(month, currentYear) >= FirstOptionYear
    ensures r.Some? ==> r.value == Label(FiscalStart(month, currentYear)) && r.value in YearOptions(currentYear)
    ensures currentYear > FirstOptionYear ==> r == Some(Label(FiscalStart(month, currentYear)))
  {
    var start := FiscalStart(month, currentYear);
    var l := Label(start);
    OfferedYears(currentYear, start);
    if l in YearOptions(currentYear) then Some(l) else None
  }

  // ---------------------------------------------------------------------
  // The Hindi keyboard's click handler
  // ---------------------------------------------------------------------

  /** The focused text field: its value and selection (`null` for fields without one). */
  datatype Field = Field(value: string, selStart: Option<nat>, selEnd: Option<nat>)

  /** A key of the on-screen keyboard. */
  datatype Key = Letter(text: string) | Space | Delete

  /** The key behind a button label of the layout. */
  function KeyOf(caption: string): Key
  {
    if caption == "Space" then Space else if caption == "Delete" then Delete else Letter(caption)
  }

  /** `x || 0` for a selection end point */
  function OrZero(p: Option<nat>): nat
  {
    match p
    case None => 0
    case Some(n) => n
  }

  /** How `String.prototype.slice` reads an index into a string of length `n`. */
  function SliceIndex(i: int, n: nat): (r: nat)
    ensures r <= n
    ensures 0 <= i <= n ==> r == i
  {
    if i < 0 then (if n + i < 0 then 0 else n + i) else if i > n then n else i
  }

  /** `s.slice(from, to)` */
  function Slice(s: string, from: int, to: int): (r: string)
    ensures 0 <= from <= to <= |s| ==> r == s[from..to]
    ensures |r| <= |s|
  {
    var a := SliceIndex(from, |s|);
    var b := SliceIndex(to, |s|);
    if a < b then s[a..b] else ""
  }

  /** Assigning both selection end points, which the browser caps at the value's length. */
  function WithCaret(value: string, caret: nat): (f: Field)
    ensures f.value == value && f.selStart == f.selEnd
    ensures caret <= |value| ==> f.selStart == Some(caret)
  {
    var c := if caret <= |value| then caret else |value|;
    Field(value, Some(c), Some(c))
  }

  /** The selection is well placed, as a browser keeps it for a text input. */
  predicate Collapsible(f: Field)
  {
    OrZero(f.selStart) <= OrZero(f.selEnd) <= |f.value|
  }

  /** Typing `text` over the selection. */
  function Insert(f: Field, text: string): (r: Field)
    ensures Collapsible(f) ==>
      var s, e := OrZero(f.selStart), OrZero(f.selEnd);
      && r.value == f.value[..s] + text + f.value[e..]
      && r.selStart == r.selEnd == Some(s + |text|)
  {
    var s, e := OrZero(f.selStart), OrZero(f.selEnd);
    WithCaret(Slice(f.value, 0, s) + text + Slice(f.value, e, |f.value|), s + |text|)
  }

  /** One click on a key of the keyboard. */
  function Press(f: Field, k: Key): (r: Field)
    ensures k.Letter? && Collapsible(f) ==>
      r.value == f.value[..OrZero(f.selStart)] + k.text + f.value[OrZero(f.selEnd)..]
      && r.selStart == r.selEnd == Some(OrZero(f.selStart) + |k.text|)
    ensures k.Space? && Collapsible(f) ==>
      r.value == f.value[..OrZero(f.selStart)] + " " + f.value[OrZero(f.selEnd)..]
      && r.selStart == r.selEnd == Some(OrZero(f.selStart) + 1)
    ensures k.Delete? && OrZero(f.selStart) == 0 ==> r == f
    ensures k.Delete? && 0 < OrZero(f.selStart) <= |f.value| ==>
      var s := OrZero(f.selStart);
      && r.value == f.value[..s - 1] + f.value[s..]
      && r.selStart == r.selEnd == Some(s - 1)
  {
    match k
    case Letter(text) => Insert(f, text)
    case Space => Insert(f, " ")
    case Delete =>
      var s := OrZero(f.selStart);
      if s > 0 then WithCaret(Slice(f.value, 0, s - 1) + Slice(f.value, s, |f.value|), s - 1)
      else f
  }

  /**
   * Typing one character at a collapsed caret and then pressing Delete gives
   * back the original text with the caret where it was.
   */
  lemma {:induction false} DeleteUndoesKey(value: string, c: nat, k: Key)
    requires c <= |value|
    requires k.Space? || (k.Letter? && |k.text| == 1)
    ensures Press(Press(Field(value, Some(c), Some(c)), k), Delete) == Field(value, Some(c), Some(c))
  {
    var f := Field(value, Some(c), Some(c));
    var g := Press(f, k);
    var ch := if k.Space? then " " else k.text;
    var w := value[..c] + ch + value[c..];
    assert g.value == w && g.selStart == g.selEnd == Some(c + 1);
    assert |w| == |value| + 1;
    var h := Press(g, Delete);
    assert h.value == w[..c] + w[c + 1..] && h.selStart == h.selEnd == Some(c);
    assert w[..c] == value[..c];
    assert w[c + 1..] == value[c..];
    assert value[..c] + value[c..] == value;
  }

  /**
   * A key press changes nothing before the selection and nothing after it, and
   * the value grows by the key's text less the selected text.
   */
  lemma {:induction false} InsertKeepsSurroundings(f: Field, text: string)
    requires Collapsible(f)
    ensures
      var s, e := OrZero(f.selStart), OrZero(f.selEnd);
      var r := Insert(f, text);
      && |r.value| == |f.value| - (e - s) + |text|
      && r.value[..s] == f.value[..s]
      && r.value[s..s + |text|] == text
      && r.value[s + |text|..] == f.value[e..]
  {
    var s, e := OrZero(f.selStart), OrZero(f.selEnd);
    var r := Insert(f, text);
    assert r.value == f.value[..s] + text + f.value[e..];
    assert (f.value[..s] + text + f.value[e..])[..s] == f.value[..s];
    assert (f.value[..s] + text + f.value[e..])[s..s + |text|] == text;
    assert (f.value[..s] + text + f.value[e..])[s + |text|..] == f.value[e..];
  }

  /**
   * A field without selection support (`null` end points, as for e-mail
   * inputs) takes every key at the very start of its value.
   */
  lemma NoSelectionTypesAtStart(value: string, text: string)
    ensures Insert(Field(value, None, None), text).value == text + value
  {
    assert value[..0] == "" && value[0..] == value;
  }
}

=== FILE: codec.dfy ===
/**
 * The record codec: the flat `details` object of the JSON API on one side, the
 * eleven one-to-one section rows of a QPR record on the other, both driven by
 * the field table. `SerializeDetails` is the section part of
 * `serialize_qpr_record`; `SaveSectionData` is `_save_section_data` with its two
 * coercions `_convert_to_int` and `_convert_to_date`.
 */
module Codec {
  import opened Wrappers
  import opened Text
  import opened IsoDate
  import opened FieldTable

  /** The JSON values a client can place in `details`. */
  datatype Json = JNull | JBool(b: bool) | JInt(i: int) | JStr(s: string)

  /** A stored column value: a nullable integer, date or text. */
  datatype Value = IntVal(n: Option<int>) | DateVal(d: Option<CalendarDate>) | TextVal(t: Option<string>)

  /** One section row: its columns, addressed by field. */
  type Row = map<Field, Value>

  /** The section rows that exist for one record. */
  type Sections = map<SectionNo, Row>

  /** The flat `details` object. */
  type Details = map<string, Json>

  predicate HasKind(v: Value, k: Kind)
  {
    match k
    case IntKind => v.IntVal?
    case DateKind => v.DateVal?
    case TextKind => v.TextVal?
  }

  /** A row of section `s` has exactly that section's columns, each holding a value of its kind. */
  ghost predicate WellFormedRow(s: SectionNo, row: Row)
  {
    && (forall f :: f in row <==> f in FieldsOf(s))
    && (forall f :: f in row ==> HasKind(row[f], f.kind))
  }

  ghost predicate WellFormedSections(secs: Sections)
  {
    forall s :: s in secs ==> WellFormedRow(s, secs[s])
  }

  // ------------------------------------------------------------ coercions

  /** `_convert_to_int`: `''` and `None` give `None`; `int(value)` otherwise, `None` on `ValueError`. */
  function ConvertToInt(v: Json): Option<int>
  {
    match v
    case JNull => None
    case JStr(s) => if s == "" then None else ParseInt(s)
    case JInt(i) => Some(i)
    case JBool(b) => Some(if b then 1 else 0)
  }

  /**
   * What `_convert_to_date` hands to the date column: a date or `None` for
   * strings and `None`, or the value itself, unconverted, for any other JSON value.
   */
  datatype DateCoercion = Coerced(d: Option<CalendarDate>) | Unconverted(v: Json)

  /** `_convert_to_date`: `''` and `None` give `None`; an ISO date string its date; an unparsable one `None`. */
  function ConvertToDate(v: Json): DateCoercion
  {
    match v
    case JNull => Coerced(None)
    case JStr(s) => if s == "" then Coerced(None) else Coerced(ParseIsoDate(s))
    case _ => Unconverted(v)
  }

  /** What a text column stores for a JSON value: `None` stays null, anything else becomes `str(value)`. */
  function TextOf(v: Json): Option<string>
  {
    match v
    case JNull => None
    case JStr(s) => Some(s)
    case JInt(i) => Some(DecimalString(i))
    case JBool(b) => Some(if b then "True" else "False")
  }

  /** `details.get(key, default)` */
  function Get(details: Details, key: string, default: Json): Json
  {
    if key in details then details[key] else default
  }

  /**
   * The value `_save_section_data` assigns to field `f`, or `None` when the
   * database would reject it (a non-string, non-null value under a date key).
   * Integer and date keys are read with `details.get(key)`, text keys with
   * `details.get(key, '')`.
   */
  function DecodeField(f: Field, details: Details): Option<Value>
  {
    match f.kind
    case IntKind => Some(IntVal(ConvertToInt(Get(details, f.key, JNull))))
    case DateKind =>
      (match ConvertToDate(Get(details, f.key, JNull))
       case Coerced(d) => Some(DateVal(d))
       case Unconverted(_) => None)
    case TextKind => Some(TextVal(TextOf(Get(details, f.key, JStr("")))))
  }

  /** Every field of section `s` decodes: no date key carries a non-string, non-null value. */
  predicate SectionDecodable(s: SectionNo, details: Details)
  {
    forall f :: f in FieldsOf(s) ==> DecodeField(f, details).Some?
  }


  /** Every field of every section decodes. */
  predicate Decodable(details: Details)
  {
    forall s: SectionNo :: SectionDecodable(s, details)
  }

  /** Decodability, field by field. */
  lemma DecodableFields(details: Details)
    ensures Decodable(details) <==> forall f :: IsField(f) ==> DecodeField(f, details).Some?
  {
    if !Decodable(details) {
      var s: SectionNo :| !SectionDecodable(s, details);
      var f :| f in FieldsOf(s) && DecodeField(f, details).None?;
      InSection(f, s);
    } else {
      forall f | IsField(f)
        ensures DecodeField(f, details).Some?
      {
        assert SectionDecodable(f.section, details);
      }
    }
  }

  /** Section `s`'s row as `_save_section_data` leaves it. */
  function SectionRow(s: SectionNo, details: Details): (row: Row)
    requires SectionDecodable(s, details)
    ensures WellFormedRow(s, row)
    ensures forall f :: f in row ==> row[f] == DecodeField(f, details).value
  {
    map f | f in FieldsOf(s) :: f := DecodeField(f, details).value
  }

  /**
   * `_save_section_data`: gets or creates all eleven section rows and
   * overwrites every one of their columns from `details`, failing when a date
   * column is handed a value that is neither text nor null. The rows the record
   * had before play no part in the result (`SavedField`).
   */
  function SaveSectionData(details: Details): (r: Result<Sections, string>)
    ensures r.Ok? <==> Decodable(details)
    ensures r.Ok? ==> WellFormedSections(r.value) && forall s: SectionNo :: s in r.value
  {
    if Decodable(details) then
      Ok(map s: SectionNo | 1 <= s <= 11 :: SectionRow(s, details))
    else
      Err("invalid date value")
  }

  /** After a successful save, every column holds what its key decodes to. */
  lemma SavedField(details: Details, f: Field)
    requires Decodable(details) && IsField(f)
    ensures DecodeField(f, details).Some? && SaveSectionData(details).Ok?
    ensures f.section in SaveSectionData(details).value && f in SaveSectionData(details).value[f.section]
    ensures SaveSectionData(details).value[f.section][f] == DecodeField(f, details).value
  {
    assert SectionDecodable(f.section, details);
    var row := SectionRow(f.section, details);
    assert SaveSectionData(details).value[f.section] == row;
  }

  // ------------------------------------------------------------ serialization

  /** `value or ''` for integers and text, `value.isoformat() if value else ''` for dates. */
  function EncodeValue(v: Value): Json
  {
    match v
    case IntVal(n) => if n.Some? && n.value != 0 then JInt(n.value) else JStr("")
    case DateVal(d) => if d.Some? then JStr(IsoFormat(d.value)) else JStr("")
    case TextVal(t) => if t.Some? && t.value != "" then JStr(t.value) else JStr("")
  }

  /** Within one section, the key identifies the field. */
  lemma SectionKeysInjective(s: SectionNo)
    ensures forall f, g :: f in FieldsOf(s) && g in FieldsOf(s) && f.key == g.key ==> f == g
  {
    forall f, g | f in FieldsOf(s) && g in FieldsOf(s) && f.key == g.key
      ensures f == g
    {
      InSection(f, s);
      InSection(g, s);
      KeyInjective(f, g);
    }
  }

  /**
   * One section's part of `details`: its keys and encoded values if the record
   * has that section row, nothing otherwise.
   */
  function SectionDetails(secs: Sections, s: SectionNo): (d: Details)
    ensures s in secs ==> forall f :: f in FieldsOf(s) && f in secs[s] ==> f.key in d && d[f.key] == EncodeValue(secs[s][f])
    ensures forall k :: k in d ==> s in secs && exists f :: f in FieldsOf(s) && f.key == k
  {
    SectionKeysInjective(s);
    if s in secs then map f | f in FieldsOf(s) && f in secs[s] :: f.key := EncodeValue(secs[s][f]) else map[]
  }

  /** The `details` of sections 1 to `n`, merged in order as `serialize_qpr_record` does. */
  function SerializeUpTo(secs: Sections, n: nat): Details
    requires n <= 11
  {
    if n == 0 then map[] else SerializeUpTo(secs, n - 1) + SectionDetails(secs, n)
  }

  /** A key of section `s`'s part names a field of section `s`. */
  lemma SectionDetailsKey(secs: Sections, s: SectionNo, k: string) returns (f: Field)
    requires k in SectionDetails(secs, s)
    ensures IsField(f) && f.section == s && f.key == k
  {
    f :| f in FieldsOf(s) && f.key == k;
    InSection(f, s);
  }

  /** The record's row for `f`'s section, if it has one, has a column for `f`. */
  predicate Stored(secs: Sections, f: Field)
  {
    f.section in secs ==> f in secs[f.section]
  }

  /** Field `f`'s key is in section `s`'s part exactly when `f` belongs to `s` and the row exists. */
  lemma SectionDetailsHas(secs: Sections, s: SectionNo, f: Field)
    requires IsField(f) && Stored(secs, f)
    ensures f.key in SectionDetails(secs, s) <==> s in secs && f.section == s
    ensures f.key in SectionDetails(secs, s) ==> SectionDetails(secs, s)[f.key] == EncodeValue(secs[s][f])
  {
    if s in secs && f.section == s {
      assert f in FieldsOf(s) && f in secs[s];
    }
    if f.key in SectionDetails(secs, s) {
      var g := SectionDetailsKey(secs, s, f.key);
      KeyInjective(f, g);
    }
  }

  /** Field `f` appears in the `details` of sections 1 to `n` exactly when its section does. */
  lemma {:induction false} SerializeUpToHas(secs: Sections, n: nat, f: Field)
    requires n <= 11 && IsField(f) && Stored(secs, f)
    ensures f.key in SerializeUpTo(secs, n) <==> f.section <= n && f.section in secs
  {
    if n > 0 {
      SerializeUpToHas(secs, n - 1, f);
      SectionDetailsHas(secs, n, f);
    }
  }

  /** ... and holds its encoded value there. */
  lemma {:induction false} SerializeUpToValue(secs: Sections, n: nat, f: Field)
    requires n <= 11 && IsField(f) && Stored(secs, f) && f.section <= n && f.section in secs
    ensures f.key in SerializeUpTo(secs, n) && SerializeUpTo(secs, n)[f.key] == EncodeValue(secs[f.section][f])
  {
    SectionDetailsHas(secs, n, f);
    if f.section < n {
      SerializeUpToValue(secs, n - 1, f);
    }
  }

  /** Every key of the `details` of sections 1 to `n` is some field's key. */
  lemma {:induction false} SerializeUpToKey(secs: Sections, n: nat, k: string) returns (f: Field)
    requires n <= 11 && k in SerializeUpTo(secs, n)
    ensures IsField(f) && f.key == k
  {
    if k in SectionDetails(secs, n) {
      f := SectionDetailsKey(secs, n, k);
    } else {
      f := SerializeUpToKey(secs, n - 1, k);
    }
  }

  /**
   * The `details` part of `serialize_qpr_record`: the sections' parts merged
   * in order 1 to 11 (`SerializedField`, `SerializedKeys`).
   */
  function SerializeDetails(secs: Sections): Details
  {
    SerializeUpTo(secs, 11)
  }

  /**
   * A field's key is present exactly when the record has the field's section
   * row, and then carries the column's encoded value; the keys of a missing
   * section are absent.
   */
  lemma SerializedField(secs: Sections, f: Field)
    requires WellFormedSections(secs) && IsField(f)
    ensures f.key in SerializeDetails(secs) <==> f.section in secs
    ensures f.section in secs ==> SerializeDetails(secs)[f.key] == EncodeValue(secs[f.section][f])
  {
    assert Stored(secs, f);
    SerializeUpToHas(secs, 11, f);
    if f.section in secs {
      SerializeUpToValue(secs, 11, f);
    }
  }

  /** `details` holds nothing but the fields' short keys. */
  lemma SerializedKeys(secs: Sections, k: string)
    requires k in SerializeDetails(secs)
    ensures exists f :: IsField(f) && f.key == k
  {
    var f := SerializeUpToKey(secs, 11, k);
  }

  // ------------------------------------------------------------ properties

  /**
   * The coercion facts: `''` and `None` give `None`, `"0"` gives `0` (not
   * `None`), the decimal text of any integer gives that integer, and text that
   * is not a signed decimal gives `None` rather than an error.
   */
  lemma ConvertToIntFacts(i: int, s: string)
    ensures ConvertToInt(JNull) == None && ConvertToInt(JStr("")) == None
    ensures ConvertToInt(JStr("0")) == Some(0)
    ensures ConvertToInt(JStr(DecimalString(i))) == Some(i)
    ensures !IsSignedDecimal(s) ==> ConvertToInt(JStr(s)) == None
  {
    ParseDecimalString(i);
    assert DecimalString(0) == "0";
  }

  /**
   * `''` and `None` give no date, the ISO text of any date gives that date,
   * and text that is not a valid `YYYY-MM-DD` date gives `None` rather than an error.
   */
  lemma ConvertToDateFacts(d: CalendarDate, s: string)
    ensures ConvertToDate(JNull) == Coerced(None) && ConvertToDate(JStr("")) == Coerced(None)
    ensures ConvertToDate(JStr(IsoFormat(d))) == Coerced(Some(d))
    ensures ParseIsoDate(s).None? ==> ConvertToDate(JStr(s)) == Coerced(None)
  {
    ParseIsoFormat(d);
  }

  /** The value a column of kind `k` takes when its key is absent from `details`. */
  function AbsentValue(k: Kind): Value
  {
    match k
    case IntKind => IntVal(None)
    case DateKind => DateVal(None)
    case TextKind => TextVal(Some(""))
  }

  /**
   * A key missing from `details` does not leave its column unchanged: integer
   * and date columns become `None` and text columns `''`, whatever they held.
   */
  lemma MissingKeyResets(details: Details, f: Field)
    requires Decodable(details) && IsField(f) && f.key !in details
    ensures SaveSectionData(details).value[f.section][f] == AbsentValue(f.kind)
  {
    SavedField(details, f);
  }

  /** Two `details` objects that decode alike on a section's fields give that section the same row. */
  lemma SameDecodingSameRow(s: SectionNo, d1: Details, d2: Details)
    requires forall f :: f in FieldsOf(s) ==> DecodeField(f, d1) == DecodeField(f, d2)
    ensures SectionDecodable(s, d1) <==> SectionDecodable(s, d2)
    ensures SectionDecodable(s, d1) ==> SectionRow(s, d1) == SectionRow(s, d2)
  {
  }

  /** Two `details` objects that decode alike on every field save alike. */
  lemma SameDecodingSameSave(d1: Details, d2: Details)
    requires forall f :: IsField(f) ==> DecodeField(f, d1) == DecodeField(f, d2)
    ensures SaveSectionData(d1) == SaveSectionData(d2)
  {
    forall s: SectionNo
      ensures SectionDecodable(s, d1) <==> SectionDecodable(s, d2)
      ensures SectionDecodable(s, d1) ==> SectionRow(s, d1) == SectionRow(s, d2)
    {
      forall f | f in FieldsOf(s)
        ensures DecodeField(f, d1) == DecodeField(f, d2)
      {
        InSection(f, s);
      }
      SameDecodingSameRow(s, d1, d2);
    }
    assert Decodable(d1) <==> Decodable(d2);
    if Decodable(d1) {
      SameRowsSameSave(d1, d2);
    }
  }

  /** Saves whose eleven rows agree are equal. */
  lemma SameRowsSameSave(d1: Details, d2: Details)
    requires Decodable(d1) && Decodable(d2)
    requires forall s: SectionNo :: SectionRow(s, d1) == SectionRow(s, d2)
    ensures SaveSectionData(d1) == SaveSectionData(d2)
  {
    var m1 := map s: SectionNo | 1 <= s <= 11 :: SectionRow(s, d1);
    var m2 := map s: SectionNo | 1 <= s <= 11 :: SectionRow(s, d2);
    assert m1 == m2;
  }

  /** A key that names no field is ignored, whatever its value. */
  lemma UnknownKeyIgnored(details: Details, k: string, v: Json)
    requires forall f :: IsField(f) ==> f.key != k
    ensures SaveSectionData(details[k := v]) == SaveSectionData(details)
  {
    var d' := details[k := v];
    forall f | IsField(f)
      ensures DecodeField(f, d') == DecodeField(f, details)
    {
      assert Get(d', f.key, JNull) == Get(details, f.key, JNull);
      assert Get(d', f.key, JStr("")) == Get(details, f.key, JStr(""));
    }
    SameDecodingSameSave(d', details);
  }

  /**
   * What a column holds after its record is serialised and the result saved
   * back: a zero integer is lost to `None`, a null text becomes `''`, and every
   * other value survives.
   */
  function Normalize(v: Value): Value
  {
    match v
    case IntVal(n) => if n == Some(0) then IntVal(None) else v
    case DateVal(_) => v
    case TextVal(t) => if t.None? then TextVal(Some("")) else v
  }

  /** The value field `f` comes back with after a serialise-and-save of `secs`. */
  function Reloaded(secs: Sections, f: Field): Value
    requires WellFormedSections(secs) && IsField(f)
  {
    if f.section in secs then Normalize(secs[f.section][f]) else AbsentValue(f.kind)
  }

  /** Decoding the encoding of a value gives back the value, normalised. */
  lemma DecodeEncoded(f: Field, v: Value, d: Details)
    requires HasKind(v, f.kind) && f.key in d && d[f.key] == EncodeValue(v)
    ensures DecodeField(f, d) == Some(Normalize(v))
  {
    if v.DateVal? && v.d.Some? {
      ParseIsoFormat(v.d.value);
    }
  }

  /** Field `f` decodes from a record's serialised details to its reloaded value. */
  lemma ReloadField(secs: Sections, f: Field)
    requires WellFormedSections(secs) && IsField(f)
    ensures DecodeField(f, SerializeDetails(secs)) == Some(Reloaded(secs, f))
  {
    SerializedField(secs, f);
    if f.section in secs {
      DecodeEncoded(f, secs[f.section][f], SerializeDetails(secs));
    }
  }

  /**
   * Re-saving a record's own serialised details: every nonzero integer, every
   * date and every non-null text comes back unchanged, a `0` or `None` integer
   * comes back `None`, a null text comes back `''`, and the columns of a
   * section the record lacked come back null (text `''`).
   */
  lemma ResaveRoundTrip(secs: Sections, f: Field)
    requires WellFormedSections(secs) && IsField(f)
    ensures SaveSectionData(SerializeDetails(secs)).Ok?
    ensures SaveSectionData(SerializeDetails(secs)).value[f.section][f] == Reloaded(secs, f)
  {
    ResaveOk(secs);
    ReloadField(secs, f);
    SavedField(SerializeDetails(secs), f);
  }

  /** A record's own serialised details always save. */
  lemma ResaveOk(secs: Sections)
    requires WellFormedSections(secs)
    ensures SaveSectionData(SerializeDetails(secs)).Ok?
  {
    var d := SerializeDetails(secs);
    forall g | IsField(g)
      ensures DecodeField(g, d).Some?
    {
      ReloadField(secs, g);
    }
    DecodableFields(d);
  }

  /** Normalising twice is normalising once; an absent value is already normal. */
  lemma ReloadedIsNormal(secs: Sections, f: Field)
    requires WellFormedSections(secs) && IsField(f)
    ensures Normalize(Reloaded(secs, f)) == Reloaded(secs, f)
  {
  }

  /** A field's value survives a second serialise-and-save unchanged. */
  lemma ResaveFieldStable(secs: Sections, g: Field)
    requires WellFormedSections(secs) && IsField(g)
    ensures SaveSectionData(SerializeDetails(secs)).Ok?
    ensures DecodeField(g, SerializeDetails(SaveSectionData(SerializeDetails(secs)).value))
         == DecodeField(g, SerializeDetails(secs))
  {
    ResaveRoundTrip(secs, g);
    var once := SaveSectionData(SerializeDetails(secs)).value;
    ReloadField(once, g);
    ReloadField(secs, g);
    ReloadedIsNormal(secs, g);
    assert Reloaded(once, g) == Normalize(once[g.section][g]);
  }

  /** The round trip loses nothing twice: a second serialise-and-save changes nothing more. */
  lemma ResaveIdempotent(secs: Sections)
    requires WellFormedSections(secs)
    ensures SaveSectionData(SerializeDetails(secs)).Ok?
    ensures SaveSectionData(SerializeDetails(SaveSectionData(SerializeDetails(secs)).value))
         == SaveSectionData(SerializeDetails(secs))
  {
    var d := SerializeDetails(secs);
    ResaveOk(secs);
    var once := SaveSectionData(d).value;
    forall g | IsField(g)
      ensures DecodeField(g, SerializeDetails(once)) == DecodeField(g, d)
    {
      ResaveFieldStable(secs, g);
    }
    SameDecodingSameSave(SerializeDetails(once), d);
  }
}

=== FILE: directory.dfy ===
/**
 * `admin_employee_list`: the admin's directory of employees grouped by HOD,
 * narrowed by four optional filters (employee code, name, quarter, year),
 * with the quarters and years that occur in any record offered as choices.
 */
module Directory {
  import opened Wrappers
  import opened Text
  import opened Models
  import opened Queries
  import opened Workflow
  import opened Reports

  // ------------------------------------------------------------ filters

  datatype Filters = Filters(code: string, name: string, quarter: string, year: string)

  /** `request.GET.get(key, '').strip()` for each of the four filters. */
  function ReadFilters(code: Option<string>, name: Option<string>, quarter: Option<string>, year: Option<string>): Filters
  {
    Filters(Strip(Or(code, "")), Strip(Or(name, "")), Strip(Or(quarter, "")), Strip(Or(year, "")))
  }

  /** `user.get_full_name()`: first and last name joined by a space and stripped; accounts here carry no last name. */
  function FullName(a: Account): string
  {
    Strip(a.firstName + " ")
  }

  /** `profile.name or user.get_full_name() or user.username` */
  function EmployeeName(st: Store, u: UserId): string
  {
    if u in st.profiles && Truthy(st.profiles[u].name) then st.profiles[u].name.value
    else if u in st.users && FullName(st.users[u]) != "" then FullName(st.users[u])
    else if u in st.users then st.users[u].username
    else ""
  }

  /** The user's newest record: `QPRRecord.objects.filter(user=...).order_by('-id').first()`. */
  function Latest(st: Store, u: UserId): (r: Option<RecordId>)
    ensures r.Some? ==> Owns(st, u, r.value)
    ensures r.Some? ==> forall i: RecordId :: i < st.nextRecord && Owns(st, u, i) ==> i <= r.value
    ensures r.None? ==> forall i: RecordId :: i < st.nextRecord ==> !Owns(st, u, i)
  {
    var ids := OwnedBelow(st, u, st.nextRecord);
    if |ids| == 0 then None
    else
      assert forall k :: 0 <= k < |ids| ==> ids[k] <= ids[0];
      Some(ids[0])
  }

  /** In a valid store the newest record is the owned record with the highest id, and there is none only when the user owns none. */
  lemma LatestExact(st: Store, u: UserId, i: RecordId)
    requires Valid(st)
    ensures Latest(st, u).None? ==> !Owns(st, u, i)
    ensures Latest(st, u).Some? && Owns(st, u, i) ==> i <= Latest(st, u).value
  {
    if Owns(st, u, i) {
      assert i in st.records;
    }
  }

  /** Python's `needle.lower() in hay.lower()`, ASCII folding only. */
  predicate ContainsIgnoringCase(hay: string, needle: string)
  {
    Contains(Lower(hay), Lower(needle))
  }

  /**
   * The four filters a user must pass to be listed under a HOD: code and
   * name are substrings ignoring case; the quarter is a substring, ignoring
   * case, of the newest record's quarter; the year equals the newest
   * record's year. A user without records fails the quarter and year
   * filters. An empty filter passes everyone.
   */
  predicate Passes(st: Store, u: UserId, f: Filters)
  {
    && (f.code == "" || (u in st.profiles && ContainsIgnoringCase(st.profiles[u].employeeCode, f.code)))
    && (f.name == "" || ContainsIgnoringCase(EmployeeName(st, u), f.name))
    && (f.quarter == "" || (Latest(st, u).Some? && ContainsIgnoringCase(st.records[Latest(st, u).value].quarter, f.quarter)))
    && (f.year == "" || (Latest(st, u).Some? && f.year == Or(st.records[Latest(st, u).value].year, "")))
  }

  /** Without any filter in the request every user passes. */
  lemma NoFiltersPassEveryone(st: Store, u: UserId)
    ensures Passes(st, u, ReadFilters(None, None, None, None))
  {
    assert Strip("") == "";
  }

  /** The users of `us` that pass the filters, in order. */
  function Keep(st: Store, us: seq<UserId>, f: Filters): (r: seq<UserId>)
    ensures forall u :: u in r <==> u in us && Passes(st, u, f)
    ensures Ascending(us) ==> Ascending(r)
  {
    if |us| == 0 then []
    else
      var rest := Keep(st, us[1..], f);
      assert us == [us[0]] + us[1..];
      if Passes(st, us[0], f) then
        assert Ascending(us) ==> forall k :: 0 <= k < |rest| ==> us[0] < rest[k] by {
          if Ascending(us) {
            forall k | 0 <= k < |rest|
              ensures us[0] < rest[k]
            {
              assert rest[k] in us[1..];
              var j :| 0 <= j < |us[1..]| && us[1..][j] == rest[k];
              assert us[j + 1] == rest[k];
            }
          }
        }
        [us[0]] + rest
      else rest
  }

  /** In a valid store a group lists exactly the matching profiles that pass the filters. */
  lemma KeepExact(st: Store, q: Query, f: Filters, u: UserId)
    requires Valid(st)
    ensures u in Keep(st, Where(st, q), f) <==> u in Matching(st, q) && Passes(st, u, f)
  {
    WhereExact(st, q);
  }

  // ------------------------------------------------------------ rows and groups

  /** One listed employee; `year` is the newest record's year, which may be null. */
  datatype Employee = Employee(
    code: string, name: string, email: string, officeName: string, officeCode: string,
    quarter: string, year: Option<string>, status: string)

  /**
   * An employee's row: the profile's office name and code, falling back on
   * the newest record's and then on "Not Set"; the newest record's quarter,
   * year and status, or "Not Set" / "Not Submitted" without one.
   */
  function EmployeeOf(st: Store, u: UserId): (e: Employee)
    ensures u in st.profiles ==> e.code == st.profiles[u].employeeCode
    ensures Latest(st, u).None? ==> e.quarter == "Not Set" && e.year == Some("Not Set") && e.status == "Not Submitted"
    ensures Latest(st, u).Some? ==> e.status == st.records[Latest(st, u).value].status
    ensures u in st.profiles && Truthy(st.profiles[u].officeName) ==> e.officeName == st.profiles[u].officeName.value
  {
    var pr := if u in st.profiles then st.profiles[u] else NewProfile("");
    var email := if u in st.users then st.users[u].email else "";
    match Latest(st, u)
    case None =>
      Employee(pr.employeeCode, EmployeeName(st, u), email, Or(pr.officeName, "Not Set"), Or(pr.officeCode, "Not Set"),
               "Not Set", Some("Not Set"), "Not Submitted")
    case Some(i) =>
      var rec := st.records[i];
      Employee(pr.employeeCode, EmployeeName(st, u), email, Or(pr.officeName, rec.officeName), Or(pr.officeCode, rec.officeCode),
               rec.quarter, rec.year, rec.status)
  }

  function Employees(st: Store, us: seq<UserId>): (r: seq<Employee>)
    ensures |r| == |us| && forall k :: 0 <= k < |us| ==> r[k] == EmployeeOf(st, us[k])
  {
    seq(|us|, k requires 0 <= k < |us| => EmployeeOf(st, us[k]))
  }

  /** One group of the directory: a HOD's name, email and employee code, and the listed employees (`user_count` is their number). */
  datatype Group = Group(hodName: Option<string>, email: string, code: string, members: seq<Employee>)

  /** The group of HOD `h`: the `user` profiles whose HOD name equals the HOD's exactly. */
  function HodGroup(st: Store, f: Filters, h: UserId): Group
  {
    var kept := Keep(st, Where(st, UnderName(HodNameOf(st, h))), f);
    var email := if h in st.users then st.users[h].email else "";
    var code := if h in st.profiles then st.profiles[h].employeeCode else "";
    Group(HodNameOf(st, h), email, code, Employees(st, kept))
  }

  /** The group of an uncovered HOD name: the `user` profiles whose HOD name matches it ignoring case. */
  function NameGroup(st: Store, f: Filters, n: string): Group
  {
    Group(Some(n), "-", "-", Employees(st, Keep(st, Where(st, AssignedTo(n)), f)))
  }

  /** The groups that list someone, in order: `if user_details:`. */
  function NonEmpty(gs: seq<Group>): (r: seq<Group>)
    ensures forall g :: g in r <==> g in gs && |g.members| > 0
    ensures |r| <= |gs|
  {
    if |gs| == 0 then []
    else
      assert gs == [gs[0]] + gs[1..];
      (if |gs[0].members| > 0 then [gs[0]] else []) + NonEmpty(gs[1..])
  }

  function HodGroups(st: Store, f: Filters, hs: seq<UserId>): (r: seq<Group>)
    ensures |r| == |hs| && forall k :: 0 <= k < |hs| ==> r[k] == HodGroup(st, f, hs[k])
  {
    seq(|hs|, k requires 0 <= k < |hs| => HodGroup(st, f, hs[k]))
  }

  function NameGroups(st: Store, f: Filters, ns: seq<string>): (r: seq<Group>)
    ensures |r| == |ns| && forall k :: 0 <= k < |ns| ==> r[k] == NameGroup(st, f, ns[k])
  {
    seq(|ns|, k requires 0 <= k < |ns| => NameGroup(st, f, ns[k]))
  }

  /** `user.first_name or name or employee_code` for a user who is their own HOD. */
  function OwnName(st: Store, u: UserId): string
  {
    if FirstNameOf(st, u) != "" then FirstNameOf(st, u)
    else if u in st.profiles && Truthy(st.profiles[u].name) then st.profiles[u].name.value
    else if u in st.profiles then st.profiles[u].employeeCode
    else ""
  }

  /** A user who is their own HOD is listed by code and name only; any quarter filter drops them, a year filter does not. */
  predicate OwnPasses(st: Store, u: UserId, f: Filters)
  {
    && (f.code == "" || (u in st.profiles && ContainsIgnoringCase(st.profiles[u].employeeCode, f.code)))
    && (f.name == "" || ContainsIgnoringCase(OwnName(st, u), f.name))
    && f.quarter == ""
  }

  function OwnGroup(st: Store, u: UserId): Group
  {
    var email := if u in st.users then st.users[u].email else "";
    var code := if u in st.profiles then st.profiles[u].employeeCode else "";
    Group(Some(OwnName(st, u)), email, code, [])
  }

  /** The groups of the users among `us` who pass the own-HOD filters, each listing nobody. */
  function OwnGroups(st: Store, f: Filters, us: seq<UserId>): (r: seq<Group>)
    ensures forall g :: g in r ==> |g.members| == 0
    ensures forall k :: 0 <= k < |us| && OwnPasses(st, us[k], f) ==> OwnGroup(st, us[k]) in r
    ensures f.quarter != "" ==> r == []
    ensures |r| <= |us|
  {
    if |us| == 0 then []
    else
      assert us == [us[0]] + us[1..];
      (if OwnPasses(st, us[0], f) then [OwnGroup(st, us[0])] else []) + OwnGroups(st, f, us[1..])
  }

  // ------------------------------------------------------------ dropdowns

  /** A record column offered as a choice. */
  datatype Column = QuarterColumn | YearColumn

  /** The column's value when it is set and non-empty (`if qpr:`). */
  function ChoiceOf(rec: QprRecord, c: Column): Option<string>
  {
    match c
    case QuarterColumn => if rec.quarter != "" then Some(rec.quarter) else None
    case YearColumn => if Truthy(rec.year) then rec.year else None
  }

  /** The choices found in the records below `n`. */
  function ChoicesBelow(st: Store, c: Column, n: nat): (r: seq<string>)
    ensures forall x :: x in r <==> exists i: RecordId :: i < n && i in st.records && ChoiceOf(st.records[i], c) == Some(x)
  {
    if n == 0 then []
    else
      var rest := ChoicesBelow(st, c, n - 1);
      if n - 1 in st.records && ChoiceOf(st.records[n - 1], c).Some? then rest + [ChoiceOf(st.records[n - 1], c).value]
      else rest
  }

  /** `sorted` of the distinct non-empty values of a record column. */
  function Choices(st: Store, c: Column): (r: seq<string>)
    ensures StrictlySorted(r)
    ensures forall x :: x in r <==> exists i: RecordId :: i < st.nextRecord && i in st.records && ChoiceOf(st.records[i], c) == Some(x)
  {
    SortedDistinct(ChoicesBelow(st, c, st.nextRecord))
  }

  /** In a valid store the choices are exactly the non-empty values the column takes in some record. */
  lemma ChoicesExact(st: Store, c: Column, x: string)
    requires Valid(st)
    ensures x in Choices(st, c) <==> exists i :: i in st.records && ChoiceOf(st.records[i], c) == Some(x)
  {
    if i :| i in st.records && ChoiceOf(st.records[i], c) == Some(x) {
      assert i < st.nextRecord;
    }
  }

  // ------------------------------------------------------------ the view

  datatype Listing = Listing(groups: seq<Group>, filters: Filters, quarters: seq<string>, years: seq<string>)

  /** The three blocks of the directory, in order. */
  function AllGroups(st: Store, f: Filters): seq<Group>
  {
    NonEmpty(HodGroups(st, f, Where(st, Hods))) + NonEmpty(NameGroups(st, f, UncoveredNames(st)))
      + OwnGroups(st, f, Where(st, Unassigned))
  }

  /**
   * `admin_employee_list`: admins only (anyone else is sent to `/`). The
   * groups of the HOD profiles, then of the uncovered HOD names, each shown
   * only when someone in it passes the filters; then every user who is
   * their own HOD and passes the code and name filters, unless a quarter is
   * asked for.
   */
  function EmployeeList(st: Store, caller: UserId, code: Option<string>, name: Option<string>,
                        quarter: Option<string>, year: Option<string>): (r: Result<Listing, Reply>)
    ensures r.Ok? <==> RoleOf(st, caller) == Some(AdminRole)
    ensures RoleOf(st, caller).Some? && RoleOf(st, caller) != Some(AdminRole) ==> r == Err(Redirect(Home))
    ensures r.Ok? ==> r.value.filters == ReadFilters(code, name, quarter, year)
    ensures r.Ok? ==> r.value.groups == AllGroups(st, r.value.filters)
    ensures r.Ok? ==> StrictlySorted(r.value.quarters) && StrictlySorted(r.value.years)
  {
    match RoleOf(st, caller)
    case None => Err(Failed(500, NoProfile))
    case Some(role) =>
      if role != AdminRole then Err(Redirect(Home))
      else
        var f := ReadFilters(code, name, quarter, year);
        Ok(Listing(AllGroups(st, f), f, Choices(st, QuarterColumn), Choices(st, YearColumn)))
  }

  /**
   * A HOD profile's group is shown whenever one of its users passes the
   * filters, and it lists, in a valid store, exactly the `user` profiles
   * whose HOD name equals the HOD's and that pass.
   */
  lemma HodGroupShown(st: Store, f: Filters, h: UserId, u: UserId)
    requires Valid(st) && h in Where(st, Hods)
    ensures HodGroup(st, f, h) in AllGroups(st, f) <== |Keep(st, Where(st, UnderName(HodNameOf(st, h))), f)| > 0
    ensures u in Keep(st, Where(st, UnderName(HodNameOf(st, h))), f) <==>
      u in st.profiles && Matches(UnderName(st.profiles[h].hodName), st.profiles[u]) && Passes(st, u, f)
  {
    var hs := Where(st, Hods);
    var k :| 0 <= k < |hs| && hs[k] == h;
    assert HodGroups(st, f, hs)[k] == HodGroup(st, f, h);
    KeepExact(st, UnderName(HodNameOf(st, h)), f, u);
  }

  /**
   * An uncovered HOD name's group is shown whenever one of its users passes
   * the filters, and it lists, in a valid store, exactly the `user`
   * profiles whose HOD name matches it ignoring case and that pass.
   */
  lemma NameGroupShown(st: Store, f: Filters, n: string, u: UserId)
    requires Valid(st) && n in UncoveredNames(st)
    ensures NameGroup(st, f, n) in AllGroups(st, f) <== |Keep(st, Where(st, AssignedTo(n)), f)| > 0
    ensures u in Keep(st, Where(st, AssignedTo(n)), f) <==>
      u in st.profiles && Matches(AssignedTo(n), st.profiles[u]) && Passes(st, u, f)
  {
    var ns := UncoveredNames(st);
    var k :| 0 <= k < |ns| && ns[k] == n;
    assert NameGroups(st, f, ns)[k] == NameGroup(st, f, n);
    KeepExact(st, AssignedTo(n), f, u);
  }

  /** Every group of the HOD and uncovered-name blocks lists someone; the own-HOD groups list nobody. */
  lemma GroupsNonEmpty(st: Store, f: Filters)
    ensures var a := NonEmpty(HodGroups(st, f, Where(st, Hods))); var b := NonEmpty(NameGroups(st, f, UncoveredNames(st)));
      && (forall g :: g in a + b ==> |g.members| > 0)
      && (forall g :: g in OwnGroups(st, f, Where(st, Unassigned)) ==> |g.members| == 0)
  {
  }

  /** Asking for a quarter lists no user who is their own HOD, and every listed employee has a record in a matching quarter. */
  lemma QuarterFilterNeedsRecord(st: Store, f: Filters, u: UserId)
    requires f.quarter != "" && Passes(st, u, f)
    ensures OwnGroups(st, f, Where(st, Unassigned)) == []
    ensures Latest(st, u).Some? && EmployeeOf(st, u).quarter == st.records[Latest(st, u).value].quarter
    ensures ContainsIgnoringCase(EmployeeOf(st, u).quarter, f.quarter)
  {
  }
}

=== FILE: fieldtable.dfy ===
/**
 * The one declarative table behind both directions of the record codec: every
 * short key of the flat `details` object, the section table (1 to 11) and the
 * column it is stored in, and the coercion applied to it.
 *
 * Section 11's keys are spelled `s12_1` .. `s12_3`.
 */
module FieldTable {
  import opened Wrappers

  type SectionNo = n: int | 1 <= n <= 11 witness 1

  /** How a field is coerced on the way in and rendered on the way out. */
  datatype Kind = IntKind | DateKind | TextKind

  /** One row of the table: a short key, the section and column it addresses, and its kind. */
  datatype Field = Field(key: string, section: SectionNo, column: string, kind: Kind)

  /** No two fields of `fs` share a short key. */
  predicate KeysDistinct(fs: seq<Field>)
  {
    forall i, j :: 0 <= i < j < |fs| ==> KeyAt(fs, i) != KeyAt(fs, j)
  }

  /** No two fields of `fs` address the same column of the same section. */
  predicate ColumnsDistinct(fs: seq<Field>)
  {
    forall i, j :: 0 <= i < j < |fs| && SectionAt(fs, i) == SectionAt(fs, j) ==> ColumnAt(fs, i) != ColumnAt(fs, j)
  }

  /** The key, section and column of the `i`-th row (named, so quantifiers over rows have something to match). */
  function KeyAt(fs: seq<Field>, i: nat): string
    requires i < |fs|
  {
    fs[i].key
  }

  function SectionAt(fs: seq<Field>, i: nat): SectionNo
    requires i < |fs|
  {
    fs[i].section
  }

  function ColumnAt(fs: seq<Field>, i: nat): string
    requires i < |fs|
  {
    fs[i].column
  }

  /** Section 1: Files sent to the Minister. */
  function Section1Fields(): seq<Field>
  {
    [
    Field("s1_total",            1, "total_files",               IntKind),
    Field("s1_hindi",            1, "hindi_files",               IntKind)
    ]
  }

  /** Section 2: Secretary-level meetings and papers. */
  function Section2Fields(): seq<Field>
  {
    [
    Field("s2_meetings",         2, "meetings_count",            IntKind),
    Field("s2_minutes",          2, "hindi_minutes",             IntKind),
    Field("s2_papers_total",     2, "total_papers",              IntKind),
    Field("s2_papers_hindi",     2, "hindi_papers",              IntKind)
    ]
  }

  /** Section 3: Documents under section 3(3) of the Official Languages Act. */
  function Section3Fields(): seq<Field>
  {
    [
    Field("s3_total",            3, "total_documents",           IntKind),
    Field("s3_bilingual",        3, "bilingual_documents",       IntKind),
    Field("s3_english",          3, "english_only_documents",    IntKind),
    Field("s3_hindi_only",       3, "hindi_only_documents",      IntKind)
    ]
  }

  /** Section 4: Letters received in Hindi. */
  function Section4Fields(): seq<Field>
  {
    [
    Field("s4_total",            4, "total_letters",             IntKind),
    Field("s4_no_reply",         4, "no_reply_letters",          IntKind),
    Field("s4_replied_hindi",    4, "replied_hindi_letters",     IntKind),
    Field("s4_replied_eng",      4, "replied_english_letters",   IntKind)
    ]
  }

  /** Section 5: English letters replied in Hindi (region A). */
  function Section5Fields(): seq<Field>
  {
    [
    Field("s5_total",            5, "region_a_english_letters",  IntKind),
    Field("s5_hindi",            5, "region_a_replied_hindi",    IntKind),
    Field("s5_english",          5, "region_a_replied_english",  IntKind),
    Field("s5_noreply",          5, "region_a_no_reply",         IntKind)
    ]
  }

  /** Section 6: Letters issued to regions A, B and C. */
  function Section6Fields(): seq<Field>
  {
    [
    Field("s6_a_hindi",          6, "region_a_hindi_bilingual",  IntKind),
    Field("s6_a_eng",            6, "region_a_english_only",     IntKind),
    Field("s6_a_total",          6, "region_a_total",            IntKind),
    Field("s6_b_hindi",          6, "region_b_hindi_bilingual",  IntKind),
    Field("s6_b_eng",            6, "region_b_english_only",     IntKind),
    Field("s6_b_total",          6, "region_b_total",            IntKind),
    Field("s6_c_hindi",          6, "region_c_hindi_bilingual",  IntKind),
    Field("s6_c_eng",            6, "region_c_english_only",     IntKind),
    Field("s6_c_total",          6, "region_c_total",            IntKind)
    ]
  }

  /** Section 7: Notings on files. */
  function Section7Fields(): seq<Field>
  {
    [
    Field("s7_hindi",            7, "hindi_pages",               IntKind),
    Field("s7_eng",              7, "english_pages",             IntKind),
    Field("s7_total",            7, "total_pages",               IntKind),
    Field("s7_eoffice",          7, "eoffice_notings",           IntKind)
    ]
  }

  /** Section 8: Hindi workshops. */
  function Section8Fields(): seq<Field>
  {
    [
    Field("s8_workshops",        8, "full_day_workshops",        IntKind),
    Field("s8_officers",         8, "officers_trained",          IntKind),
    Field("s8_employees",        8, "employees_trained",         IntKind)
    ]
  }

  /** Section 9: Official Language Implementation Committee. */
  function Section9Fields(): seq<Field>
  {
    [
    Field("s9_date",             9, "meeting_date",              DateKind),
    Field("s9_sub_committees",   9, "sub_committees_count",      IntKind),
    Field("s9_meetings_count",   9, "meetings_organized",        IntKind),
    Field("s9_agenda_hindi",     9, "agenda_hindi",              TextKind)
    ]
  }

  /** Section 10: Hindi Advisory Committee. */
  function Section10Fields(): seq<Field>
  {
    [
    Field("s10_date",           10, "meeting_date",              DateKind)
    ]
  }

  /** Section 11: Specific achievements. */
  function Section11Fields(): seq<Field>
  {
    [
    Field("s12_1",              11, "innovative_work",           TextKind),
    Field("s12_2",              11, "special_events",            TextKind),
    Field("s12_3",              11, "hindi_medium_works",        TextKind)
    ]
  }

  /**
   * The section a short key's prefix names: `s1_` .. `s9_` name sections 1 to 9,
   * `s10` section 10 and `s12` section 11.
   */
  function SectionOfKey(k: string): Option<SectionNo>
  {
    if |k| >= 3 && k[0] == 's' then
      if k[1] == '1' && k[2] == '0' then Some(10)
      else if k[1] == '1' && k[2] == '2' then Some(11)
      else if '1' <= k[1] <= '9' && k[2] == '_' then Some(k[1] as int - '0' as int)
      else None
    else None
  }

  /** Every row of `fs` carries section `s`, and its key's prefix names `s`. */
  predicate Tagged(fs: seq<Field>, s: SectionNo)
  {
    forall i :: 0 <= i < |fs| ==> SectionAt(fs, i) == s && SectionOfKey(KeyAt(fs, i)) == Some(s)
  }

  lemma Section1Tagged()
    ensures Tagged(Section1Fields(), 1)
  {
  }

  lemma Section1KeysDistinct()
    ensures KeysDistinct(Section1Fields())
  {
  }

  lemma Section1ColumnsDistinct()
    ensures ColumnsDistinct(Section1Fields())
  {
  }

  lemma Section2Tagged()
    ensures Tagged(Section2Fields(), 2)
  {
  }

  lemma Section2KeysDistinct()
    ensures KeysDistinct(Section2Fields())
  {
  }

  lemma Section2ColumnsDistinct()
    ensures ColumnsDistinct(Section2Fields())
  {
  }

  lemma Section3Tagged()
    ensures Tagged(Section3Fields(), 3)
  {
  }

  lemma Section3KeysDistinct()
    ensures KeysDistinct(Section3Fields())
  {
  }

  lemma Section3ColumnsDistinct()
    ensures ColumnsDistinct(Section3Fields())
  {
  }

  lemma Section4Tagged()
    ensures Tagged(Section4Fields(), 4)
  {
  }

  lemma Section4KeysDistinct()
    ensures KeysDistinct(Section4Fields())
  {
  }

  lemma Section4ColumnsDistinct()
    ensures ColumnsDistinct(Section4Fields())
  {
  }

  lemma Section5Tagged()
    ensures Tagged(Section5Fields(), 5)
  {
  }

  lemma Section5KeysDistinct()
    ensures KeysDistinct(Section5Fields())
  {
  }

  lemma Section5ColumnsDistinct()
    ensures ColumnsDistinct(Section5Fields())
  {
  }

  lemma Section6Tagged()
    ensures Tagged(Section6Fields(), 6)
  {
  }

  lemma Section6KeysDistinct()
    ensures KeysDistinct(Section6Fields())
  {
  }

  lemma Section6ColumnsDistinct()
    ensures ColumnsDistinct(Section6Fields())
  {
  }

  lemma Section7Tagged()
    ensures Tagged(Section7Fields(), 7)
  {
  }

  lemma Section7KeysDistinct()
    ensures KeysDistinct(Section7Fields())
  {
  }

  lemma Section7ColumnsDistinct()
    ensures ColumnsDistinct(Section7Fields())
  {
  }

  lemma Section8Tagged()
    ensures Tagged(Section8Fields(), 8)
  {
  }

  lemma Section8KeysDistinct()
    ensures KeysDistinct(Section8Fields())
  {
  }

  lemma Section8ColumnsDistinct()
    ensures ColumnsDistinct(Section8Fields())
  {
  }

  lemma Section9Tagged()
    ensures Tagged(Section9Fields(), 9)
  {
  }

  lemma Section9KeysDistinct()
    ensures KeysDistinct(Section9Fields())
  {
  }

  lemma Section9ColumnsDistinct()
    ensures ColumnsDistinct(Section9Fields())
  {
  }

  lemma Section10Tagged()
    ensures Tagged(Section10Fields(), 10)
  {
  }

  lemma Section10KeysDistinct()
    ensures KeysDistinct(Section10Fields())
  {
  }

  lemma Section10ColumnsDistinct()
    ensures ColumnsDistinct(Section10Fields())
  {
  }

  lemma Section11Tagged()
    ensures Tagged(Section11Fields(), 11)
  {
  }

  lemma Section11KeysDistinct()
    ensures KeysDistinct(Section11Fields())
  {
  }

  lemma Section11ColumnsDistinct()
    ensures ColumnsDistinct(Section11Fields())
  {
  }

  /** The table of section `s`. */
  function FieldsOf(s: SectionNo): seq<Field>
  {
    FieldsFrom(s, 11)
  }

  /** The table of section `s`, looked up from section `n` downwards. */
  function FieldsFrom(s: SectionNo, n: SectionNo): seq<Field>
    requires s <= n
    decreases n
  {
    if n == s then TableOf(n) else FieldsFrom(s, n - 1)
  }

  function TableOf(n: SectionNo): seq<Field>
  {
    if n == 1 then Section1Fields()
    else if n == 2 then Section2Fields()
    else if n == 3 then Section3Fields()
    else if n == 4 then Section4Fields()
    else if n == 5 then Section5Fields()
    else if n == 6 then Section6Fields()
    else if n == 7 then Section7Fields()
    else if n == 8 then Section8Fields()
    else if n == 9 then Section9Fields()
    else if n == 10 then Section10Fields()
    else Section11Fields()
  }

  lemma FieldsOf1()
    ensures FieldsOf(1) == Section1Fields()
  {
  }

  lemma FieldsOf2()
    ensures FieldsOf(2) == Section2Fields()
  {
  }

  lemma FieldsOf3()
    ensures FieldsOf(3) == Section3Fields()
  {
  }

  lemma FieldsOf4()
    ensures FieldsOf(4) == Section4Fields()
  {
  }

  lemma FieldsOf5()
    ensures FieldsOf(5) == Section5Fields()
  {
  }

  lemma FieldsOf6()
    ensures FieldsOf(6) == Section6Fields()
  {
  }

  lemma FieldsOf7()
    ensures FieldsOf(7) == Section7Fields()
  {
  }

  lemma FieldsOf8()
    ensures FieldsOf(8) == Section8Fields()
  {
  }

  lemma FieldsOf9()
    ensures FieldsOf(9) == Section9Fields()
  {
  }

  lemma FieldsOf10()
    ensures FieldsOf(10) == Section10Fields()
  {
  }

  lemma FieldsOf11()
    ensures FieldsOf(11) == Section11Fields()
  {
  }

  /** Each section's table carries its own section, and its keys name it. */
  lemma SectionTaggedFacts(s: SectionNo)
    ensures Tagged(FieldsOf(s), s)
  {
    if s == 1 {
      Section1Tagged();
      FieldsOf1();
    } else if s == 2 {
      Section2Tagged();
      FieldsOf2();
    } else if s == 3 {
      Section3Tagged();
      FieldsOf3();
    } else if s == 4 {
      Section4Tagged();
      FieldsOf4();
    } else if s == 5 {
      Section5Tagged();
      FieldsOf5();
    } else if s == 6 {
      Section6Tagged();
      FieldsOf6();
    } else if s == 7 {
      Section7Tagged();
      FieldsOf7();
    } else if s == 8 {
      Section8Tagged();
      FieldsOf8();
    } else if s == 9 {
      Section9Tagged();
      FieldsOf9();
    } else if s == 10 {
      Section10Tagged();
      FieldsOf10();
    } else {
      Section11Tagged();
      FieldsOf11();
    }
  }

  /** No section's table repeats a key. */
  lemma SectionKeysFacts(s: SectionNo)
    ensures KeysDistinct(FieldsOf(s))
  {
    if s == 1 {
      Section1KeysDistinct();
      FieldsOf1();
    } else if s == 2 {
      Section2KeysDistinct();
      FieldsOf2();
    } else if s == 3 {
      Section3KeysDistinct();
      FieldsOf3();
    } else if s == 4 {
      Section4KeysDistinct();
      FieldsOf4();
    } else if s == 5 {
      Section5KeysDistinct();
      FieldsOf5();
    } else if s == 6 {
      Section6KeysDistinct();
      FieldsOf6();
    } else if s == 7 {
      Section7KeysDistinct();
      FieldsOf7();
    } else if s == 8 {
      Section8KeysDistinct();
      FieldsOf8();
    } else if s == 9 {
      Section9KeysDistinct();
      FieldsOf9();
    } else if s == 10 {
      Section10KeysDistinct();
      FieldsOf10();
    } else {
      Section11KeysDistinct();
      FieldsOf11();
    }
  }

  /** No section's table repeats a column. */
  lemma SectionColumnsFacts(s: SectionNo)
    ensures ColumnsDistinct(FieldsOf(s))
  {
    if s == 1 {
      Section1ColumnsDistinct();
      FieldsOf1();
    } else if s == 2 {
      Section2ColumnsDistinct();
      FieldsOf2();
    } else if s == 3 {
      Section3ColumnsDistinct();
      FieldsOf3();
    } else if s == 4 {
      Section4ColumnsDistinct();
      FieldsOf4();
    } else if s == 5 {
      Section5ColumnsDistinct();
      FieldsOf5();
    } else if s == 6 {
      Section6ColumnsDistinct();
      FieldsOf6();
    } else if s == 7 {
      Section7ColumnsDistinct();
      FieldsOf7();
    } else if s == 8 {
      Section8ColumnsDistinct();
      FieldsOf8();
    } else if s == 9 {
      Section9ColumnsDistinct();
      FieldsOf9();
    } else if s == 10 {
      Section10ColumnsDistinct();
      FieldsOf10();
    } else {
      Section11ColumnsDistinct();
      FieldsOf11();
    }
  }

  lemma SectionFacts(s: SectionNo)
    ensures Tagged(FieldsOf(s), s) && KeysDistinct(FieldsOf(s)) && ColumnsDistinct(FieldsOf(s))
  {
    SectionTaggedFacts(s);
    SectionKeysFacts(s);
    SectionColumnsFacts(s);
  }

  /** A field is one of the table's rows. */
  predicate IsField(f: Field)
  {
    f in FieldsOf(f.section)
  }

  /** A row of section `s`'s table is a field of section `s`. */
  lemma InSection(f: Field, s: SectionNo)
    requires f in FieldsOf(s)
    ensures f.section == s && IsField(f)
  {
    SectionTaggedFacts(s);
    var i :| 0 <= i < |FieldsOf(s)| && FieldsOf(s)[i] == f;
    assert SectionAt(FieldsOf(s), i) == s;
  }

  /** The position of `f` in its section's table. */
  lemma FieldIndex(f: Field) returns (i: nat)
    requires IsField(f)
    ensures i < |FieldsOf(f.section)| && FieldsOf(f.section)[i] == f
  {
    i :| 0 <= i < |FieldsOf(f.section)| && FieldsOf(f.section)[i] == f;
  }

  /** A table row's key names the row's own section. */
  lemma KeyNamesSection(f: Field)
    requires IsField(f)
    ensures SectionOfKey(f.key) == Some(f.section)
  {
    SectionFacts(f.section);
    var i := FieldIndex(f);
    assert KeyAt(FieldsOf(f.section), i) == f.key;
  }

  /** Distinct rows of the table have distinct keys: the short key identifies the field. */
  lemma KeyInjective(f: Field, g: Field)
    requires IsField(f) && IsField(g) && f.key == g.key
    ensures f == g
  {
    KeyNamesSection(f);
    KeyNamesSection(g);
    SectionFacts(f.section);
    var i := FieldIndex(f);
    var j := FieldIndex(g);
    assert KeyAt(FieldsOf(f.section), i) == KeyAt(FieldsOf(f.section), j);
  }

  /** Within one section, distinct rows are stored in distinct columns. */
  lemma ColumnInjective(f: Field, g: Field)
    requires IsField(f) && IsField(g) && f.section == g.section && f.column == g.column
    ensures f == g
  {
    SectionFacts(f.section);
    var i := FieldIndex(f);
    var j := FieldIndex(g);
    assert ColumnAt(FieldsOf(f.section), i) == ColumnAt(FieldsOf(f.section), j);
    assert SectionAt(FieldsOf(f.section), i) == SectionAt(FieldsOf(f.section), j);
  }
}

=== FILE: isodate.dfy ===
/**
 * Calendar dates and their `full-date` text form `YYYY-MM-DD` (section 5.6 of
 * RFC 3339), as produced by Python's `date.isoformat()` and read back by
 * `datetime.fromisoformat(...).date()`.
 */
module IsoDate {
  import opened Wrappers
  import opened Text

  datatype Date = Date(year: int, month: int, day: int)

  predicate IsLeapYear(y: int)
  {
    y % 4 == 0 && (y % 100 != 0 || y % 400 == 0)
  }

  function DaysInMonth(y: int, m: int): int
  {
    if m == 2 then (if IsLeapYear(y) then 29 else 28)
    else if m == 4 || m == 6 || m == 9 || m == 11 then 30
    else 31
  }

  /** The dates Python's `datetime.date` can represent (years 1 to 9999, Gregorian). */
  predicate IsCalendarDate(d: Date)
  {
    1 <= d.year <= 9999 && 1 <= d.month <= 12 && 1 <= d.day <= DaysInMonth(d.year, d.month)
  }

  type CalendarDate = d: Date | IsCalendarDate(d) witness Date(1, 1, 1)

  function Pow10(w: nat): nat
  {
    if w == 0 then 1 else 10 * Pow10(w - 1)
  }

  /** `n` written with exactly `width` digits, zero-padded on the left. */
  function Pad(n: nat, width: nat): (s: string)
    ensures |s| == width && AllDigits(s)
    ensures n < Pow10(width) ==> DigitsValue(s) == n
    decreases width
  {
    if width == 0 then ""
    else
      var prefix := Pad(n / 10, width - 1);
      var s := prefix + [DigitChar(n % 10)];
      assert s[..|s| - 1] == prefix;
      s
  }

  /** Every fixed-width digit string is the padding of its own value. */
  lemma {:induction false} PadOfDigits(t: string)
    requires AllDigits(t)
    ensures Pad(DigitsValue(t), |t|) == t
    decreases |t|
  {
    if |t| > 0 {
      var init := t[..|t| - 1];
      var v := DigitsValue(init);
      var d := DigitValue(t[|t| - 1]);
      assert DigitsValue(t) == 10 * v + d;
      assert (10 * v + d) / 10 == v && (10 * v + d) % 10 == d;
      PadOfDigits(init);
      assert t == init + [t[|t| - 1]];
    }
  }

  /** `d.isoformat()` */
  function IsoFormat(d: CalendarDate): string
  {
    Pad(d.year, 4) + "-" + Pad(d.month, 2) + "-" + Pad(d.day, 2)
  }

  /** `datetime.fromisoformat(s).date()` on the `YYYY-MM-DD` form; `None` stands for the `ValueError`. */
  function ParseIsoDate(s: string): Option<CalendarDate>
  {
    if |s| == 10 && s[4] == '-' && s[7] == '-'
       && AllDigits(s[..4]) && AllDigits(s[5..7]) && AllDigits(s[8..])
    then
      var d := Date(DigitsValue(s[..4]), DigitsValue(s[5..7]), DigitsValue(s[8..]));
      if IsCalendarDate(d) then Some(d) else None
    else
      None
  }

  /** Reading back what `isoformat` wrote gives the same date. */
  lemma ParseIsoFormat(d: CalendarDate)
    ensures ParseIsoDate(IsoFormat(d)) == Some(d)
  {
    var s := IsoFormat(d);
    assert s[..4] == Pad(d.year, 4);
    assert s[5..7] == Pad(d.month, 2);
    assert s[8..] == Pad(d.day, 2);
    assert Pow10(4) == 10000 && Pow10(2) == 100;
  }

  /** The parser accepts only canonical text: whatever it accepts, `isoformat` writes back verbatim. */
  lemma IsoFormatOfParsed(s: string)
    requires ParseIsoDate(s).Some?
    ensures IsoFormat(ParseIsoDate(s).value) == s
  {
    PadOfDigits(s[..4]);
    PadOfDigits(s[5..7]);
    PadOfDigits(s[8..]);
    assert s == s[..4] + "-" + s[5..7] + "-" + s[8..];
  }
}

=== FILE: models.dfy ===
/**
 * The persistent entities (`UserProfile`, `ManagerRequest`, `QPRRecord` with its
 * section rows, and Django's `User`), the store that holds them, the
 * `sync_user_profile` signal and the deletion cascade of the foreign keys.
 */
module Models {
  import opened Wrappers
  import opened Codec

  type UserId = nat
  type RecordId = nat
  type RequestId = nat

  // ------------------------------------------------------------ enumerations

  /** `UserProfile.ROLE_CHOICES`. */
  datatype Role = UserRole | HodRole | AdminRole

  function RoleName(r: Role): string
  {
    match r
    case UserRole => "user"
    case HodRole => "hod"
    case AdminRole => "admin"
  }

  /** The role a stored choice string names, if any. */
  function ParseRole(s: string): (r: Option<Role>)
    ensures r.Some? ==> RoleName(r.value) == s
    ensures r.None? ==> s != "user" && s != "hod" && s != "admin"
  {
    if s == "user" then Some(UserRole)
    else if s == "hod" then Some(HodRole)
    else if s == "admin" then Some(AdminRole)
    else None
  }

  /** Every role's choice string names it back, so the three strings are distinct. */
  lemma ParseRoleName(r: Role)
    ensures ParseRole(RoleName(r)) == Some(r)
  {
  }

  /** `ManagerRequest.REQUEST_TYPE_CHOICES`. */
  datatype RequestKind = ProfileKind | QprKind | BothKind

  function KindName(k: RequestKind): string
  {
    match k
    case ProfileKind => "profile"
    case QprKind => "qpr"
    case BothKind => "both"
  }

  /** `ManagerRequest.STATUS_CHOICES`; a new request is `Pending`. */
  datatype RequestStatus = Pending | Approved | Rejected

  // ------------------------------------------------------------ entities

  /** The fields of Django's `User` the views use; the password is kept as plain text (hashing is not modelled). */
  datatype Account = Account(username: string, firstName: string, email: string, password: Option<string>)

  /** `UserProfile`; the one-to-one link to its user is the key it is stored under. */
  datatype Profile = Profile(
    employeeCode: string,
    role: Role,
    hodName: Option<string>,
    name: Option<string>,
    email: Option<string>,
    officeName: Option<string>,
    officeCode: Option<string>,
    profileUpdated: bool)

  /**
   * `ManagerRequest`: `sender` is the model's `hod` field (whoever asks),
   * `recipient` its `user` field (the admin who decides).
   */
  datatype ManagerRequest = ManagerRequest(
    sender: UserId,
    recipient: UserId,
    kind: RequestKind,
    reason: string,
    status: RequestStatus)

  /**
   * `QPRRecord` together with its section rows, which are linked one-to-one
   * to it: at most one row per section, gone when the record goes.
   */
  datatype QprRecord = QprRecord(
    owner: Option<UserId>,
    officeName: string,
    officeCode: string,
    region: string,
    quarter: string,
    year: Option<string>,
    status: string,
    phone: Option<string>,
    email: Option<string>,
    isSubmitted: bool,
    sections: Sections)

  /** The model defaults of `QPRRecord.year` and `QPRRecord.status`, and the status that freezes a record. */
  const DefaultYear: string := "2025-2026"
  const DraftStatus: string := "Draft"
  const SubmittedStatus: string := "Submitted"

  /** The database: rows keyed by primary key, and the next key of each table. */
  datatype Store = Store(
    users: map<UserId, Account>,
    profiles: map<UserId, Profile>,
    requests: map<RequestId, ManagerRequest>,
    records: map<RecordId, QprRecord>,
    nextUser: nat,
    nextRequest: nat,
    nextRecord: nat)

  // ------------------------------------------------------------ invariant

  /** Every user has exactly one profile (the signal's promise) and every profile a user. */
  ghost predicate ProfilesMatchUsers(st: Store)
  {
    forall u :: u in st.users <==> u in st.profiles
  }

  /** `employee_code` is unique, and every account's username is its profile's code. */
  ghost predicate CodesUnique(st: Store)
  {
    && (forall u, v :: u in st.profiles && v in st.profiles && u != v ==>
          st.profiles[u].employeeCode != st.profiles[v].employeeCode)
    && (forall u :: u in st.profiles && u in st.users ==> st.users[u].username == st.profiles[u].employeeCode)
  }

  /** Every key in use is below the table's next key. */
  ghost predicate KeysFresh(st: Store)
  {
    && (forall u :: u in st.users ==> u < st.nextUser)
    && (forall i :: i in st.requests ==> i < st.nextRequest)
    && (forall i :: i in st.records ==> i < st.nextRecord)
  }

  /** Foreign keys point at existing users. */
  ghost predicate LinksExist(st: Store)
  {
    && (forall i :: i in st.requests ==> st.requests[i].sender in st.users && st.requests[i].recipient in st.users)
    && (forall i :: i in st.records && st.records[i].owner.Some? ==> st.records[i].owner.value in st.users)
  }

  /** A record is frozen exactly when its status is `'Submitted'`, and its section rows are well formed. */
  ghost predicate RecordValid(rec: QprRecord)
  {
    && (rec.isSubmitted <==> rec.status == SubmittedStatus)
    && WellFormedSections(rec.sections)
  }

  ghost predicate RecordsValid(st: Store)
  {
    forall i :: i in st.records ==> RecordValid(st.records[i])
  }

  ghost predicate Valid(st: Store)
  {
    ProfilesMatchUsers(st) && CodesUnique(st) && KeysFresh(st) && LinksExist(st) && RecordsValid(st)
  }

  // ------------------------------------------------------------ queries

  /** `UserProfile.objects.filter(employee_code=code).exists()` */
  predicate CodeTaken(st: Store, code: string)
  {
    exists u :: u in st.profiles && st.profiles[u].employeeCode == code
  }

  /** `User.objects.filter(username=name).exists()` */
  predicate UsernameTaken(st: Store, name: string)
  {
    exists u :: u in st.users && st.users[u].username == name
  }

  /** `request.user.profile.role`, `None` when the user has no profile. */
  function RoleOf(st: Store, u: UserId): (r: Option<Role>)
    ensures r.Some? <==> u in st.profiles
    ensures r.Some? ==> st.profiles[u].role == r.value
  {
    if u in st.profiles then Some(st.profiles[u].role) else None
  }

  predicate Ascending(us: seq<UserId>)
  {
    forall j, k :: 0 <= j < k < |us| ==> us[j] < us[k]
  }

  lemma AscendingHeadDistinct(us: seq<UserId>)
    requires Ascending(us) && |us| > 1
    ensures us[0] != us[1]
  {
  }

  /** The users below `n` whose profile satisfies `p`, in key order: a `UserProfile` query. */
  function ProfilesBelow(st: Store, n: nat, p: Profile -> bool): (us: seq<UserId>)
    ensures forall k :: 0 <= k < |us| ==> us[k] < n && us[k] in st.profiles && p(st.profiles[us[k]])
    ensures forall v: UserId :: v < n && v in st.profiles && p(st.profiles[v]) ==> v in us
    ensures Ascending(us)
  {
    if n == 0 then []
    else if n - 1 in st.profiles && p(st.profiles[n - 1]) then ProfilesBelow(st, n - 1, p) + [n - 1]
    else ProfilesBelow(st, n - 1, p)
  }

  /** The profiles satisfying `p`, every one of them in a valid store. */
  function ProfilesWhere(st: Store, p: Profile -> bool): (us: seq<UserId>)
    ensures forall k :: 0 <= k < |us| ==> us[k] in st.profiles && p(st.profiles[us[k]])
    ensures forall v: UserId :: v < st.nextUser && v in st.profiles && p(st.profiles[v]) ==> v in us
    ensures Ascending(us)
  {
    ProfilesBelow(st, st.nextUser, p)
  }

  /** In a valid store the query finds each matching profile exactly once. */
  lemma ProfilesWhereExact(st: Store, p: Profile -> bool, v: UserId)
    requires Valid(st)
    ensures v in ProfilesWhere(st, p) <==> v in st.profiles && p(st.profiles[v])
    ensures forall j, k ::
      (0 <= j < |ProfilesWhere(st, p)| && 0 <= k < |ProfilesWhere(st, p)| && ProfilesWhere(st, p)[j] == ProfilesWhere(st, p)[k]) ==> j == k
  {
    if v in st.profiles {
      assert v in st.users;
    }
  }

  /** A query that only one profile satisfies returns exactly that profile: `get()` finds it. */
  lemma {:induction false} ProfilesWhereUnique(st: Store, p: Profile -> bool, v: UserId)
    requires Valid(st)
    requires v in st.profiles && p(st.profiles[v])
    requires forall w :: w in st.profiles && p(st.profiles[w]) ==> w == v
    ensures ProfilesWhere(st, p) == [v]
  {
    var us := ProfilesWhere(st, p);
    ProfilesWhereExact(st, p, v);
    assert us[0] == v;
    if |us| > 1 {
      AscendingHeadDistinct(us);
      assert false;
    }
  }

  // ------------------------------------------------------------ the signal

  /** The profile `sync_user_profile` creates for a user that has none. */
  function NewProfile(username: string): Profile
  {
    Profile(username, UserRole, None, None, None, None, None, false)
  }

  /**
   * `sync_user_profile`, run after every save of user `u`: `get_or_create` of
   * its profile. An existing profile is left alone; otherwise a new one takes
   * the username as employee code, role `user` and `profile_updated = False`,
   * and the unique employee code makes the creation fail when the code is
   * taken.
   */
  function SyncProfile(st: Store, u: UserId): (r: Result<Store, string>)
    requires u in st.users
    ensures u in st.profiles ==> r == Ok(st)
    ensures u !in st.profiles ==> (r.Ok? <==> !CodeTaken(st, st.users[u].username))
    ensures r.Ok? ==> u in r.value.profiles && r.value.profiles.Keys == st.profiles.Keys + {u}
    ensures r.Ok? && u !in st.profiles ==> r.value.profiles[u] == NewProfile(st.users[u].username)
    ensures r.Ok? ==> forall v :: v in st.profiles ==> r.value.profiles[v] == st.profiles[v]
    ensures r.Ok? ==> r.value.(profiles := st.profiles) == st
  {
    if u in st.profiles then Ok(st)
    else if CodeTaken(st, st.users[u].username) then Err("UNIQUE constraint failed: employee_code")
    else Ok(st.(profiles := st.profiles[u := NewProfile(st.users[u].username)]))
  }

  /** Running the signal twice leaves the store as running it once. */
  lemma SyncProfileIdempotent(st: Store, u: UserId)
    requires u in st.users && SyncProfile(st, u).Ok?
    ensures u in SyncProfile(st, u).value.users
    ensures SyncProfile(SyncProfile(st, u).value, u) == SyncProfile(st, u)
  {
  }

  /** In a valid store every user already has its profile, so the signal changes nothing. */
  lemma SyncProfileNoOp(st: Store, u: UserId)
    requires Valid(st) && u in st.users
    ensures SyncProfile(st, u) == Ok(st)
  {
  }

  /**
   * `User.objects.create_user` followed by the signal. A taken username fails
   * before anything is written. The source would keep the new account when
   * the signal then fails; `CreateUserSignalSucceeds` shows that this cannot
   * happen from a valid store.
   */
  function CreateUser(st: Store, username: string, password: Option<string>, firstName: string, email: string)
    : (r: Result<(Store, UserId), string>)
    ensures UsernameTaken(st, username) ==> r.Err?
    ensures r.Ok? ==> r.value.1 == st.nextUser && r.value.0.nextUser == st.nextUser + 1
    ensures r.Ok? ==> r.value.0.users == st.users[r.value.1 := Account(username, firstName, email, password)]
    ensures r.Ok? ==> r.value.1 in r.value.0.profiles
  {
    if UsernameTaken(st, username) then Err("UNIQUE constraint failed: username")
    else
      var id := st.nextUser;
      var st1 := st.(users := st.users[id := Account(username, firstName, email, password)], nextUser := id + 1);
      assert id in st1.users;
      match SyncProfile(st1, id)
      case Ok(st2) => Ok((st2, id))
      case Err(e) => Err(e)
  }

  /**
   * From a valid store, creating a user with a fresh username succeeds, gives
   * it the signal's default profile, and leaves a valid store.
   */
  lemma CreateUserSignalSucceeds(st: Store, username: string, password: Option<string>, firstName: string, email: string)
    requires Valid(st) && !UsernameTaken(st, username)
    ensures CreateUser(st, username, password, firstName, email).Ok?
    ensures var (st', u) := CreateUser(st, username, password, firstName, email).value;
      u in st'.profiles && st'.profiles[u] == NewProfile(username) && Valid(st')
  {
    FreshUsernameFreeCode(st, username);
    var id := st.nextUser;
    var st1 := st.(users := st.users[id := Account(username, firstName, email, password)], nextUser := id + 1);
    assert id !in st.profiles;
    var st2 := st1.(profiles := st.profiles[id := NewProfile(username)]);
    assert SyncProfile(st1, id) == Ok(st2);
    AddUserValid(st, st2, id, username);
  }

  /** In a valid store usernames and employee codes coincide. */
  lemma UsernameIsCode(st: Store, name: string)
    requires Valid(st)
    ensures UsernameTaken(st, name) <==> CodeTaken(st, name)
  {
    if UsernameTaken(st, name) {
      var u :| u in st.users && st.users[u].username == name;
      assert u in st.profiles;
    }
    if CodeTaken(st, name) {
      var u :| u in st.profiles && st.profiles[u].employeeCode == name;
      assert u in st.users;
    }
  }

  /** A username no account has is no profile's code either. */
  lemma FreshUsernameFreeCode(st: Store, username: string)
    requires ProfilesMatchUsers(st) && CodesUnique(st) && !UsernameTaken(st, username)
    ensures !CodeTaken(st, username)
  {
  }

  lemma AddUserValid(st: Store, st2: Store, id: UserId, username: string)
    requires Valid(st) && id == st.nextUser && !CodeTaken(st, username)
    requires st2.users.Keys == st.users.Keys + {id} && st2.users[id].username == username
    requires forall v :: v in st.users ==> st2.users[v] == st.users[v]
    requires st2.profiles == st.profiles[id := NewProfile(username)]
    requires st2.requests == st.requests && st2.records == st.records
    requires st2.nextUser == id + 1 && st2.nextRequest == st.nextRequest && st2.nextRecord == st.nextRecord
    ensures Valid(st2)
  {
    AddUserCodes(st, st2, id, username);
  }

  lemma AddUserCodes(st: Store, st2: Store, id: UserId, username: string)
    requires CodesUnique(st) && KeysFresh(st) && id == st.nextUser && !CodeTaken(st, username)
    requires st2.users.Keys == st.users.Keys + {id} && st2.users[id].username == username
    requires forall v :: v in st.users ==> st2.users[v] == st.users[v]
    requires st2.profiles == st.profiles[id := NewProfile(username)]
    ensures CodesUnique(st2)
  {
  }

  // ------------------------------------------------------------ deletion cascade

  /**
   * Deleting user `u`: `on_delete=CASCADE` removes its profile, every request
   * it sent or received, and every QPR record it owns (with their section rows).
   */
  function DeleteUser(st: Store, u: UserId): (r: Store)
    ensures r.users.Keys == st.users.Keys - {u} && r.profiles.Keys == st.profiles.Keys - {u}
    ensures forall i :: i in r.requests <==> i in st.requests && st.requests[i].sender != u && st.requests[i].recipient != u
    ensures forall i :: i in r.records <==> i in st.records && st.records[i].owner != Some(u)
    ensures forall i :: i in r.requests ==> r.requests[i] == st.requests[i]
    ensures forall i :: i in r.records ==> r.records[i] == st.records[i]
  {
    st.(users := st.users - {u},
        profiles := st.profiles - {u},
        requests := map i | i in st.requests && st.requests[i].sender != u && st.requests[i].recipient != u :: st.requests[i],
        records := map i | i in st.records && st.records[i].owner != Some(u) :: st.records[i])
  }

  /** The cascade leaves no row pointing at the deleted user, so the store stays valid. */
  lemma DeleteUserValid(st: Store, u: UserId)
    requires Valid(st)
    ensures Valid(DeleteUser(st, u))
    ensures forall i :: i in DeleteUser(st, u).records ==> DeleteUser(st, u).records[i].owner != Some(u)
  {
    DeleteUserLinks(st, u);
    DeleteUserCodes(st, u);
  }

  lemma DeleteUserLinks(st: Store, u: UserId)
    requires LinksExist(st)
    ensures LinksExist(DeleteUser(st, u))
  {
  }

  lemma DeleteUserCodes(st: Store, u: UserId)
    requires CodesUnique(st)
    ensures CodesUnique(DeleteUser(st, u))
  {
  }

  // ------------------------------------------------------------ frame lemmas

  /** Replacing the requests by ones between existing users, under used keys, keeps the store valid. */
  lemma ValidWithRequests(st: Store, reqs: map<RequestId, ManagerRequest>, next: nat)
    requires Valid(st) && st.nextRequest <= next
    requires forall j :: j in reqs ==> j < next && reqs[j].sender in st.users && reqs[j].recipient in st.users
    ensures Valid(st.(requests := reqs, nextRequest := next))
  {
  }

  /** Storing a valid record of an existing user (or of nobody) under a used key keeps the store valid. */
  lemma ValidWithRecord(st: Store, i: RecordId, rec: QprRecord, next: nat)
    requires Valid(st) && st.nextRecord <= next && i < next && RecordValid(rec)
    requires rec.owner.Some? ==> rec.owner.value in st.users
    ensures Valid(st.(records := st.records[i := rec], nextRecord := next))
  {
    var st' := st.(records := st.records[i := rec], nextRecord := next);
    SameAccounts(st, st');
    RecordStored(st, i, rec, next);
  }

  /** The account-side parts of the invariant depend on users and profiles only. */
  lemma SameAccounts(st: Store, st': Store)
    requires ProfilesMatchUsers(st) && CodesUnique(st)
    requires st'.users == st.users && st'.profiles == st.profiles
    ensures ProfilesMatchUsers(st') && CodesUnique(st')
  {
  }

  lemma RecordStored(st: Store, i: RecordId, rec: QprRecord, next: nat)
    requires KeysFresh(st) && LinksExist(st) && RecordsValid(st)
    requires st.nextRecord <= next && i < next && RecordValid(rec)
    requires rec.owner.Some? ==> rec.owner.value in st.users
    ensures var st' := st.(records := st.records[i := rec], nextRecord := next);
      KeysFresh(st') && LinksExist(st') && RecordsValid(st')
  {
  }

  /** Keeping a subset of the records keeps the store valid. */
  lemma ValidWithFewerRecords(st: Store, records: map<RecordId, QprRecord>)
    requires Valid(st)
    requires forall j :: j in records ==> j in st.records && records[j] == st.records[j]
    ensures Valid(st.(records := records))
  {
    var st' := st.(records := records);
    assert RecordsValid(st');
    assert LinksExist(st');
  }

  /** Rewriting accounts and profiles under the same keys keeps the store valid while codes stay unique. */
  lemma ValidWithAccounts(st: Store, users: map<UserId, Account>, profiles: map<UserId, Profile>)
    requires Valid(st) && users.Keys == st.users.Keys && profiles.Keys == st.profiles.Keys
    requires CodesUnique(st.(users := users, profiles := profiles))
    ensures Valid(st.(users := users, profiles := profiles))
  {
    var st' := st.(users := users, profiles := profiles);
    assert LinksExist(st');
    assert KeysFresh(st');
  }

  /** Changing a user's account and profile without touching username, code or role keeps the store valid. */
  lemma ValidWithProfile(st: Store, u: UserId, pr: Profile, acct: Account)
    requires Valid(st) && u in st.profiles && u in st.users
    requires pr.employeeCode == st.profiles[u].employeeCode && acct.username == st.users[u].username
    ensures Valid(st.(profiles := st.profiles[u := pr], users := st.users[u := acct]))
  {
    var st' := st.(profiles := st.profiles[u := pr], users := st.users[u := acct]);
    assert CodesUnique(st');
    assert LinksExist(st');
    assert KeysFresh(st');
  }
}

=== FILE: queries.dfy ===
/**
 * The profile queries the views run and the HOD dropdown they render
 * (`get_active_hods`). The registration and profile forms re-render the
 * dropdown on every refusal, so the workflow and the reports both rely on it.
 *
 * Profile filters are named by the `Query` datatype rather than passed as
 * closures, so that every lemma speaks of the same query the view runs.
 */
module Queries {
  import opened Wrappers
  import opened Text
  import opened Models

  // ------------------------------------------------------------ profile queries

  /** The `UserProfile` filters the reports run. */
  datatype Query =
    | Hods                            // role='hod'
    | Unassigned                      // role='user', hod_name__isnull=True
    | Named                           // role='user' with a non-empty hod_name
    | UnderName(name: Option<string>) // role='user', hod_name=name (None means IS NULL)
    | AssignedTo(key: string)         // role='user', hod_name__iexact=key

  predicate Matches(q: Query, pr: Profile)
  {
    match q
    case Hods => pr.role == HodRole
    case Unassigned => pr.role == UserRole && pr.hodName.None?
    case Named => pr.role == UserRole && Truthy(pr.hodName)
    case UnderName(name) => pr.role == UserRole && pr.hodName == name
    case AssignedTo(key) => pr.role == UserRole && pr.hodName.Some? && IEquals(pr.hodName.value, key)
  }

  /** The profiles a query returns, in key order. */
  function Where(st: Store, q: Query): seq<UserId>
  {
    ProfilesWhere(st, (pr: Profile) => Matches(q, pr))
  }

  /** The profiles a query is meant to return, as a set. */
  function Matching(st: Store, q: Query): set<UserId>
  {
    set u | u in st.profiles && Matches(q, st.profiles[u])
  }

  /** In a valid store a query returns exactly the matching profiles. */
  lemma WhereExact(st: Store, q: Query)
    requires Valid(st)
    ensures forall u :: u in Where(st, q) <==> u in Matching(st, q)
  {
    forall u | u in Matching(st, q)
      ensures u in Where(st, q)
    {
      assert u in st.users;
    }
  }

  // ------------------------------------------------------------ HOD dropdown

  /** `profile.hod_name`, `None` without a profile. */
  function HodNameOf(st: Store, u: UserId): Option<string>
  {
    if u in st.profiles then st.profiles[u].hodName else None
  }

  /** `user.first_name`, empty without an account. */
  function FirstNameOf(st: Store, u: UserId): string
  {
    if u in st.users then st.users[u].firstName else ""
  }

  function HodNamesOf(st: Store, us: seq<UserId>): (r: seq<Option<string>>)
    ensures |r| == |us| && forall k :: 0 <= k < |us| ==> r[k] == HodNameOf(st, us[k])
  {
    seq(|us|, k requires 0 <= k < |us| => HodNameOf(st, us[k]))
  }

  function FirstNamesOf(st: Store, us: seq<UserId>): (r: seq<string>)
    ensures |r| == |us| && forall k :: 0 <= k < |us| ==> r[k] == FirstNameOf(st, us[k])
  {
    seq(|us|, k requires 0 <= k < |us| => FirstNameOf(st, us[k]))
  }

  /** The texts among nullable strings, in order. */
  function SomeValues(os: seq<Option<string>>): (r: seq<string>)
    ensures forall n :: n in r <==> Some(n) in os
  {
    if |os| == 0 then []
    else
      var rest := SomeValues(os[1..]);
      assert os == [os[0]] + os[1..];
      if os[0].Some? then [os[0].value] + rest else rest
  }

  /** In a valid store the HOD names a query yields are those of the matching profiles. */
  lemma HodNamesExact(st: Store, q: Query, o: Option<string>)
    requires Valid(st)
    ensures o in HodNamesOf(st, Where(st, q)) <==>
      exists u :: u in st.profiles && Matches(q, st.profiles[u]) && st.profiles[u].hodName == o
  {
    var us := Where(st, q);
    WhereExact(st, q);
    if o in HodNamesOf(st, us) {
      var k :| 0 <= k < |us| && HodNamesOf(st, us)[k] == o;
      assert us[k] in Matching(st, q);
    }
    if u :| u in st.profiles && Matches(q, st.profiles[u]) && st.profiles[u].hodName == o {
      assert u in Matching(st, q);
      var k :| 0 <= k < |us| && us[k] == u;
      assert HodNamesOf(st, us)[k] == o;
    }
  }

  /** In a valid store the first names of the unassigned users are those of the unassigned profiles. */
  lemma FirstNamesExact(st: Store, n: string)
    requires Valid(st)
    ensures n in FirstNamesOf(st, Where(st, Unassigned)) <==>
      exists u :: u in st.profiles && Matches(Unassigned, st.profiles[u]) && FirstNameOf(st, u) == n
  {
    var us := Where(st, Unassigned);
    WhereExact(st, Unassigned);
    if n in FirstNamesOf(st, us) {
      var k :| 0 <= k < |us| && FirstNamesOf(st, us)[k] == n;
      assert us[k] in Matching(st, Unassigned);
    }
    if u :| u in st.profiles && Matches(Unassigned, st.profiles[u]) && FirstNameOf(st, u) == n {
      assert u in Matching(st, Unassigned);
      var k :| 0 <= k < |us| && us[k] == u;
      assert FirstNamesOf(st, us)[k] == n;
    }
  }

  /**
   * What `sorted(set(names))` yields when `names` mixes HOD names that may be
   * `None` with first names: the sorted texts; just `[None]` when `None` is
   * the only value; and a `TypeError` when `None` must be ordered against a
   * text.
   */
  datatype Dropdown = Choices(names: seq<string>) | NullOnly | Unorderable

  /** The texts `get_active_hods` collects: the HOD names that are set and the unassigned users' first names. */
  function DropdownTexts(st: Store): seq<string>
  {
    SomeValues(HodNamesOf(st, Where(st, Hods))) + FirstNamesOf(st, Where(st, Unassigned))
  }

  /**
   * `get_active_hods`: the distinct HOD names of the HOD profiles together
   * with the first names of the `user` profiles that have no HOD name, sorted.
   */
  function ActiveHods(st: Store): (r: Dropdown)
    ensures r.Choices? <==> None !in HodNamesOf(st, Where(st, Hods))
    ensures r.Choices? ==> StrictlySorted(r.names) && forall n :: n in r.names <==> n in DropdownTexts(st)
    ensures r.NullOnly? <==> None in HodNamesOf(st, Where(st, Hods)) && |DropdownTexts(st)| == 0
  {
    var names := SortedDistinct(DropdownTexts(st));
    if None !in HodNamesOf(st, Where(st, Hods)) then Choices(names)
    else if |names| == 0 then
      SortedDistinctEmpty(DropdownTexts(st));
      NullOnly
    else Unorderable
  }

  lemma SortedDistinctEmpty(xs: seq<string>)
    ensures |SortedDistinct(xs)| == 0 ==> |xs| == 0
  {
    if |xs| > 0 {
      assert xs[0] in SortedDistinct(xs);
    }
  }

  /** Some HOD profile has the HOD name `n`, or some unassigned user has the first name `n`. */
  predicate Offered(st: Store, n: string)
  {
    || (exists u :: u in st.profiles && Matches(Hods, st.profiles[u]) && st.profiles[u].hodName == Some(n))
    || (exists u :: u in st.profiles && Matches(Unassigned, st.profiles[u]) && FirstNameOf(st, u) == n)
  }

  /** A HOD profile without a HOD name. */
  predicate NullHod(st: Store)
  {
    exists u :: u in st.profiles && Matches(Hods, st.profiles[u]) && st.profiles[u].hodName.None?
  }

  /** In a valid store the texts collected are exactly the names on offer. */
  lemma DropdownTextsExact(st: Store, n: string)
    requires Valid(st)
    ensures n in DropdownTexts(st) <==> Offered(st, n)
  {
    HodNamesExact(st, Hods, Some(n));
    FirstNamesExact(st, n);
  }

  /**
   * In a valid store the dropdown offers exactly the HOD names of the HOD
   * profiles and the first names of unassigned users, sorted; a HOD profile
   * without a HOD name makes the sort fail as soon as any name is on offer.
   */
  lemma ActiveHodsExact(st: Store, n: string)
    requires Valid(st)
    ensures ActiveHods(st).Choices? <==> !NullHod(st)
    ensures ActiveHods(st).Choices? ==> (n in ActiveHods(st).names <==> Offered(st, n))
    ensures ActiveHods(st).Unorderable? ==> NullHod(st) && exists m :: Offered(st, m)
  {
    HodNamesExact(st, Hods, None);
    DropdownTextsExact(st, n);
    if ActiveHods(st).Unorderable? {
      var m := DropdownTexts(st)[0];
      DropdownTextsExact(st, m);
    }
  }
}

=== FILE: reports.dfy ===
/**
 * The read-only reports: the tallies, the HOD dashboard's counts and the
 * admin dashboard's per-HOD table with its list of pending user requests.
 */
module Reports {
  import opened Wrappers
  import opened Text
  import opened Models
  import opened Queries
  import opened Workflow

  // ------------------------------------------------------------ tallies

  /**
   * The owners of a record with status `'Submitted'` (`submittedStatus`), or
   * of a record with `is_submitted=True`: the two ways the views ask whether
   * a user has submitted a QPR.
   */
  function Submitters(st: Store, submittedStatus: bool): set<UserId>
  {
    set i | i in st.records && st.records[i].owner.Some?
              && (if submittedStatus then st.records[i].status == SubmittedStatus else st.records[i].isSubmitted)
      :: st.records[i].owner.value
  }

  /** The users whose profile is finalised (`profile_updated`). */
  function Finalised(st: Store): set<UserId>
  {
    set u | u in st.profiles && st.profiles[u].profileUpdated
  }

  /** In a valid store the two ways of asking "has submitted a QPR" agree. */
  lemma SubmittedIsFrozen(st: Store)
    requires RecordsValid(st)
    ensures Submitters(st, true) == Submitters(st, false)
  {
    forall u | u in Submitters(st, true)
      ensures u in Submitters(st, false)
    {
      var i :| i in st.records && st.records[i].owner == Some(u) && st.records[i].status == SubmittedStatus;
      assert RecordValid(st.records[i]);
    }
    forall u | u in Submitters(st, false)
      ensures u in Submitters(st, true)
    {
      var i :| i in st.records && st.records[i].owner == Some(u) && st.records[i].isSubmitted;
      assert RecordValid(st.records[i]);
    }
  }

  /** How many of `us` are in `s`: a `.count()` or a `sum(1 for ...)` over a query. */
  function Count(us: seq<UserId>, s: set<UserId>): (n: nat)
    ensures n <= |us|
    ensures (forall k :: 0 <= k < |us| ==> us[k] in s) ==> n == |us|
  {
    if |us| == 0 then 0
    else Count(us[..|us| - 1], s) + (if us[|us| - 1] in s then 1 else 0)
  }

  /** The elements of a list, as a set. */
  function Elems(us: seq<UserId>): (m: set<UserId>)
    ensures forall u :: u in m <==> u in us
  {
    if |us| == 0 then {}
    else
      assert us == us[..|us| - 1] + [us[|us| - 1]];
      Elems(us[..|us| - 1]) + {us[|us| - 1]}
  }

  /** Counting a duplicate-free list counts the elements it shares with `s`. */
  lemma {:induction false} CountIsCard(us: seq<UserId>, s: set<UserId>)
    requires Ascending(us)
    ensures Count(us, s) == |Elems(us) * s|
  {
    if |us| > 0 {
      var init := us[..|us| - 1];
      var last := us[|us| - 1];
      assert Ascending(init);
      CountIsCard(init, s);
      assert last !in Elems(init) by {
        forall k | 0 <= k < |init|
          ensures init[k] != last
        {
          assert us[k] < us[|us| - 1];
        }
      }
      var a := Elems(init) * s;
      assert last !in a;
      if last in s {
        assert Elems(us) * s == a + {last};
      } else {
        assert Elems(us) * s == a;
      }
    }
  }

  /** Counting a duplicate-free list that holds exactly the set `m`. */
  lemma CountOfSet(us: seq<UserId>, m: set<UserId>, s: set<UserId>)
    requires Ascending(us) && forall u :: u in us <==> u in m
    ensures Count(us, s) == |m * s|
  {
    CountIsCard(us, s);
    assert Elems(us) == m;
  }

  /** In a valid store counting over a query counts the matching profiles that are in `s`. */
  lemma CountWhere(st: Store, q: Query, s: set<UserId>)
    requires Valid(st)
    ensures Count(Where(st, q), s) == |Matching(st, q) * s|
  {
    WhereExact(st, q);
    CountOfSet(Where(st, q), Matching(st, q), s);
  }

  /** In a valid store a query returns as many profiles as match. */
  lemma SizeWhere(st: Store, q: Query)
    requires Valid(st)
    ensures |Where(st, q)| == |Matching(st, q)|
  {
    var m := Matching(st, q);
    CountWhere(st, q, m);
    assert m * m == m;
  }

  // ------------------------------------------------------------ HOD dashboard

  datatype HodSummary = HodSummary(hodName: Option<string>, total: nat, submitted: nat, pending: int, profileUpdated: nat)

  /**
   * `hod_dashboard`: HODs only (anyone else is sent to `/`). The HOD's users
   * are the `user` profiles whose HOD name equals the HOD's own exactly, so a
   * HOD without a HOD name sees the users without one.
   */
  function HodDashboard(st: Store, caller: UserId): (r: Result<HodSummary, Reply>)
    ensures r.Ok? <==> RoleOf(st, caller) == Some(HodRole)
    ensures RoleOf(st, caller).None? ==> r == Err(Failed(500, NoProfile))
    ensures r.Ok? ==> r.value.hodName == st.profiles[caller].hodName
    ensures r.Ok? ==> r.value.submitted <= r.value.total && r.value.profileUpdated <= r.value.total
    ensures r.Ok? ==> r.value.pending >= 0 && r.value.submitted + r.value.pending == r.value.total
  {
    match RoleOf(st, caller)
    case None => Err(Failed(500, NoProfile))
    case Some(role) =>
      if role != HodRole then Err(Redirect(Home))
      else
        var name := st.profiles[caller].hodName;
        var us := Where(st, UnderName(name));
        var submitted := Count(us, Submitters(st, false));
        Ok(HodSummary(name, |us|, submitted, |us| - submitted, Count(us, Finalised(st))))
  }

  /** In a valid store the HOD dashboard counts the HOD's users, those with a submitted QPR, and those with a finalised profile. */
  lemma HodDashboardCounts(st: Store, hod: UserId)
    requires Valid(st) && RoleOf(st, hod) == Some(HodRole)
    ensures var s := HodDashboard(st, hod).value; var q := UnderName(st.profiles[hod].hodName);
      && s.total == |Matching(st, q)|
      && s.submitted == |Matching(st, q) * Submitters(st, false)|
      && s.profileUpdated == |Matching(st, q) * Finalised(st)|
  {
    var q := UnderName(st.profiles[hod].hodName);
    SizeWhere(st, q);
    CountWhere(st, q, Submitters(st, false));
    CountWhere(st, q, Finalised(st));
  }

  // ------------------------------------------------------------ admin dashboard

  /** Euclidean division bounds the quotient from both sides. */
  lemma DivBounds(a: nat, t: nat)
    requires t > 0
    ensures (a / t) * t <= a < (a / t + 1) * t
  {
    var d, m := a / t, a % t;
    assert a == d * t + m && 0 <= m < t;
    assert (d + 1) * t == d * t + t;
  }

  /** Cancelling a positive factor preserves `<=`. */
  lemma CancelLe(a: int, b: int, t: int)
    requires t > 0 && a * t <= b * t
    ensures a <= b
  {
    assert (b - a) * t == b * t - a * t;
  }

  /** Cancelling a positive factor preserves `<`. */
  lemma CancelLt(a: int, b: int, t: int)
    requires t > 0 && a * t < b * t
    ensures a < b
  {
    assert (b - a) * t == b * t - a * t;
  }

  /** The floor of `100 q / t` lies between 0 and 100 and is bracketed by the exact quotient. */
  lemma PercentBounds(q: nat, t: nat)
    requires 0 < t && q <= t
    ensures (100 * q) / t <= 100
    ensures ((100 * q) / t) * t <= 100 * q < ((100 * q) / t + 1) * t
  {
    var p := (100 * q) / t;
    DivBounds(100 * q, t);
    assert 100 * q <= 100 * t;
    CancelLe(p, 100, t);
  }

  /** `int(q / t * 100)` when `t > 0`, else 0, on exact rationals. */
  function Percent(q: nat, t: nat): (pct: nat)
    requires q <= t
    ensures pct <= 100
    ensures t == 0 ==> pct == 0
    ensures t > 0 ==> pct * t <= 100 * q < (pct + 1) * t
  {
    if t > 0 then
      PercentBounds(q, t);
      (100 * q) / t
    else 0
  }

  /** Every user of a HOD done makes 100 percent. */
  lemma PercentFull(t: nat)
    requires t > 0
    ensures Percent(t, t) == 100
  {
    var p := Percent(t, t);
    assert 100 * t < (p + 1) * t;
    CancelLt(100, p + 1, t);
  }

  /** One row of the admin table. `code` is absent for a user who is their own HOD. */
  datatype HodRow = HodRow(name: string, total: nat, profileComplete: nat, qprComplete: nat, pct: nat, code: Option<string>)

  predicate RowConsistent(r: HodRow)
  {
    && r.profileComplete <= r.total && r.qprComplete <= r.total && r.pct <= 100
    && (r.total == 0 ==> r.pct == 0)
  }

  /** The statistics of the `user` profiles whose HOD name matches `key` ignoring case. */
  function StatsRow(st: Store, name: string, key: string, code: Option<string>): (r: HodRow)
    ensures RowConsistent(r)
  {
    var us := Where(st, AssignedTo(key));
    var qpr := Count(us, Submitters(st, true));
    HodRow(Upper(name), |us|, Count(us, Finalised(st)), qpr, Percent(qpr, |us|), code)
  }

  /** `hod_profile.hod_name or hod_profile.name or hod_profile.employee_code`: the name users are matched on. */
  function HodKey(pr: Profile): string
  {
    if Truthy(pr.hodName) then pr.hodName.value else if Truthy(pr.name) then pr.name.value else pr.employeeCode
  }

  /** `hod_profile.name or hod_key or 'UNKNOWN'` */
  function HodDisplay(pr: Profile): string
  {
    if Truthy(pr.name) then pr.name.value else if HodKey(pr) != "" then HodKey(pr) else "UNKNOWN"
  }

  function HodRowOf(st: Store, h: UserId): (r: HodRow)
    ensures RowConsistent(r)
  {
    if h in st.profiles then StatsRow(st, HodDisplay(st.profiles[h]), HodKey(st.profiles[h]), Some(st.profiles[h].employeeCode))
    else StatsRow(st, "UNKNOWN", "", None)
  }

  /** Some HOD profile carries exactly the HOD name `n`. */
  predicate Covered(st: Store, n: string)
  {
    exists v :: v in st.profiles && Matches(Hods, st.profiles[v]) && st.profiles[v].hodName == Some(n)
  }

  /** The names of `ns` that no HOD profile carries, in order. */
  function DropCovered(st: Store, ns: seq<string>): (r: seq<string>)
    ensures forall n :: n in r <==> n in ns && !Covered(st, n)
    ensures StrictlySorted(ns) ==> StrictlySorted(r)
  {
    if |ns| == 0 then []
    else
      var rest := DropCovered(st, ns[1..]);
      assert ns == [ns[0]] + ns[1..];
      if Covered(st, ns[0]) then rest
      else
        assert StrictlySorted(ns) ==> forall y :: y in rest ==> Less(ns[0], y);
        [ns[0]] + rest
  }

  /**
   * The HOD names of `user` profiles that no HOD profile carries exactly,
   * sorted: `unique_hod_names - actual_hod_names`.
   */
  function UncoveredNames(st: Store): (r: seq<string>)
    ensures StrictlySorted(r)
  {
    DropCovered(st, SortedDistinct(SomeValues(HodNamesOf(st, Where(st, Named)))))
  }

  /** In a valid store the uncovered names are the non-empty user HOD names that no HOD profile carries. */
  lemma UncoveredExact(st: Store, n: string)
    requires Valid(st)
    ensures n in UncoveredNames(st) <==>
      (exists u :: u in st.profiles && Matches(Named, st.profiles[u]) && st.profiles[u].hodName == Some(n)) && !Covered(st, n)
  {
    HodNamesExact(st, Named, Some(n));
  }

  /** The rows of the uncovered names, each titled and keyed by its name, with an empty employee code. */
  function UncoveredRows(st: Store, ns: seq<string>): seq<HodRow>
  {
    seq(|ns|, k requires 0 <= k < |ns| => StatsRow(st, ns[k], ns[k], Some("")))
  }

  /** `user.user.first_name or user.name or user.employee_code or 'UNKNOWN'` */
  function OwnDisplay(st: Store, u: UserId): string
  {
    if FirstNameOf(st, u) != "" then FirstNameOf(st, u)
    else if u in st.profiles && Truthy(st.profiles[u].name) then st.profiles[u].name.value
    else if u in st.profiles && st.profiles[u].employeeCode != "" then st.profiles[u].employeeCode
    else "UNKNOWN"
  }

  function HodRows(st: Store, hs: seq<UserId>): seq<HodRow>
  {
    seq(|hs|, k requires 0 <= k < |hs| => HodRowOf(st, hs[k]))
  }

  /** The rows of users who are their own HOD: titled by the user, counting nobody, without an employee code. */
  function OwnRows(st: Store, us: seq<UserId>): seq<HodRow>
  {
    seq(|us|, k requires 0 <= k < |us| => HodRow(Upper(OwnDisplay(st, us[k])), 0, 0, 0, 0, None))
  }

  /** A pending request raised by a `user`, as the admin dashboard lists it. */
  datatype PendingRow = PendingRow(id: RequestId, sender: string, recipient: string, kind: RequestKind, reason: string)

  predicate PendingFromUser(st: Store, i: RequestId)
  {
    && i in st.requests && st.requests[i].status == Pending
    && st.requests[i].sender in st.profiles && st.profiles[st.requests[i].sender].role == UserRole
  }

  /** The pending requests from users with ids below `n`, in id order. */
  function PendingBelow(st: Store, n: nat): (ids: seq<RequestId>)
    ensures forall k :: 0 <= k < |ids| ==> ids[k] < n && PendingFromUser(st, ids[k])
    ensures forall i: RequestId :: i < n && PendingFromUser(st, i) ==> i in ids
  {
    if n == 0 then []
    else if PendingFromUser(st, n - 1) then PendingBelow(st, n - 1) + [n - 1]
    else PendingBelow(st, n - 1)
  }

  /**
   * The dashboard rows of the requests `ids`: the sender's employee code and
   * `r.user.profile.name or r.user.profile.employee_code` for the recipient;
   * `None` when some recipient has no profile, which raises.
   */
  function PendingRows(st: Store, ids: seq<RequestId>): (r: Option<seq<PendingRow>>)
    requires forall k :: 0 <= k < |ids| ==> ids[k] in st.requests && st.requests[ids[k]].sender in st.profiles
    ensures r.Some? <==> forall k :: 0 <= k < |ids| ==> st.requests[ids[k]].recipient in st.profiles
    ensures r.Some? ==> |r.value| == |ids| && forall k :: 0 <= k < |ids| ==> r.value[k].id == ids[k]
  {
    if |ids| == 0 then Some([])
    else
      var req := st.requests[ids[0]];
      if req.recipient !in st.profiles then None
      else
        match PendingRows(st, ids[1..])
        case None => None
        case Some(rest) =>
          var to := st.profiles[req.recipient];
          Some([PendingRow(ids[0], st.profiles[req.sender].employeeCode, Or(to.name, to.employeeCode), req.kind, req.reason)] + rest)
  }

  datatype AdminSummary = AdminSummary(rows: seq<HodRow>, requests: seq<PendingRow>, totalHods: nat)

  /** The three blocks of the admin table, in order. */
  function AdminRows(st: Store): seq<HodRow>
  {
    HodRows(st, Where(st, Hods)) + UncoveredRows(st, UncoveredNames(st)) + OwnRows(st, Where(st, Unassigned))
  }

  /**
   * `admin_dashboard`: admins only (anyone else is sent to the login page).
   * One row per HOD profile, then one per uncovered HOD name, then one per
   * user who is their own HOD; then the pending requests raised by users.
   */
  function AdminDashboard(st: Store, caller: UserId): (r: Result<AdminSummary, Reply>)
    ensures r.Ok? ==> RoleOf(st, caller) == Some(AdminRole)
    ensures RoleOf(st, caller).Some? && RoleOf(st, caller) != Some(AdminRole) ==> r == Err(Redirect(LoginPage))
    ensures r.Ok? ==> r.value.rows == AdminRows(st) && r.value.totalHods == |r.value.rows|
  {
    match RoleOf(st, caller)
    case None => Err(Failed(500, NoProfile))
    case Some(role) =>
      if role != AdminRole then Err(Redirect(LoginPage))
      else
        match PendingRows(st, PendingBelow(st, st.nextRequest))
        case None => Err(Failed(500, NoProfile))
        case Some(reqs) => Ok(AdminSummary(AdminRows(st), reqs, |AdminRows(st)|))
  }

  /**
   * Every row is consistent: no count above the row's total, and a
   * percentage in 0..100 that is 0 for an empty group.
   */
  lemma AdminRowsConsistent(st: Store)
    ensures forall k :: 0 <= k < |AdminRows(st)| ==> RowConsistent(AdminRows(st)[k])
  {
    var a := HodRows(st, Where(st, Hods));
    var b := UncoveredRows(st, UncoveredNames(st));
    var c := OwnRows(st, Where(st, Unassigned));
    ConcatAll(a, b, c);
  }

  lemma ConcatAll(a: seq<HodRow>, b: seq<HodRow>, c: seq<HodRow>)
    requires forall k :: 0 <= k < |a| ==> RowConsistent(a[k])
    requires forall k :: 0 <= k < |b| ==> RowConsistent(b[k])
    requires forall k :: 0 <= k < |c| ==> RowConsistent(c[k])
    ensures forall k :: 0 <= k < |a + b + c| ==> RowConsistent((a + b + c)[k])
  {
  }

  /**
   * There is one row per HOD profile, uncovered name and unassigned user, in
   * that order, and the rows of users who are their own HOD count nothing.
   */
  lemma AdminRowsShape(st: Store)
    ensures var rows := AdminRows(st); var nh := |Where(st, Hods)|; var nu := |UncoveredNames(st)|;
      && |rows| == nh + nu + |Where(st, Unassigned)|
      && (forall k :: nh + nu <= k < |rows| ==> rows[k].total == 0 && rows[k].pct == 0 && rows[k].code.None?)
  {
    var a := HodRows(st, Where(st, Hods));
    var b := UncoveredRows(st, UncoveredNames(st));
    var c := OwnRows(st, Where(st, Unassigned));
    assert forall k :: 0 <= k < |c| ==> Empty(c[k]);
    LastBlockEmpty(a, b, c);
  }

  /** A row that counts nobody and names no HOD code. */
  predicate Empty(r: HodRow)
  {
    r.total == 0 && r.pct == 0 && r.code.None?
  }

  lemma LastBlockEmpty(a: seq<HodRow>, b: seq<HodRow>, c: seq<HodRow>)
    requires forall k :: 0 <= k < |c| ==> Empty(c[k])
    ensures forall k :: |a| + |b| <= k < |a + b + c| ==> Empty((a + b + c)[k])
  {
    forall k | |a| + |b| <= k < |a + b + c|
      ensures Empty((a + b + c)[k])
    {
      assert (a + b + c)[k] == c[k - |a| - |b|];
    }
  }

  /** Indexing the three blocks of the table. */
  lemma RowAt(a: seq<HodRow>, b: seq<HodRow>, c: seq<HodRow>, k: int)
    requires 0 <= k < |a| + |b| + |c|
    ensures (a + b + c)[k] == if k < |a| then a[k] else if k < |a| + |b| then b[k - |a|] else c[k - |a| - |b|]
  {
  }

  /**
   * In a valid store row `k` of the first block belongs to the `k`-th HOD
   * profile: it carries that HOD's code and counts the `user` profiles whose
   * HOD name matches the HOD's key ignoring case.
   */
  lemma HodRowAt(st: Store, k: int)
    requires Valid(st) && 0 <= k < |Where(st, Hods)|
    ensures var h := Where(st, Hods)[k]; var r := AdminRows(st)[k]; var q := AssignedTo(HodKey(st.profiles[h]));
      && h in st.profiles && st.profiles[h].role == HodRole
      && r.name == Upper(HodDisplay(st.profiles[h])) && r.code == Some(st.profiles[h].employeeCode)
      && r.total == |Matching(st, q)| && r.profileComplete == |Matching(st, q) * Finalised(st)|
      && r.qprComplete == |Matching(st, q) * Submitters(st, true)|
  {
    var a := HodRows(st, Where(st, Hods));
    var b := UncoveredRows(st, UncoveredNames(st));
    var c := OwnRows(st, Where(st, Unassigned));
    RowAt(a, b, c, k);
    HodRowCounts(st, Where(st, Hods)[k]);
  }

  /**
   * In a valid store the `k`-th row after the HOD rows belongs to the `k`-th
   * uncovered name: a name some `user` profile carries and no HOD profile
   * carries exactly. It has an empty code and counts the `user` profiles
   * matching the name ignoring case.
   */
  lemma UncoveredRowAt(st: Store, k: int)
    requires Valid(st) && 0 <= k < |UncoveredNames(st)|
    ensures var n := UncoveredNames(st)[k]; var r := AdminRows(st)[|Where(st, Hods)| + k]; var q := AssignedTo(n);
      && (exists u :: u in st.profiles && Matches(Named, st.profiles[u]) && st.profiles[u].hodName == Some(n))
      && !Covered(st, n)
      && r.name == Upper(n) && r.code == Some("")
      && r.total == |Matching(st, q)| && r.profileComplete == |Matching(st, q) * Finalised(st)|
      && r.qprComplete == |Matching(st, q) * Submitters(st, true)|
  {
    var n := UncoveredNames(st)[k];
    UncoveredRowIs(st, k);
    UncoveredExact(st, n);
    StatsRowCounts(st, n, n, Some(""));
  }

  lemma UncoveredRowIs(st: Store, k: int)
    requires 0 <= k < |UncoveredNames(st)|
    ensures var n := UncoveredNames(st)[k]; AdminRows(st)[|Where(st, Hods)| + k] == StatsRow(st, n, n, Some(""))
  {
    var ns := UncoveredNames(st);
    var a := HodRows(st, Where(st, Hods));
    var b := UncoveredRows(st, ns);
    var c := OwnRows(st, Where(st, Unassigned));
    assert |a| == |Where(st, Hods)|;
    UncoveredRowsAt(st, ns, k);
    RowAt(a, b, c, |a| + k);
    assert AdminRows(st) == a + b + c;
    assert (a + b + c)[|a| + k] == b[k];
  }

  lemma UncoveredRowsAt(st: Store, ns: seq<string>, k: int)
    requires 0 <= k < |ns|
    ensures |UncoveredRows(st, ns)| == |ns| && UncoveredRows(st, ns)[k] == StatsRow(st, ns[k], ns[k], Some(""))
  {
  }

  /**
   * The `k`-th of the last rows belongs to the `k`-th user without a HOD
   * name: titled by that user's first name, name or code, and counting
   * nobody, although such a user is treated as their own HOD.
   */
  lemma OwnRowAt(st: Store, k: int)
    requires 0 <= k < |Where(st, Unassigned)|
    ensures var u := Where(st, Unassigned)[k]; var r := AdminRows(st)[|Where(st, Hods)| + |UncoveredNames(st)| + k];
      && u in st.profiles && st.profiles[u].role == UserRole && st.profiles[u].hodName.None?
      && r == HodRow(Upper(OwnDisplay(st, u)), 0, 0, 0, 0, None)
  {
    var a := HodRows(st, Where(st, Hods));
    var b := UncoveredRows(st, UncoveredNames(st));
    var c := OwnRows(st, Where(st, Unassigned));
    RowAt(a, b, c, |a| + |b| + k);
  }

  /** In a valid store every recipient has a profile, so the request rows can be built. */
  lemma PendingRowsBuilt(st: Store)
    requires Valid(st)
    ensures PendingRows(st, PendingBelow(st, st.nextRequest)).Some?
  {
    var ids := PendingBelow(st, st.nextRequest);
    assert forall k :: 0 <= k < |ids| ==> st.requests[ids[k]].recipient in st.users;
  }

  /** In a valid store an admin always gets the dashboard, and its request list is exactly the pending requests from users. */
  lemma AdminDashboardRequests(st: Store, admin: UserId, i: RequestId)
    requires Valid(st) && RoleOf(st, admin) == Some(AdminRole)
    ensures AdminDashboard(st, admin).Ok?
    ensures (exists k :: 0 <= k < |AdminDashboard(st, admin).value.requests| && AdminDashboard(st, admin).value.requests[k].id == i)
      <==> PendingFromUser(st, i)
  {
    PendingRowsBuilt(st);
    var ids := PendingBelow(st, st.nextRequest);
    if PendingFromUser(st, i) {
      assert i in st.requests;
      var k :| 0 <= k < |ids| && ids[k] == i;
      assert AdminDashboard(st, admin).value.requests[k].id == i;
    }
  }

  /**
   * In a valid store a HOD profile's row counts the `user` profiles whose
   * HOD name matches the HOD's key ignoring case, those with a finalised
   * profile and those with a submitted QPR.
   */
  lemma HodRowCounts(st: Store, h: UserId)
    requires Valid(st) && h in st.profiles
    ensures var r := HodRowOf(st, h); var q := AssignedTo(HodKey(st.profiles[h]));
      && r.total == |Matching(st, q)|
      && r.profileComplete == |Matching(st, q) * Finalised(st)|
      && r.qprComplete == |Matching(st, q) * Submitters(st, true)|
      && r.code == Some(st.profiles[h].employeeCode) && r.name == Upper(HodDisplay(st.profiles[h]))
  {
    StatsRowCounts(st, HodDisplay(st.profiles[h]), HodKey(st.profiles[h]), Some(st.profiles[h].employeeCode));
  }

  /**
   * In a valid store a statistics row counts the `user` profiles matching its
   * key ignoring case, those finalised and those with a submitted QPR, and
   * its percentage is taken of those counts.
   */
  lemma StatsRowCounts(st: Store, name: string, key: string, code: Option<string>)
    requires Valid(st)
    ensures var r := StatsRow(st, name, key, code); var q := AssignedTo(key);
      && r.total == |Matching(st, q)|
      && r.profileComplete == |Matching(st, q) * Finalised(st)|
      && r.qprComplete == |Matching(st, q) * Submitters(st, true)|
      && r.pct == Percent(r.qprComplete, r.total)
      && r.name == Upper(name) && r.code == code
  {
    var q := AssignedTo(key);
    SizeWhere(st, q);
    CountWhere(st, q, Finalised(st));
    CountWhere(st, q, Submitters(st, true));
  }

  /**
   * Every `user` profile with a HOD name is counted in some row: under a HOD
   * profile that carries that name (whose key is then that name), or else
   * under the name itself as an uncovered group.
   */
  lemma EveryAssignedUserCounted(st: Store, u: UserId)
    requires Valid(st) && u in st.profiles && Matches(Named, st.profiles[u])
    ensures var n := st.profiles[u].hodName.value;
      || (exists h :: h in Where(st, Hods) && u in Matching(st, AssignedTo(HodKey(st.profiles[h]))))
      || (n in UncoveredNames(st) && u in Matching(st, AssignedTo(n)))
  {
    var n := st.profiles[u].hodName.value;
    assert u in Matching(st, AssignedTo(n));
    if Covered(st, n) {
      var h :| h in st.profiles && Matches(Hods, st.profiles[h]) && st.profiles[h].hodName == Some(n);
      WhereExact(st, Hods);
      assert h in Matching(st, Hods);
      assert HodKey(st.profiles[h]) == n;
    } else {
      UncoveredExact(st, n);
    }
  }

  // ------------------------------------------------------------ a double count

  /** A HOD carrying "ABC" and a user whose HOD name is "abc". */
  function CaseClashStore(): Store
  {
    Store(
      map[0 := Account("h", "H", "", None), 1 := Account("u", "U", "", None)],
      map[0 := Profile("h", HodRole, Some("ABC"), None, None, None, None, false),
          1 := Profile("u", UserRole, Some("abc"), None, None, None, None, false)],
      map[], map[], 2, 0, 0)
  }

  lemma CaseClashValid()
    ensures Valid(CaseClashStore())
  {
  }

  lemma CaseClashListed()
    ensures 0 in Where(CaseClashStore(), Hods)
  {
    var st := CaseClashStore();
    CaseClashValid();
    WhereExact(st, Hods);
    assert 0 in Matching(st, Hods);
  }

  lemma CaseClashUncovered()
    ensures "abc" in UncoveredNames(CaseClashStore())
  {
    var st := CaseClashStore();
    CaseClashValid();
    assert !Covered(st, "abc") by {
      assert "abc" != "ABC";
    }
    assert Matches(Named, st.profiles[1]);
    UncoveredExact(st, "abc");
  }

  lemma CaseClashMatched()
    ensures 1 in Matching(CaseClashStore(), AssignedTo(HodKey(CaseClashStore().profiles[0])))
    ensures 1 in Matching(CaseClashStore(), AssignedTo("abc"))
  {
    assert Lower("ABC") == Lower("abc");
  }

  /**
   * The uncovered names are removed by exact comparison but users are
   * matched ignoring case, so one user can be counted twice: the row of the
   * HOD carrying "ABC" and the uncovered row "abc" both count user 1.
   */
  lemma DoubleCountExample()
    ensures var st := CaseClashStore();
      && Valid(st)
      && 0 in Where(st, Hods) && "abc" in UncoveredNames(st)
      && 1 in Matching(st, AssignedTo(HodKey(st.profiles[0]))) && 1 in Matching(st, AssignedTo("abc"))
  {
    CaseClashValid();
    CaseClashListed();
    CaseClashUncovered();
    CaseClashMatched();
  }
}

=== FILE: text.dfy ===
/**
 * String helpers with the semantics of the Python and SQL operations the
 * application relies on: ASCII case folding (`lower()`, `upper()`, `iexact`),
 * `strip()`, the `in` substring test, truthiness of optional strings, decimal
 * printing and parsing (`str(int)`, `int(str)`) and code-point ordering of
 * strings (`sorted`).
 */
module Text {
  import opened Wrappers

  // ---------------------------------------------------------------- case

  function LowerChar(c: char): char
  {
    if 'A' <= c <= 'Z' then (c as int + 32) as char else c
  }

  function UpperChar(c: char): char
  {
    if 'a' <= c <= 'z' then (c as int - 32) as char else c
  }

  /** `s.lower()` restricted to ASCII letters. */
  function Lower(s: string): string
  {
    seq(|s|, i requires 0 <= i < |s| => LowerChar(s[i]))
  }

  /** `s.upper()` restricted to ASCII letters. */
  function Upper(s: string): string
  {
    seq(|s|, i requires 0 <= i < |s| => UpperChar(s[i]))
  }

  /** The database's case-insensitive equality (`__iexact`), ASCII folding only. */
  predicate IEquals(a: string, b: string)
  {
    Lower(a) == Lower(b)
  }

  // ---------------------------------------------------------------- substrings

  predicate IsPrefix(p: string, s: string)
  {
    |p| <= |s| && s[..|p|] == p
  }

  /** Python's `needle in hay`; the empty string is in every string. */
  predicate Contains(hay: string, needle: string)
    decreases |hay|
  {
    IsPrefix(needle, hay) || (|hay| > 0 && Contains(hay[1..], needle))
  }

  // ---------------------------------------------------------------- strip

  /** The ASCII characters for which Python's `str.isspace()` holds. */
  predicate IsSpace(c: char)
  {
    c as int == 32 || 9 <= c as int <= 13 || 28 <= c as int <= 31
  }

  function TrimLeft(s: string): string
    decreases |s|
  {
    if |s| > 0 && IsSpace(s[0]) then TrimLeft(s[1..]) else s
  }

  function TrimRight(s: string): string
    decreases |s|
  {
    if |s| > 0 && IsSpace(s[|s| - 1]) then TrimRight(s[..|s| - 1]) else s
  }

  /** `s.strip()` */
  function Strip(s: string): string
  {
    TrimRight(TrimLeft(s))
  }

  // ---------------------------------------------------------------- truthiness

  /** Python truthiness of a nullable string: neither `None` nor `''`. */
  predicate Truthy(o: Option<string>)
  {
    o.Some? && o.value != ""
  }

  /** Python's `o or fallback` for a nullable string. */
  function Or(o: Option<string>, fallback: string): string
  {
    if Truthy(o) then o.value else fallback
  }

  // ---------------------------------------------------------------- decimals

  predicate IsDigit(c: char)
  {
    '0' <= c <= '9'
  }

  predicate AllDigits(s: string)
  {
    forall i :: 0 <= i < |s| ==> IsDigit(s[i])
  }

  function DigitChar(d: nat): char
    requires d < 10
  {
    ('0' as int + d) as char
  }

  function DigitValue(c: char): nat
    requires IsDigit(c)
  {
    c as int - '0' as int
  }

  /** The number a string of decimal digits denotes (most significant first). */
  function DigitsValue(s: string): nat
    requires AllDigits(s)
    decreases |s|
  {
    if |s| == 0 then 0 else 10 * DigitsValue(s[..|s| - 1]) + DigitValue(s[|s| - 1])
  }

  /** Python's `str(n)` for a natural number: the canonical digit string. */
  function NatDigits(n: nat): (s: string)
    ensures |s| >= 1 && AllDigits(s)
    ensures DigitsValue(s) == n
    ensures |s| > 1 ==> s[0] != '0'
    decreases n
  {
    if n < 10 then [DigitChar(n)]
    else
      var prefix := NatDigits(n / 10);
      var s := prefix + [DigitChar(n % 10)];
      assert s[..|s| - 1] == prefix;
      s
  }

  /** Python's `str(i)` for an integer. */
  function DecimalString(i: int): string
  {
    if i < 0 then "-" + NatDigits(-i) else NatDigits(i)
  }

  /** The inputs this model accepts for Python's `int(str)`: an optional sign then digits. */
  predicate IsSignedDecimal(s: string)
  {
    || (|s| >= 2 && (s[0] == '-' || s[0] == '+') && AllDigits(s[1..]))
    || (|s| >= 1 && AllDigits(s))
  }

  /** Python's `int(str)` on signed decimal strings; `None` stands for the `ValueError`. */
  function ParseInt(s: string): (r: Option<int>)
    ensures r.Some? <==> IsSignedDecimal(s)
    ensures r.Some? && |s| >= 1 && IsDigit(s[0]) ==> r.value >= 0
  {
    if |s| >= 2 && (s[0] == '-' || s[0] == '+') && AllDigits(s[1..]) then
      Some(if s[0] == '-' then -(DigitsValue(s[1..]) as int) else DigitsValue(s[1..]))
    else if |s| >= 1 && AllDigits(s) then
      Some(DigitsValue(s))
    else
      None
  }

  /** `int(str(i)) == i` */
  lemma {:induction false} ParseDecimalString(i: int)
    ensures ParseInt(DecimalString(i)) == Some(i)
  {
    if i < 0 {
      var d := NatDigits(-i);
      assert DecimalString(i)[1..] == d;
    }
  }

  /** `str` is injective on integers. */
  lemma DecimalStringInjective(i: int, j: int)
    requires DecimalString(i) == DecimalString(j)
    ensures i == j
  {
    ParseDecimalString(i);
    ParseDecimalString(j);
  }

  // ---------------------------------------------------------------- ordering

  /** Python's `a < b` on strings: lexicographic by code point, a proper prefix first. */
  predicate Less(a: string, b: string)
    decreases |a|
  {
    |b| > 0 && (|a| == 0 || a[0] < b[0] || (a[0] == b[0] && Less(a[1..], b[1..])))
  }

  lemma {:induction false} LessIrreflexive(a: string)
    ensures !Less(a, a)
    decreases |a|
  {
    if |a| > 0 {
      LessIrreflexive(a[1..]);
    }
  }

  lemma {:induction false} LessTransitive(a: string, b: string, c: string)
    requires Less(a, b) && Less(b, c)
    ensures Less(a, c)
    decreases |a|
  {
    if |a| > 0 && a[0] == b[0] && b[0] == c[0] {
      LessTransitive(a[1..], b[1..], c[1..]);
    }
  }

  lemma {:induction false} LessTotal(a: string, b: string)
    requires a != b
    ensures Less(a, b) || Less(b, a)
    decreases |a|
  {
    if |a| > 0 && |b| > 0 && a[0] == b[0] {
      assert a == [a[0]] + a[1..] && b == [b[0]] + b[1..];
      LessTotal(a[1..], b[1..]);
    }
  }

  predicate StrictlySorted(s: seq<string>)
  {
    forall i, j :: 0 <= i < j < |s| ==> Less(s[i], s[j])
  }

  lemma LessThanAll(x: string, s: seq<string>)
    requires StrictlySorted(s) && |s| > 0 && Less(x, s[0])
    ensures forall j :: 0 <= j < |s| ==> Less(x, s[j])
  {
    forall j | 0 < j < |s|
      ensures Less(x, s[j])
    {
      LessTransitive(x, s[0], s[j]);
    }
  }

  /** Inserts `x` into a strictly sorted sequence, keeping it strictly sorted and duplicate-free. */
  function InsertSorted(x: string, s: seq<string>): (r: seq<string>)
    requires StrictlySorted(s)
    ensures StrictlySorted(r)
    ensures forall y :: y in r <==> y in s || y == x
    decreases |s|
  {
    if |s| == 0 then [x]
    else if x == s[0] then s
    else if Less(x, s[0]) then
      LessThanAll(x, s);
      [x] + s
    else
      LessTotal(x, s[0]);
      var rest := InsertSorted(x, s[1..]);
      assert forall y :: y in rest ==> Less(s[0], y) by {
        forall y | y in rest
          ensures Less(s[0], y)
        {
          if y != x {
            var k :| 0 <= k < |s[1..]| && s[1..][k] == y;
            assert s[k + 1] == y;
          }
        }
      }
      [s[0]] + rest
  }

  /** Python's `sorted(set(xs))` on strings. */
  function SortedDistinct(xs: seq<string>): (r: seq<string>)
    ensures StrictlySorted(r)
    ensures forall y :: y in r <==> y in xs
    decreases |xs|
  {
    if |xs| == 0 then []
    else
      var r := InsertSorted(xs[|xs| - 1], SortedDistinct(xs[..|xs| - 1]));
      assert xs == xs[..|xs| - 1] + [xs[|xs| - 1]];
      r
  }

  /** A strictly sorted sequence is determined by its elements, so `SortedDistinct` is the one answer. */
  lemma {:induction false} StrictlySortedUnique(a: seq<string>, b: seq<string>)
    requires StrictlySorted(a) && StrictlySorted(b)
    requires forall y :: y in a <==> y in b
    ensures a == b
    decreases |a|
  {
    assert |a| == 0 || a[0] in a;
    assert |b| == 0 || b[0] in b;
    if |a| > 0 {
      HeadIsLeast(b, a[0]);
      HeadIsLeast(a, b[0]);
      NotBothLess(a[0], b[0]);
      forall y
        ensures y in a[1..] <==> y in b[1..]
      {
        NotHeadInTail(a, y);
        NotHeadInTail(b, y);
      }
      StrictlySortedUnique(a[1..], b[1..]);
      assert a == [a[0]] + a[1..] && b == [b[0]] + b[1..];
    }
  }

  lemma NotBothLess(a: string, b: string)
    ensures !(Less(a, b) && Less(b, a))
  {
    if Less(a, b) && Less(b, a) {
      LessTransitive(a, b, a);
      LessIrreflexive(a);
    }
  }

  lemma HeadIsLeast(s: seq<string>, y: string)
    requires StrictlySorted(s) && y in s
    ensures y == s[0] || Less(s[0], y)
  {
    var k :| 0 <= k < |s| && s[k] == y;
    assert k == 0 || Less(s[0], s[k]);
  }

  lemma NotHeadInTail(s: seq<string>, y: string)
    requires StrictlySorted(s) && |s| > 0
    ensures y in s[1..] <==> y in s && y != s[0]
  {
    if y in s[1..] {
      var k :| 0 <= k < |s[1..]| && s[1..][k] == y;
      assert Less(s[0], s[k + 1]);
      LessIrreflexive(y);
    }
    if y in s && y != s[0] {
      var k :| 0 <= k < |s| && s[k] == y;
      assert s[1..][k - 1] == y;
    }
  }
}

=== FILE: workflow.dfy ===
/**
 * The edit-permission workflow: the QPR record API (`api_records`,
 * `api_record_detail`), edit requests to the admins (`request_edit_api`),
 * their approval (`admin_approve_request`) and the profile form
 * (`user_profile`). A submitted record or profile is frozen for the client;
 * an approved request from its owner unfreezes it until the next save.
 */
module Workflow {
  import opened Wrappers
  import opened Text
  import opened Codec
  import opened Models
  import opened Queries

  /** The pages a form view redirects to, by URL name. */
  datatype Page = Home | LoginPage | UserDashboard | HodDashboard | AdminDashboard | UserProfilePage

  function UrlName(p: Page): string
  {
    match p
    case Home => "/"
    case LoginPage => "login_view"
    case UserDashboard => "user_dashboard"
    case HodDashboard => "hod_dashboard"
    case AdminDashboard => "admin_dashboard"
    case UserProfilePage => "user_profile"
  }

  /**
   * Why a view refuses; `Message` gives the text the source shows for each.
   * Where the source appends an exception's text (`Login error: …`,
   * `Error creating account: …`, `Error creating HOD: …` and the server
   * errors), `Message` gives the fixed part only.
   */
  datatype Error =
    | Unauthorized | RecordNotFound | RecordMissing | InvalidMethod | NotANumber | DatabaseError
    | InvalidRequestType | NoAdmins | NoProfile | AdminOnly | HodListUnorderable
    | NameEmailRequired | HodNameRequired | ProfileFrozen
    | PasswordsDiffer | CodeRegistered | PasswordMissing | PasswordTooShort | CodeRequired | AccountNotCreated
    | InvalidLogin | MultipleProfiles | LoginFailed(cause: Error)
    | HodFieldsRequired | CodeExists | UsernameExists | HodNotCreated
    | WrongPassword | NewPasswordsDiffer | NewPasswordTooShort
    | RenameFieldsRequired | HodNotFound(code: string) | CodeInUse(code: string)

  function Message(e: Error): string
  {
    match e
    case Unauthorized => "Unauthorized"
    case RecordNotFound => "Record not found or access denied"
    case RecordMissing => "Record not found"
    case InvalidMethod => "Invalid method"
    case NotANumber => "Field 'id' expected a number"
    case DatabaseError => "the database error's text"
    case InvalidRequestType => "Invalid request type"
    case NoAdmins => "No Admin users found in the system"
    case NoProfile => "User has no profile"
    case AdminOnly => "Access denied. Admin only."
    case HodListUnorderable => "'<' not supported between instances of 'NoneType' and 'str'"
    case NameEmailRequired => "Name and email are required"
    case HodNameRequired => "HOD name is required"
    case ProfileFrozen => "You cannot edit a submitted profile. Please request approval from Admin first."
    case PasswordsDiffer => "Passwords do not match"
    case CodeRegistered => "Employee code already registered"
    case PasswordMissing => "object of type 'NoneType' has no len()"
    case PasswordTooShort => "Password must be at least 6 characters long"
    case CodeRequired => "Employee code is required"
    case AccountNotCreated => "Error creating account"
    case InvalidLogin => "Invalid employee code, password, or role"
    case MultipleProfiles => "get() returned more than one UserProfile"
    case LoginFailed(cause) => "Login error: " + Message(cause)
    case HodFieldsRequired => "Employee code, name, and email are required"
    case CodeExists => "Employee code already exists"
    case UsernameExists => "Username already exists"
    case HodNotCreated => "Error creating HOD"
    case WrongPassword => "Current password is incorrect"
    case NewPasswordsDiffer => "New passwords do not match"
    case NewPasswordTooShort => "New password must be at least 6 characters"
    case RenameFieldsRequired => "All fields required: old_hod_name, new_hod_name, old_employee_code, new_employee_code"
    case HodNotFound(code) => "HOD with employee code " + code + " not found"
    case CodeInUse(code) => "Employee code " + code + " is already in use"
  }

  /**
   * What a view answers: a JSON success, a redirect, the form page rendered
   * again (HTTP 200) with an error message, or an error with its HTTP status.
   */
  datatype Reply =
    | Saved(id: RecordId)
    | Deleted
    | RequestsSent
    | HodUpdated
    | Redirect(page: Page)
    | Rendered(error: Error)
    | Failed(code: int, error: Error)

  /** The view refused: it showed its form again or answered with an error. */
  predicate Refused(r: Reply)
  {
    r.Rendered? || r.Failed?
  }

  datatype Outcome = Outcome(store: Store, reply: Reply)

  /**
   * A refusal of a form that offers the HOD dropdown: the view shows the
   * error and renders the form again with `get_active_hods()`, whose sort
   * raises a `TypeError`, a server error, when it cannot order the names.
   */
  function FormRefusal(st: Store, e: Error): Reply
  {
    if ActiveHods(st).Unorderable? then Failed(500, HodListUnorderable) else Rendered(e)
  }

  // ------------------------------------------------------------ edit permission

  /** Request `r` is an approved request of kind `kind` sent by user `u`. */
  predicate IsApproved(r: ManagerRequest, u: UserId, kind: RequestKind)
  {
    r.sender == u && r.kind == kind && r.status == Approved
  }

  /** `ManagerRequest.objects.filter(hod=u, request_type=kind, status='approved').exists()` */
  predicate HasApproved(st: Store, u: UserId, kind: RequestKind)
  {
    exists i :: i in st.requests && IsApproved(st.requests[i], u, kind)
  }

  datatype Permission = Permission(canEdit: bool, editApproved: bool)

  /**
   * `can_edit` and `edit_approved` of a record shown to user `u`: the approval
   * is looked up only for a submitted record, and it is any approved `qpr`
   * request of `u`, whichever record it was asked for.
   */
  function EditPermission(st: Store, u: UserId, rec: QprRecord): (p: Permission)
    ensures p.canEdit <==> !rec.isSubmitted || HasApproved(st, u, QprKind)
    ensures !rec.isSubmitted ==> !p.editApproved
    ensures p.editApproved ==> p.canEdit
  {
    var approved := rec.isSubmitted && HasApproved(st, u, QprKind);
    Permission(!rec.isSubmitted || approved, approved)
  }

  /**
   * An approval belongs to the requester, not to a record: two submitted
   * records of the same user are either both editable or both frozen.
   */
  lemma ApprovalNotPerRecord(st: Store, u: UserId, r1: QprRecord, r2: QprRecord)
    requires r1.isSubmitted && r2.isSubmitted
    ensures EditPermission(st, u, r1) == EditPermission(st, u, r2)
  {
  }

  // ------------------------------------------------------------ serialization

  /** `serialize_qpr_record` together with the permission fields the views add. */
  datatype RecordView = RecordView(
    id: RecordId,
    officeName: string,
    officeCode: string,
    region: string,
    quarter: string,
    year: string,
    status: string,
    phone: string,
    email: string,
    details: Details,
    canEdit: bool,
    editApproved: bool)

  function SerializeRecord(st: Store, u: UserId, id: RecordId, rec: QprRecord): (v: RecordView)
    ensures v.id == id && v.year != "" && v.status == rec.status
    ensures Truthy(rec.year) ==> v.year == rec.year.value
    ensures Permission(v.canEdit, v.editApproved) == EditPermission(st, u, rec)
  {
    var p := EditPermission(st, u, rec);
    RecordView(id, rec.officeName, rec.officeCode, rec.region, rec.quarter,
      Or(rec.year, DefaultYear), rec.status, Or(rec.phone, ""), Or(rec.email, ""),
      SerializeDetails(rec.sections), p.canEdit, p.editApproved)
  }

  /** Record `i` exists and belongs to `u`: `QPRRecord.objects.get(pk=i, user=u)` finds it. */
  predicate Owns(st: Store, u: UserId, i: int)
  {
    0 <= i && i in st.records && st.records[i].owner == Some(u)
  }

  predicate Descending(ids: seq<RecordId>)
  {
    forall j, k :: 0 <= j < k < |ids| ==> ids[j] > ids[k]
  }

  /** The ids below `n` of the records `u` owns, highest first (`order_by('-id')`). */
  function OwnedBelow(st: Store, u: UserId, n: nat): (ids: seq<RecordId>)
    ensures forall k :: 0 <= k < |ids| ==> ids[k] < n && Owns(st, u, ids[k])
    ensures forall i :: 0 <= i < n && Owns(st, u, i) ==> i in ids
    ensures Descending(ids)
  {
    if n == 0 then []
    else if Owns(st, u, n - 1) then [n - 1] + OwnedBelow(st, u, n - 1)
    else OwnedBelow(st, u, n - 1)
  }

  /** `GET /api/records`: the caller's records, newest first, each with its permission fields. */
  function ListRecords(st: Store, caller: Option<UserId>): (r: Result<seq<RecordView>, Reply>)
    ensures caller.None? <==> r.Err?
  {
    if caller.None? then Err(Failed(401, Unauthorized))
    else
      var ids := OwnedBelow(st, caller.value, st.nextRecord);
      Ok(seq(|ids|, k requires 0 <= k < |ids| => SerializeRecord(st, caller.value, ids[k], st.records[ids[k]])))
  }

  /** The listing holds every record of the caller and nothing else, newest first. */
  lemma ListRecordsExact(st: Store, u: UserId, i: int)
    requires Valid(st)
    ensures ListRecords(st, Some(u)).Ok?
    ensures Owns(st, u, i) <==> exists k :: 0 <= k < |ListRecords(st, Some(u)).value| && ListRecords(st, Some(u)).value[k].id == i
    ensures forall j, k :: 0 <= j < k < |ListRecords(st, Some(u)).value| ==>
      ListRecords(st, Some(u)).value[j].id > ListRecords(st, Some(u)).value[k].id
  {
    var ids := OwnedBelow(st, u, st.nextRecord);
    var views := ListRecords(st, Some(u)).value;
    assert forall k :: 0 <= k < |views| ==> views[k].id == ids[k];
    if Owns(st, u, i) {
      var k :| 0 <= k < |ids| && ids[k] == i;
      assert views[k].id == i;
    }
  }

  /** `api_record_detail`: one record of the caller's, or 401 / 404. */
  function RecordDetail(st: Store, caller: Option<UserId>, i: int): (r: Result<RecordView, Reply>)
    ensures r.Ok? <==> caller.Some? && Owns(st, caller.value, i)
    ensures r.Ok? ==> r.value.id == i && r.value.details == SerializeDetails(st.records[i].sections)
  {
    if caller.None? then Err(Failed(401, Unauthorized))
    else if !Owns(st, caller.value, i) then Err(Failed(404, RecordNotFound))
    else Ok(SerializeRecord(st, caller.value, i, st.records[i]))
  }

  // ------------------------------------------------------------ saving a record

  /**
   * The body of `POST /api/records`: `id` (absent, `null` or `0` creates), the
   * header values (absent keys take the view's defaults, `None` is JSON `null`)
   * and `details`.
   */
  datatype RecordPayload = RecordPayload(id: Option<int>, header: map<string, Option<string>>, details: Details)

  /** `data.get(key, default)` for a header value. */
  function HeaderGet(p: RecordPayload, key: string, default: string): Option<string>
  {
    if key in p.header then p.header[key] else Some(default)
  }

  datatype Header = Header(
    officeName: string,
    officeCode: string,
    region: string,
    quarter: string,
    status: string,
    phone: Option<string>,
    email: Option<string>)

  /**
   * The header the view writes; `null` in one of the five non-nullable
   * columns is rejected by the database.
   */
  function ReadHeader(p: RecordPayload): (r: Option<Header>)
    ensures r.Some? <==> (HeaderGet(p, "officeName", "").Some? && HeaderGet(p, "officeCode", "").Some?
      && HeaderGet(p, "region", "").Some? && HeaderGet(p, "quarter", "").Some? && HeaderGet(p, "status", DraftStatus).Some?)
    ensures r.Some? ==> Some(r.value.officeName) == HeaderGet(p, "officeName", "")
    ensures r.Some? ==> Some(r.value.officeCode) == HeaderGet(p, "officeCode", "")
    ensures r.Some? ==> Some(r.value.region) == HeaderGet(p, "region", "")
    ensures r.Some? ==> Some(r.value.quarter) == HeaderGet(p, "quarter", "")
    ensures r.Some? ==> Some(r.value.status) == HeaderGet(p, "status", DraftStatus)
    ensures r.Some? ==> r.value.phone == HeaderGet(p, "phone", "") && r.value.email == HeaderGet(p, "email", "")
  {
    var name := HeaderGet(p, "officeName", "");
    var code := HeaderGet(p, "officeCode", "");
    var region := HeaderGet(p, "region", "");
    var quarter := HeaderGet(p, "quarter", "");
    var status := HeaderGet(p, "status", DraftStatus);
    if name.None? || code.None? || region.None? || quarter.None? || status.None? then None
    else
      Some(Header(name.value, code.value, region.value, quarter.value, status.value,
        HeaderGet(p, "phone", ""), HeaderGet(p, "email", "")))
  }

  /** The update path: the header fields overwritten, `is_submitted` recomputed from the new status. */
  function UpdatedRecord(rec: QprRecord, h: Header, secs: Sections): QprRecord
  {
    rec.(officeName := h.officeName, officeCode := h.officeCode, region := h.region,
         quarter := h.quarter, status := h.status, phone := h.phone, email := h.email,
         isSubmitted := h.status == SubmittedStatus, sections := secs)
  }

  /** The create path: the model's default year, `is_submitted` from the status. */
  function CreatedRecord(u: UserId, h: Header, secs: Sections): QprRecord
  {
    QprRecord(Some(u), h.officeName, h.officeCode, h.region, h.quarter, Some(DefaultYear),
      h.status, h.phone, h.email, h.status == SubmittedStatus, secs)
  }

  /** Deleting `u`'s approved requests of kind `kind` (`filter(...).delete()`). */
  function ConsumeApprovals(reqs: map<RequestId, ManagerRequest>, u: UserId, kind: RequestKind)
    : (r: map<RequestId, ManagerRequest>)
    ensures forall i :: i in r <==> i in reqs && !IsApproved(reqs[i], u, kind)
    ensures forall i :: i in r ==> r[i] == reqs[i]
  {
    map i | i in reqs && !IsApproved(reqs[i], u, kind) :: reqs[i]
  }

  /** The payload asks for an update of record `i`. */
  predicate IsUpdate(p: RecordPayload)
  {
    p.id.Some? && p.id.value != 0
  }

  /**
   * `POST /api/records`. An update looks the record up among the caller's
   * (404 otherwise), overwrites the header, and when the new status is
   * `'Submitted'` deletes the caller's approved `qpr` requests; nothing checks
   * whether the record was frozen. A create stores a new record with the
   * default year. Both then overwrite all eleven section rows from `details`.
   */
  function SaveRecord(st: Store, caller: Option<UserId>, p: RecordPayload): (o: Outcome)
    ensures caller.None? ==> o == Outcome(st, Failed(401, Unauthorized))
    ensures o.reply.Failed? ==> o.store == st
  {
    if caller.None? then Outcome(st, Failed(401, Unauthorized))
    else if IsUpdate(p) then UpdateRecord(st, caller.value, p)
    else CreateRecord(st, caller.value, p)
  }

  function UpdateRecord(st: Store, u: UserId, p: RecordPayload): (o: Outcome)
    requires IsUpdate(p)
    ensures o.reply.Failed? ==> o.store == st
  {
    var i := p.id.value;
    if !Owns(st, u, i) then Outcome(st, Failed(404, RecordNotFound))
    else
      match ReadHeader(p)
      case None => Outcome(st, Failed(500, DatabaseError))
      case Some(h) =>
        match SaveSectionData(p.details)
        case Err(e) => Outcome(st, Failed(500, DatabaseError))
        case Ok(secs) =>
          var rec := UpdatedRecord(st.records[i], h, secs);
          var reqs := if rec.isSubmitted then ConsumeApprovals(st.requests, u, QprKind) else st.requests;
          Outcome(st.(records := st.records[i := rec], requests := reqs), Saved(i))
  }

  function CreateRecord(st: Store, u: UserId, p: RecordPayload): (o: Outcome)
    ensures o.reply.Failed? ==> o.store == st
  {
    match ReadHeader(p)
    case None => Outcome(st, Failed(500, DatabaseError))
    case Some(h) =>
      match SaveSectionData(p.details)
      case Err(e) => Outcome(st, Failed(500, DatabaseError))
      case Ok(secs) =>
        var i := st.nextRecord;
        Outcome(st.(records := st.records[i := CreatedRecord(u, h, secs)], nextRecord := i + 1), Saved(i))
  }

  /**
   * When a save succeeds: the caller owns the saved record, it carries the
   * new header and the sections decoded from `details` (whatever it held
   * before), it is frozen exactly when its status is `'Submitted'`, and an
   * update keeps the record's year.
   */
  lemma SaveRecordSaved(st: Store, u: UserId, p: RecordPayload)
    requires SaveRecord(st, Some(u), p).reply.Saved?
    ensures var o := SaveRecord(st, Some(u), p); var i := o.reply.id;
      && ReadHeader(p).Some? && SaveSectionData(p.details).Ok?
      && Owns(o.store, u, i)
      && var h := ReadHeader(p).value; var rec := o.store.records[i];
      && rec.officeName == h.officeName && rec.officeCode == h.officeCode && rec.region == h.region
      && rec.quarter == h.quarter && rec.phone == h.phone && rec.email == h.email
      && (IsUpdate(p) ==> i == p.id.value && rec.year == st.records[i].year)
      && o.store.records[i].status == ReadHeader(p).value.status
      && o.store.records[i].sections == SaveSectionData(p.details).value
      && (o.store.records[i].isSubmitted <==> o.store.records[i].status == SubmittedStatus)
      && (forall j :: j in st.records && j != i ==> j in o.store.records && o.store.records[j] == st.records[j])
  {
  }

  /** An update of a record the caller does not own (or that does not exist) answers 404 and changes nothing. */
  lemma UpdateNotOwned(st: Store, u: UserId, p: RecordPayload)
    requires IsUpdate(p) && !Owns(st, u, p.id.value)
    ensures SaveRecord(st, Some(u), p) == Outcome(st, Failed(404, RecordNotFound))
  {
  }

  /**
   * An update leaving the record `'Submitted'` deletes exactly the caller's
   * approved `qpr` requests: pending, rejected, `profile` and other users'
   * requests stay as they were.
   */
  lemma SubmittedUpdateConsumes(st: Store, u: UserId, p: RecordPayload, j: RequestId)
    requires IsUpdate(p) && SaveRecord(st, Some(u), p).reply.Saved?
    requires ReadHeader(p).value.status == SubmittedStatus
    ensures var st' := SaveRecord(st, Some(u), p).store;
      && (j in st'.requests <==> j in st.requests && !IsApproved(st.requests[j], u, QprKind))
      && (j in st'.requests ==> st'.requests[j] == st.requests[j])
  {
  }

  /** An update to any other status, and every create, deletes no request. */
  lemma OtherSavesKeepRequests(st: Store, u: UserId, p: RecordPayload)
    requires SaveRecord(st, Some(u), p).reply.Saved?
    requires !IsUpdate(p) || ReadHeader(p).value.status != SubmittedStatus
    ensures SaveRecord(st, Some(u), p).store.requests == st.requests
  {
  }

  /**
   * The server never checks the frozen flag: whether an update succeeds does
   * not depend on the requests in the store, nor on the record having been
   * submitted.
   */
  lemma UpdateIgnoresFreeze(st: Store, u: UserId, p: RecordPayload, reqs: map<RequestId, ManagerRequest>, frozen: bool)
    requires IsUpdate(p) && Owns(st, u, p.id.value)
    ensures var i := p.id.value;
      var st2 := st.(requests := reqs, records := st.records[i := st.records[i].(isSubmitted := frozen)]);
      SaveRecord(st2, Some(u), p).reply == SaveRecord(st, Some(u), p).reply
  {
  }

  /** A new record gets the next id, belongs to the caller and takes the default year `'2025-2026'`. */
  lemma CreateDefaults(st: Store, u: UserId, p: RecordPayload)
    requires !IsUpdate(p) && SaveRecord(st, Some(u), p).reply.Saved?
    ensures var o := SaveRecord(st, Some(u), p);
      && o.reply.id == st.nextRecord
      && o.store.records[st.nextRecord].owner == Some(u)
      && o.store.records[st.nextRecord].year == Some(DefaultYear)
  {
  }

  /**
   * After submitting an update the caller holds no approved `qpr` request, so
   * every submitted record of theirs, this one included, is frozen again.
   */
  lemma SubmitRefreezes(st: Store, u: UserId, p: RecordPayload)
    requires IsUpdate(p) && SaveRecord(st, Some(u), p).reply.Saved?
    requires ReadHeader(p).value.status == SubmittedStatus
    ensures var o := SaveRecord(st, Some(u), p);
      && o.store.records[o.reply.id].isSubmitted
      && !EditPermission(o.store, u, o.store.records[o.reply.id]).canEdit
  {
  }

  /** Saving keeps the store valid. */
  lemma SaveRecordValid(st: Store, caller: Option<UserId>, p: RecordPayload)
    requires Valid(st) && (caller.Some? ==> caller.value in st.users)
    ensures Valid(SaveRecord(st, caller, p).store)
  {
    var o := SaveRecord(st, caller, p);
    if o.reply.Saved? {
      var u := caller.value;
      var h := ReadHeader(p).value;
      var secs := SaveSectionData(p.details).value;
      if IsUpdate(p) {
        var i := p.id.value as nat;
        var rec := UpdatedRecord(st.records[i], h, secs);
        var reqs := if rec.isSubmitted then ConsumeApprovals(st.requests, u, QprKind) else st.requests;
        ValidWithRequests(st, reqs, st.nextRequest);
        ValidWithRecord(st.(requests := reqs), i, rec, st.nextRecord);
      } else {
        ValidWithRecord(st, st.nextRecord, CreatedRecord(u, h, secs), st.nextRecord + 1);
      }
    }
  }

  // ------------------------------------------------------------ deleting a record

  /** The delete request names record `j`, which the caller owns. */
  predicate Deletes(st: Store, caller: Option<UserId>, id: Option<string>, j: RecordId)
  {
    caller.Some? && Truthy(id) && ParseInt(id.value) == Some(j as int) && Owns(st, caller.value, j)
  }

  /**
   * `DELETE /api/records?id=...`: the query value as text; a missing or empty
   * id is answered "Invalid method", a non-numeric one raises in the lookup.
   * Only a record the caller owns is deleted; a missing one is not an error.
   */
  function DeleteRecord(st: Store, caller: Option<UserId>, id: Option<string>): (o: Outcome)
    ensures o.reply.Failed? ==> o.store == st
    ensures o.reply == Deleted <==> caller.Some? && Truthy(id) && ParseInt(id.value).Some?
    ensures o.store.requests == st.requests && o.store.users == st.users && o.store.profiles == st.profiles
    ensures forall j :: j in o.store.records <==> j in st.records && !Deletes(st, caller, id, j)
    ensures forall j :: j in o.store.records ==> o.store.records[j] == st.records[j]
  {
    if caller.None? then Outcome(st, Failed(401, Unauthorized))
    else if !Truthy(id) then Outcome(st, Failed(400, InvalidMethod))
    else match ParseInt(id.value)
      case None => Outcome(st, Failed(500, NotANumber))
      case Some(i) =>
        var records := map j | j in st.records && !(Owns(st, caller.value, j) && j == i) :: st.records[j];
        Outcome(st.(records := records), Deleted)
  }

  /** Deleting a record keeps the store valid and deletes no request: an approval outlives the record. */
  lemma DeleteRecordValid(st: Store, caller: Option<UserId>, id: Option<string>)
    requires Valid(st)
    ensures Valid(DeleteRecord(st, caller, id).store)
  {
    ValidWithFewerRecords(st, DeleteRecord(st, caller, id).store.records);
  }

  // ------------------------------------------------------------ edit requests

  predicate IsAdmin(pr: Profile)
  {
    pr.role == AdminRole
  }

  /** `User.objects.filter(profile__role='admin')`, in key order. */
  function Admins(st: Store): seq<UserId>
  {
    ProfilesWhere(st, IsAdmin)
  }

  /** Every entry is an admin. */
  lemma AdminsAreAdmins(st: Store)
    ensures forall k :: 0 <= k < |Admins(st)| ==> RoleOf(st, Admins(st)[k]) == Some(AdminRole)
  {
  }

  /** The request sent to one admin. */
  function EditRequest(sender: UserId, admin: UserId, kind: RequestKind, reason: string): ManagerRequest
  {
    ManagerRequest(sender, admin, kind, reason, Pending)
  }

  /**
   * The loop of `request_edit_api`: one new pending request from `sender` to
   * each of `admins`, under fresh keys, nothing else touched.
   */
  method SendToAdmins(st: Store, sender: UserId, admins: seq<UserId>, kind: RequestKind, reason: string)
    returns (st': Store)
    ensures st'.nextRequest == st.nextRequest + |admins|
    ensures forall k :: 0 <= k < |admins| ==>
      st.nextRequest + k in st'.requests && st'.requests[st.nextRequest + k] == EditRequest(sender, admins[k], kind, reason)
    ensures forall j :: j in st'.requests <==> j in st.requests || st.nextRequest <= j < st.nextRequest + |admins|
    ensures forall j :: j in st.requests && j < st.nextRequest ==> st'.requests[j] == st.requests[j]
    ensures st'.(requests := st.requests, nextRequest := st.nextRequest) == st
  {
    st' := st;
    var k := 0;
    while k < |admins|
      invariant 0 <= k <= |admins|
      invariant st'.nextRequest == st.nextRequest + k
      invariant forall m :: 0 <= m < k ==>
        st.nextRequest + m in st'.requests && st'.requests[st.nextRequest + m] == EditRequest(sender, admins[m], kind, reason)
      invariant forall j :: j in st'.requests <==> j in st.requests || st.nextRequest <= j < st.nextRequest + k
      invariant forall j :: j in st.requests && j < st.nextRequest ==> st'.requests[j] == st.requests[j]
      invariant st'.(requests := st.requests, nextRequest := st.nextRequest) == st
    {
      var id := st'.nextRequest;
      st' := st'.(requests := st'.requests[id := EditRequest(sender, admins[k], kind, reason)], nextRequest := id + 1);
      k := k + 1;
    }
  }

  /** The reason text stored with a `qpr` request. */
  function QprReason(rec: QprRecord, reason: string): string
  {
    "Edit request for QPR (" + rec.officeName + " - " + rec.quarter + "): " + reason
  }

  /** The reason text stored with a `profile` request. */
  function ProfileReason(reason: string): string
  {
    "Edit request for profile: " + reason
  }

  /**
   * `request_edit_api`: a `qpr` request first looks up the caller's record
   * (404), then, like a `profile` request, needs at least one admin (400) and
   * sends one pending request to each admin. Any other type is a 400.
   */
  method RequestEdit(st: Store, caller: Option<UserId>, requestType: Option<string>, recordId: Option<int>, reason: string)
    returns (o: Outcome)
    ensures o.reply.Failed? ==> o.store == st
    ensures caller.None? ==> o.reply == Failed(401, Unauthorized)
    ensures caller.Some? && requestType != Some("qpr") && requestType != Some("profile") ==>
      o.reply == Failed(400, InvalidRequestType)
    ensures caller.Some? && requestType == Some("qpr") && (recordId.None? || !Owns(st, caller.value, recordId.value)) ==>
      o.reply == Failed(404, RecordMissing)
    ensures o.reply.RequestsSent? <==> (caller.Some? && |Admins(st)| > 0
      && (requestType == Some("profile") || (requestType == Some("qpr") && recordId.Some? && Owns(st, caller.value, recordId.value))))
    ensures o.reply.RequestsSent? ==>
      var kind := if requestType == Some("qpr") then QprKind else ProfileKind;
      var text := if kind == QprKind then QprReason(st.records[recordId.value], reason) else ProfileReason(reason);
      && o.store.nextRequest == st.nextRequest + |Admins(st)|
      && (forall k :: 0 <= k < |Admins(st)| ==>
            (st.nextRequest + k in o.store.requests
             && o.store.requests[st.nextRequest + k] == EditRequest(caller.value, Admins(st)[k], kind, text)))
      && (forall j :: j in o.store.requests <==> j in st.requests || st.nextRequest <= j < o.store.nextRequest)
      && (forall j :: j in st.requests && j < st.nextRequest ==> o.store.requests[j] == st.requests[j])
      && o.store.(requests := st.requests, nextRequest := st.nextRequest) == st
  {
    if caller.None? {
      return Outcome(st, Failed(401, Unauthorized));
    }
    var u := caller.value;
    var kind: RequestKind;
    var text: string;
    if requestType == Some("qpr") {
      if recordId.None? || !Owns(st, u, recordId.value) {
        return Outcome(st, Failed(404, RecordMissing));
      }
      kind, text := QprKind, QprReason(st.records[recordId.value], reason);
    } else if requestType == Some("profile") {
      kind, text := ProfileKind, ProfileReason(reason);
    } else {
      return Outcome(st, Failed(400, InvalidRequestType));
    }
    var admins := Admins(st);
    if |admins| == 0 {
      return Outcome(st, Failed(400, NoAdmins));
    }
    var st' := SendToAdmins(st, u, admins, kind, text);
    o := Outcome(st', RequestsSent);
  }

  /** Sending requests keeps a valid store valid when the sender is a user. */
  lemma SendToAdminsValid(st: Store, st': Store, sender: UserId, admins: seq<UserId>, kind: RequestKind, reason: string)
    requires Valid(st) && sender in st.users
    requires forall k :: 0 <= k < |admins| ==> admins[k] in st.profiles
    requires st'.nextRequest == st.nextRequest + |admins|
    requires forall k :: 0 <= k < |admins| ==>
      st.nextRequest + k in st'.requests && st'.requests[st.nextRequest + k] == EditRequest(sender, admins[k], kind, reason)
    requires forall j :: j in st'.requests <==> j in st.requests || st.nextRequest <= j < st.nextRequest + |admins|
    requires forall j :: j in st.requests && j < st.nextRequest ==> st'.requests[j] == st.requests[j]
    requires st'.(requests := st.requests, nextRequest := st.nextRequest) == st
    ensures Valid(st')
  {
    forall j | j in st'.requests
      ensures st'.requests[j].sender in st'.users && st'.requests[j].recipient in st'.users
    {
      if j >= st.nextRequest {
        var k := j - st.nextRequest;
        assert st'.requests[st.nextRequest + k] == EditRequest(sender, admins[k], kind, reason);
      }
    }
    assert LinksExist(st');
  }

  // ------------------------------------------------------------ approval

  /**
   * `admin_approve_request`: anyone but an admin is sent to `/`; an admin's
   * `approve` or `reject` overwrites the request's status whatever it was,
   * any other action leaves it alone, and an unknown request changes nothing;
   * the admin always lands on the admin dashboard.
   */
  function ApproveRequest(st: Store, caller: UserId, id: RequestId, action: Option<string>): (o: Outcome)
    ensures RoleOf(st, caller) != Some(AdminRole) || id !in st.requests ==> o.store == st
    ensures RoleOf(st, caller).Some? && RoleOf(st, caller) != Some(AdminRole) ==> o.reply == Redirect(Home)
    ensures RoleOf(st, caller) == Some(AdminRole) ==> o.reply == Redirect(AdminDashboard)
    ensures o.store.(requests := st.requests) == st && o.store.requests.Keys == st.requests.Keys
    ensures forall j :: j in st.requests && j != id ==> o.store.requests[j] == st.requests[j]
    ensures id in st.requests ==> o.store.requests[id].(status := st.requests[id].status) == st.requests[id]
  {
    if RoleOf(st, caller).None? then Outcome(st, Failed(500, NoProfile))
    else if RoleOf(st, caller) != Some(AdminRole) then Outcome(st, Redirect(Home))
    else if id !in st.requests then Outcome(st, Redirect(AdminDashboard))
    else
      var r := st.requests[id];
      if action == Some("approve") then
        Outcome(st.(requests := st.requests[id := r.(status := Approved)]), Redirect(AdminDashboard))
      else if action == Some("reject") then
        Outcome(st.(requests := st.requests[id := r.(status := Rejected)]), Redirect(AdminDashboard))
      else Outcome(st, Redirect(AdminDashboard))
  }

  /**
   * There is no check that a request is still pending: an admin's action
   * decides the status whatever came before, so a rejected request can later
   * be approved and an approved one rejected.
   */
  lemma ApproveOverwrites(st: Store, admin: UserId, id: RequestId, action: string)
    requires RoleOf(st, admin) == Some(AdminRole) && id in st.requests
    ensures action == "approve" ==> ApproveRequest(st, admin, id, Some(action)).store.requests[id].status == Approved
    ensures action == "reject" ==> ApproveRequest(st, admin, id, Some(action)).store.requests[id].status == Rejected
    ensures action != "approve" && action != "reject" ==> ApproveRequest(st, admin, id, Some(action)).store == st
  {
  }

  /** Approving a request of `u`'s unfreezes every submitted record of `u` at once. */
  lemma ApprovalUnfreezes(st: Store, admin: UserId, id: RequestId, rec: QprRecord)
    requires RoleOf(st, admin) == Some(AdminRole) && id in st.requests && st.requests[id].kind == QprKind
    ensures EditPermission(ApproveRequest(st, admin, id, Some("approve")).store, st.requests[id].sender, rec).canEdit
  {
    var st' := ApproveRequest(st, admin, id, Some("approve")).store;
    assert IsApproved(st'.requests[id], st.requests[id].sender, QprKind);
  }

  lemma ApproveRequestValid(st: Store, caller: UserId, id: RequestId, action: Option<string>)
    requires Valid(st)
    ensures Valid(ApproveRequest(st, caller, id, action).store)
  {
    var o := ApproveRequest(st, caller, id, action);
    ValidWithRequests(st, o.store.requests, st.nextRequest);
    assert o.store == st.(requests := o.store.requests, nextRequest := st.nextRequest);
  }

  // ------------------------------------------------------------ the profile form

  /** What `user_profile` shows: the freeze flag, the approval and pending flags, and `can_edit`. */
  datatype ProfileState = ProfileState(submitted: bool, editApproved: bool, editPending: bool, canEdit: bool)

  /** `hod=u, request_type='profile', status='pending'` exists. */
  predicate HasPending(st: Store, u: UserId)
  {
    exists i :: i in st.requests && st.requests[i].sender == u && st.requests[i].kind == ProfileKind
      && st.requests[i].status == Pending
  }

  /** The flags are computed only for a submitted profile; an unsubmitted one is always editable. */
  function ProfileStateOf(st: Store, u: UserId): (ps: ProfileState)
    requires u in st.profiles
    ensures ps.submitted == st.profiles[u].profileUpdated
    ensures ps.editApproved <==> ps.submitted && HasApproved(st, u, ProfileKind)
    ensures ps.editPending <==> ps.submitted && HasPending(st, u)
    ensures ps.canEdit <==> !ps.submitted || HasApproved(st, u, ProfileKind)
  {
    var submitted := st.profiles[u].profileUpdated;
    var approved := submitted && HasApproved(st, u, ProfileKind);
    ProfileState(submitted, approved, submitted && HasPending(st, u), !submitted || approved)
  }

  /**
   * `POST` to `user_profile`: missing name or email, then missing HOD name,
   * then a submitted profile without approval are refused in that order, and
   * each refusal renders the form again with the HOD dropdown; a save sets name, email, HOD name and `profile_updated`, copies the email to
   * the account, and consumes the approval if one was used.
   */
  function UpdateProfile(st: Store, u: UserId, name: Option<string>, email: Option<string>, hodName: Option<string>)
    : (o: Outcome)
    ensures Refused(o.reply) ==> o.store == st
    ensures u !in st.profiles || u !in st.users ==> o.reply.Failed?
  {
    if u !in st.profiles || u !in st.users then Outcome(st, Failed(500, NoProfile))
    else
      var ps := ProfileStateOf(st, u);
      if !Truthy(name) || !Truthy(email) then Outcome(st, FormRefusal(st, NameEmailRequired))
      else if !Truthy(hodName) then Outcome(st, FormRefusal(st, HodNameRequired))
      else if ps.submitted && !ps.editApproved then
        Outcome(st, FormRefusal(st, ProfileFrozen))
      else
        var pr := st.profiles[u].(name := name, email := email, hodName := hodName, profileUpdated := true);
        var acct := st.users[u].(email := email.value);
        var reqs := if ps.editApproved then ConsumeApprovals(st.requests, u, ProfileKind) else st.requests;
        Outcome(st.(profiles := st.profiles[u := pr], users := st.users[u := acct], requests := reqs), Redirect(UserDashboard))
  }

  /**
   * The refusals, in the source's order: the form is refused exactly when a
   * field is missing or the profile is frozen. When the HOD dropdown can be
   * sorted each refusal renders the form again with its own error; when it
   * cannot, rendering the form turns every refusal into a server error.
   */
  lemma UpdateProfileRefusals(st: Store, u: UserId, name: Option<string>, email: Option<string>, hodName: Option<string>)
    requires u in st.profiles && u in st.users
    ensures var o := UpdateProfile(st, u, name, email, hodName);
      var sorts := !ActiveHods(st).Unorderable?;
      var frozen := st.profiles[u].profileUpdated && !HasApproved(st, u, ProfileKind);
      && (Refused(o.reply) <==> !Truthy(name) || !Truthy(email) || !Truthy(hodName) || frozen)
      && (sorts && (!Truthy(name) || !Truthy(email)) ==> o.reply == Rendered(NameEmailRequired))
      && (sorts && Truthy(name) && Truthy(email) && !Truthy(hodName) ==> o.reply == Rendered(HodNameRequired))
      && (sorts && Truthy(name) && Truthy(email) && Truthy(hodName) && frozen ==> o.reply == Rendered(ProfileFrozen))
      && (!sorts && Refused(o.reply) ==> o.reply == Failed(500, HodListUnorderable))
  {
  }

  /**
   * A successful save finalises the profile (so a later edit needs a new
   * approval), writes the email to the profile and to the account, and
   * deletes the caller's approved `profile` requests exactly when the profile
   * was already submitted; other profiles and accounts and the records are
   * kept.
   */
  lemma UpdateProfileSaved(st: Store, u: UserId, name: Option<string>, email: Option<string>, hodName: Option<string>, j: RequestId)
    requires UpdateProfile(st, u, name, email, hodName).reply.Redirect?
    ensures var st' := UpdateProfile(st, u, name, email, hodName).store;
      && u in st'.profiles && st'.profiles[u].profileUpdated
      && st'.profiles[u].name == name && st'.profiles[u].hodName == hodName
      && st'.profiles[u].employeeCode == st.profiles[u].employeeCode && st'.profiles[u].role == st.profiles[u].role
      && email.Some? && st'.profiles[u].email == email
      && u in st.users && st'.users == st.users[u := st.users[u].(email := email.value)]
      && (forall v :: v in st.profiles && v != u ==> v in st'.profiles && st'.profiles[v] == st.profiles[v])
      && (j in st'.requests <==> j in st.requests && !(st.profiles[u].profileUpdated && IsApproved(st.requests[j], u, ProfileKind)))
      && st'.records == st.records
  {
  }

  /** The profile form keeps the store valid: codes and roles are not touched. */
  lemma UpdateProfileValid(st: Store, u: UserId, name: Option<string>, email: Option<string>, hodName: Option<string>)
    requires Valid(st)
    ensures Valid(UpdateProfile(st, u, name, email, hodName).store)
  {
    var o := UpdateProfile(st, u, name, email, hodName);
    if o.reply.Redirect? {
      var ps := ProfileStateOf(st, u);
      var pr := st.profiles[u].(name := name, email := email, hodName := hodName, profileUpdated := true);
      var acct := st.users[u].(email := email.value);
      var reqs := if ps.editApproved then ConsumeApprovals(st.requests, u, ProfileKind) else st.requests;
      ValidWithRequests(st, reqs, st.nextRequest);
      ValidWithProfile(st.(requests := reqs), u, pr, acct);
    }
  }
}

=== FILE: wrappers.dfy ===
/** Failure-carrying result types shared by every module of the model. */
module Wrappers {

  /** A value that may be missing: Python's `None`, an absent dictionary key, a null column. */
  datatype Option<+T> = None | Some(value: T)
  {
    function GetOr(default: T): T
    {
      match this
      case Some(v) => v
      case None => default
    }
  }

  /** The outcome of an operation that either succeeds with a value or fails with an error. */
  datatype Result<+R, +E> = Ok(value: R) | Err(error: E)
}
